=== FILE: README.md ===
# Voxel world core: a Dafny model

This project models the voxel-world core of an augmented-reality sandbox app written in Kotlin.
The world is split into 16×16×16 chunks, kept in a sparse map keyed by integer chunk coordinates.
Chunks are filled by a flat-terrain generator and can have prefabricated structures stamped into
them; structures are read from a small line-based text format. A mesher turns every visible
block face into a quad, with its vertices shared through a per-chunk vertex list, and one submesh
per texture layer. A streaming controller (the world displayer) keeps the chunks around the
viewer generated, queues their meshes in a bounded queue and swaps the finished meshes in, once
per frame.

Modules follow the source files:

- `Wrappers`: `Option` and `Result`. An exception that the Kotlin code throws is an `Err` here.
- `KotlinMath`: Kotlin's truncating `/` and `%`, 32-bit wrap-around, and `ceilDiv` (utils/Math.kt).
- `Lists`: `indexOf` with its −1 for "absent".
- `Radix`: the three-digit mixed-radix numbering behind every flat array index in the program.
- `Positioning`: `Vec3i`, the six facings with their axis, direction and index, and `BlockPos`
  (utils/Positioning.kt).
- `Blocks`: the block record and its constructors, equality and hash, and the eight-block
  registry with the grass tint rule (block/Block.kt).
- `ChunkPositions`, `Chunks`, `Worlds`: chunk coordinates, floor-division lookup, range
  enumeration, per-chunk block storage with face visibility, and the chunk map (world/World.kt).
- `WorldGeneration`: the super-flat generator (world/generation/WorldGeneration.kt).
- `Structures`, `Text`, `StructureFormat`: the structure block array, its placement into a chunk,
  and the text-format parser (world/structure/Structure.kt).
- `StructureWriter`: a writer for the structure format. It does not exist in the program. It is
  here to state the parser's round trip: every writable structure parses back to itself.
- `Meshing`: `StupidMesher.build` and `BlockModelBakery` (rendering/WorldRendering.kt). `Meshing.Build`
  uses the vertex normals as the source writes them; `Meshing.BuildOutward` is the same build
  with outward normals (see Findings).
- `WorldDisplayers`: the world displayer state machine (world/WorldDisplayer.kt).
- `Palettes`: `Palette` (utils/palette/Palette.kt).

Kotlin `Int`s are unbounded here except where the program's behaviour depends on the wrap-around
(the hash codes). Floating-point geometry is replaced by the integer grid it stands for, because
`worldScale` is 1: a corner of the cell at (x, y, z) is (x or x+1, y or y+1, z or z+1).
Texture and material loading, which are asynchronous and go through the rendering library, become
a table of material slots that are either loaded or not.

A result that arrives when the queue already holds 100 makes `LinkedBlockingQueue.add` throw
inside an asynchronous callback, so the result is lost without being logged. `UpdateChunkMesh`
leaves the queue unchanged in that case.

## Model

| member | source | states |
|---|---|---|
| `Positioning.Vec3i.Plus` | app/src/main/java/me/gommeantilegit/minecraft/earth/utils/Positioning.kt:8 | the sum's every component exceeds this vector's by the argument's component |
| `Positioning.StepAlongFacing` | app/src/main/java/me/gommeantilegit/minecraft/earth/utils/Positioning.kt:8-19 | adding a facing's direction moves a vector one unit along that facing's axis, in its axis direction, and leaves the other components alone |
| `Positioning.StepThereAndBack` | app/src/main/java/me/gommeantilegit/minecraft/earth/utils/Positioning.kt:8-19 | adding a facing's direction and then the opposite facing's, in either order, gives the vector back |
| `Positioning.OfIndex` | app/src/main/java/me/gommeantilegit/minecraft/earth/utils/Positioning.kt:22-24 | a facing exists exactly for indices 0 to 5, and the facing returned carries the index asked for |
| `Positioning.FacingIndexOrder` | app/src/main/java/me/gommeantilegit/minecraft/earth/utils/Positioning.kt:11-19 | each facing's index is its place in the declaration order (down, up, north, south, west, east), and `ofIndex` inverts `index` |
| `Positioning.FacingDirectionIsUnit` | app/src/main/java/me/gommeantilegit/minecraft/earth/utils/Positioning.kt:11-19 | a facing's direction vector is the unit vector along its own axis, signed by its axis direction, and zero on the other axes |
| `Positioning.FacingOppositePairs` | app/src/main/java/me/gommeantilegit/minecraft/earth/utils/Positioning.kt:11-19 | facings 2k and 2k+1 share an axis; the first points negative and the second positive, with opposite direction vectors |
| `Positioning.OnlyYIsVertical` | app/src/main/java/me/gommeantilegit/minecraft/earth/utils/Positioning.kt:31-35 | an axis lies in the vertical plane exactly when it is Y |
| `Positioning.BlockPosOf` | app/src/main/java/me/gommeantilegit/minecraft/earth/utils/Positioning.kt:50 | the block position built from a vector has the vector's three components |
| `KotlinMath.TruncDiv` | app/src/main/java/me/gommeantilegit/minecraft/earth/utils/Math.kt:12 | Kotlin's integer quotient: its magnitude is the largest that fits into the dividend, and it is negative only when the operand signs differ |
| `KotlinMath.TruncRem` | app/src/main/java/me/gommeantilegit/minecraft/earth/utils/Math.kt:12 | Kotlin's remainder: dividend = quotient × divisor + remainder, smaller than the divisor in magnitude, with the dividend's sign |
| `KotlinMath.CeilDiv` | app/src/main/java/me/gommeantilegit/minecraft/earth/utils/Math.kt:11-13 | `ceilDiv` is the truncated quotient or one more, and it equals the truncated quotient exactly when the divisor divides the dividend |
| `KotlinMath.CeilDivIsLeast` | app/src/main/java/me/gommeantilegit/minecraft/earth/utils/Math.kt:11-13 | for a non-negative dividend and positive divisor, `ceilDiv` is the least q with q × b ≥ a, which is the true ceiling |
| `KotlinMath.CeilDivExactMultiple` | app/src/main/java/me/gommeantilegit/minecraft/earth/utils/Math.kt:12 | an exact multiple divides without rounding up |
| `KotlinMath.CeilDivNotDivisible` | app/src/main/java/me/gommeantilegit/minecraft/earth/utils/Math.kt:12 | when the division leaves a remainder, `ceilDiv` is one more than the truncated quotient |
| `KotlinMath.CeilDivOvershootsNegative` | app/src/main/java/me/gommeantilegit/minecraft/earth/utils/Math.kt:12 | for a negative non-multiple dividend and a positive divisor, `ceilDiv` is one above the true ceiling |
| `KotlinMath.CeilDivCounterexample` | app/src/main/java/me/gommeantilegit/minecraft/earth/utils/Math.kt:12 | `ceilDiv(-3, 2)` is 0, while the ceiling of −1.5 is −1 |
| `KotlinMath.Ceiling` | app/src/main/java/me/gommeantilegit/minecraft/earth/utils/Math.kt:11-13 | the true ceiling for either sign of divisor: (r − 1)·b < a ≤ r·b when b > 0, mirrored when b < 0 |
| `KotlinMath.CeilingUnique` | app/src/main/java/me/gommeantilegit/minecraft/earth/utils/Math.kt:11-13 | any q satisfying the ceiling inequalities equals `Ceiling` |
| `KotlinMath.ToInt32` | app/src/main/java/me/gommeantilegit/minecraft/earth/block/Block.kt:52-57 | the result is a 32-bit value congruent to the input modulo 2³², and an in-range input is unchanged |
| `Lists.IndexOf` | app/src/main/java/me/gommeantilegit/minecraft/earth/utils/palette/Palette.kt:8 | −1 exactly when the value is absent; otherwise a position holding the value, with no earlier occurrence |
| `Lists.IndexOfNoDup` | app/src/main/java/me/gommeantilegit/minecraft/earth/utils/palette/Palette.kt:7-17 | in a list without repeats, the index of the element at position i is i |
| `Blocks.NewBlock` | app/src/main/java/me/gommeantilegit/minecraft/earth/block/Block.kt:34-37 | construction succeeds exactly when a visible block has six texture stacks and an invisible one has none |
| `Blocks.SolidBlock` | app/src/main/java/me/gommeantilegit/minecraft/earth/block/Block.kt:25 | the visible-block constructor succeeds exactly with six stacks and keeps the given stacks and tint processor |
| `Blocks.SingleTextureBlock` | app/src/main/java/me/gommeantilegit/minecraft/earth/block/Block.kt:27 | the single-texture constructor always succeeds, giving every one of the six sides a one-layer stack of that texture |
| `Blocks.InvisibleBlock` | app/src/main/java/me/gommeantilegit/minecraft/earth/block/Block.kt:29-32 | the invisible-block constructor succeeds exactly when `invisible` is true, and gives no textures and no tint |
| `Blocks.BlockEquals` | app/src/main/java/me/gommeantilegit/minecraft/earth/block/Block.kt:39-50 | two blocks are equal exactly when they differ at most in visibility, material parameters and tint, that is, they agree on name, id and texture stacks |
| `Blocks.EqualsIgnoresRenderingFields` | app/src/main/java/me/gommeantilegit/minecraft/earth/block/Block.kt:39-50 | block equality ignores visibility, the material constants and the tint processor |
| `Blocks.StringHash` | app/src/main/java/me/gommeantilegit/minecraft/earth/block/Block.kt:53 | `unlocalizedName.hashCode()`: the 31·h + u fold over the name's UTF-16 code units stays in the 32-bit range |
| `Blocks.Utf16Units` | app/src/main/java/me/gommeantilegit/minecraft/earth/block/Block.kt:53 | the code units Java's string hash reads: one unit equal to the character below U+10000, else a high and a low surrogate that decode back to the character |
| `Blocks.Utf16OfBasicPlane` | app/src/main/java/me/gommeantilegit/minecraft/earth/block/Block.kt:53 | for a string with no character beyond U+FFFF the code units are the characters' own values, one each |
| `Blocks.StringHashOfSupplementary` | app/src/main/java/me/gommeantilegit/minecraft/earth/block/Block.kt:53 | a single character beyond U+FFFF hashes as 31·high + low over its two surrogates |
| `Blocks.StringHashOfBasicPair` | app/src/main/java/me/gommeantilegit/minecraft/earth/block/Block.kt:53 | two characters below U+10000 hash as 31·first + second |
| `Blocks.StringHashSamples` | app/src/main/java/me/gommeantilegit/minecraft/earth/block/Block.kt:53 | "ab" hashes to 31·97 + 98 |
| `Blocks.StringHashOfEmoji` | app/src/main/java/me/gommeantilegit/minecraft/earth/block/Block.kt:53 | U+1F600 hashes to 31·0xD83D + 0xDE00 = 1772899, not to its scalar value 128512 |
| `Blocks.StacksHash` | app/src/main/java/me/gommeantilegit/minecraft/earth/block/Block.kt:55 | the texture-array hash stays in the 32-bit range |
| `Blocks.BlockHash` | app/src/main/java/me/gommeantilegit/minecraft/earth/block/Block.kt:52-57 | the block hash stays in the 32-bit range |
| `Blocks.HashRespectsEquals` | app/src/main/java/me/gommeantilegit/minecraft/earth/block/Block.kt:39-57 | blocks that are equal have equal hash codes |
| `Blocks.RegistryFacts` | app/src/main/java/me/gommeantilegit/minecraft/earth/block/Block.kt:60-92 | the registry holds eight well-formed blocks; each id is its list position, only air is invisible, and names are distinct |
| `Blocks.ByName` | app/src/main/java/me/gommeantilegit/minecraft/earth/world/structure/Structure.kt:75 | a found block is registered under that name; no result means no registered block has that name |
| `Blocks.FindByName` | app/src/main/java/me/gommeantilegit/minecraft/earth/world/structure/Structure.kt:75 | the same, for any block list |
| `Blocks.ByNameFindsRegistered` | app/src/main/java/me/gommeantilegit/minecraft/earth/world/structure/Structure.kt:75 | every registered block is found by its own name |
| `Blocks.GrassTintedSides` | app/src/main/java/me/gommeantilegit/minecraft/earth/block/Block.kt:70 | grass tints exactly layer 0 of the top side and layer 1 of the four walls; never the bottom or a wall's base layer |
| `Blocks.GrassTintMatchesStacks` | app/src/main/java/me/gommeantilegit/minecraft/earth/block/Block.kt:65-72 | the tint rule, applied to the grass block's own stacks, tints exactly the grass-top and overlay layers |
| `ChunkPositions.Of` | app/src/main/java/me/gommeantilegit/minecraft/earth/world/World.kt:146-153 | each block coordinate lies in the 16-wide slab [16c, 16c + 16) of the chunk coordinate returned (floor division) |
| `ChunkPositions.OfIsUnique` | app/src/main/java/me/gommeantilegit/minecraft/earth/world/World.kt:146-153 | a chunk position is the one for a block exactly when the block lies in its three slabs |
| `ChunkPositions.OfNegative` | app/src/main/java/me/gommeantilegit/minecraft/earth/world/World.kt:149-151 | block (−1, 0, 0) belongs to chunk (−1, 0, 0), at local x 15; (−16, −17, 15) belongs to (−1, −2, 0) |
| `ChunkPositions.ChunkPosition.XPosition` | app/src/main/java/me/gommeantilegit/minecraft/earth/world/World.kt:122-125 | the x of a chunk's first block: a multiple of 16 inside the chunk's own slab on that axis |
| `ChunkPositions.ChunkPosition.YPosition` | app/src/main/java/me/gommeantilegit/minecraft/earth/world/World.kt:127-130 | the same on the y axis |
| `ChunkPositions.ChunkPosition.ZPosition` | app/src/main/java/me/gommeantilegit/minecraft/earth/world/World.kt:132-135 | the same on the z axis |
| `ChunkPositions.OriginInChunk` | app/src/main/java/me/gommeantilegit/minecraft/earth/world/World.kt:122-135 | a chunk's world origin plus any local offset in 0..15 maps back to that chunk |
| `ChunkPositions.IterateRange` | app/src/main/java/me/gommeantilegit/minecraft/earth/world/World.kt:110-120 | the range has (2d + 1)³ positions, and offset (a, b, c) sits at flat index (a·n + b)·n + c, with x varying slowest |
| `ChunkPositions.InIterateRange` | app/src/main/java/me/gommeantilegit/minecraft/earth/world/World.kt:110-120 | a position is listed exactly when it is within distance d of the centre on every axis |
| `ChunkPositions.IterateRangeDistinct` | app/src/main/java/me/gommeantilegit/minecraft/earth/world/World.kt:110-120 | no position is listed twice |
| `Chunks.NewChunk` | app/src/main/java/me/gommeantilegit/minecraft/earth/world/World.kt:187-193 | a new chunk has 4096 cells, all air, at the given position |
| `Chunks.NewChunkIsAir` | app/src/main/java/me/gommeantilegit/minecraft/earth/world/World.kt:193 | every in-bounds lookup in a new chunk reads air |
| `Chunks.GetIndex` | app/src/main/java/me/gommeantilegit/minecraft/earth/world/World.kt:214-218 | −1 exactly for out-of-bounds coordinates; otherwise an index in 0..4095 |
| `Chunks.GetIndexIsFlat3` | app/src/main/java/me/gommeantilegit/minecraft/earth/world/World.kt:217 | the index is the base-16 number with digits x, y, z |
| `Chunks.GetIndexInjective` | app/src/main/java/me/gommeantilegit/minecraft/earth/world/World.kt:214-218 | distinct in-bounds cells get distinct indices |
| `Chunks.GetIndexOnto` | app/src/main/java/me/gommeantilegit/minecraft/earth/world/World.kt:214-218 | every index 0..4095 is the index of some in-bounds cell |
| `Chunks.GetBlock` | app/src/main/java/me/gommeantilegit/minecraft/earth/world/World.kt:209 | a state comes back exactly for in-bounds coordinates, and it is the one stored at that cell's index |
| `Chunks.SameCellsSameChunk` | app/src/main/java/me/gommeantilegit/minecraft/earth/world/World.kt:193-209 | two chunks at one position that agree on every cell are the same chunk |
| `Chunks.SetBlock` | app/src/main/java/me/gommeantilegit/minecraft/earth/world/World.kt:220-222 | the write fails exactly out of bounds; otherwise the cell reads back the new state and every other cell is unchanged |
| `Chunks.CanSee` | app/src/main/java/me/gommeantilegit/minecraft/earth/world/World.kt:240-247 | fails exactly for a side outside 0..5; otherwise true exactly when the neighbour on that side is inside the chunk and invisible |
| `Chunks.CellwiseEquals` | app/src/main/java/me/gommeantilegit/minecraft/earth/world/World.kt:195-204 | comparing the state arrays index by index is the same as comparing the chunks at every local coordinate |
| `Chunks.ChunkEquals` | app/src/main/java/me/gommeantilegit/minecraft/earth/world/World.kt:195-204 | two chunks are equal exactly when, at every local coordinate, their blocks are equal under `Block.equals`; the positions take no part |
| `Chunks.StatesHash` | app/src/main/java/me/gommeantilegit/minecraft/earth/world/World.kt:250 | the deep hash of the state array stays in the 32-bit range |
| `Chunks.ChunkHash` | app/src/main/java/me/gommeantilegit/minecraft/earth/world/World.kt:249-251 | the chunk hash is a 32-bit value |
| `Chunks.StatesHashRespectsEquals` | app/src/main/java/me/gommeantilegit/minecraft/earth/world/World.kt:249-251 | state arrays whose blocks are pairwise equal hash alike |
| `Chunks.ChunkHashRespectsEquals` | app/src/main/java/me/gommeantilegit/minecraft/earth/world/World.kt:195-204 | equal chunks have equal hash codes |
| `Chunks.ChunkIdentityIgnoresPosition` | app/src/main/java/me/gommeantilegit/minecraft/earth/world/World.kt:195-204 | a chunk's equality and hash do not depend on its position, only on its contents |
| `Worlds.GetChunkAt` | app/src/main/java/me/gommeantilegit/minecraft/earth/world/WorldDisplayer.kt:37 | a chunk comes back exactly when the world has one at that position, and it is that chunk |
| `Worlds.AddChunk` | app/src/main/java/me/gommeantilegit/minecraft/earth/world/World.kt:176-178 | the chunk is stored at its own position; every other position keeps its chunk or its absence; a chunk at a new position adds one to the number of chunks |
| `Worlds.GetBlock` | app/src/main/java/me/gommeantilegit/minecraft/earth/world/World.kt:166-170 | as written: a missing chunk is created (nothing else changes), and the answer is a chunk-local lookup with world coordinates, so it is present exactly when the coordinates are in 0..15 |
| `Worlds.BlockAt` | app/src/main/java/me/gommeantilegit/minecraft/earth/world/World.kt:168-170 | corrected: no answer exactly when the block's chunk is missing; otherwise the state at the block's local coordinates in that chunk |
| `Worlds.BlockAtLocal` | app/src/main/java/me/gommeantilegit/minecraft/earth/world/World.kt:168-170 | corrected: the cell of a stored chunk at local coordinates is what the world lookup finds at the matching world coordinates |
| `Worlds.GetBlockAgreesOnlyInOriginChunk` | app/src/main/java/me/gommeantilegit/minecraft/earth/world/World.kt:169 | the written lookup gives the right state exactly when all three coordinates are in 0..15 |
| `Worlds.GetBlockMissesOtherChunks` | app/src/main/java/me/gommeantilegit/minecraft/earth/world/World.kt:169 | with a stone chunk at (1, 0, 0), the written lookup of block (17, 0, 0) finds nothing, while the block is stone |
| `Worlds.CanSeeMatchesExposure` | app/src/main/java/me/gommeantilegit/minecraft/earth/world/World.kt:240-247 | inside a stored chunk, `canSee` agrees with world-wide face exposure whenever the neighbour is in the same chunk, and answers false at the border |
| `WorldGeneration.SuperFlat` | app/src/main/java/me/gommeantilegit/minecraft/earth/world/generation/WorldGeneration.kt:15-21 | the generated chunk has grass on every cell of layer y = 0 and keeps every other cell and its position |
| `WorldGeneration.Generate` | app/src/main/java/me/gommeantilegit/minecraft/earth/world/generation/WorldGeneration.kt:15-21 | the loop writes grass on all of layer 0, leaves the other layers alone, and agrees with `SuperFlat` |
| `WorldGeneration.SuperFlatIdempotent` | app/src/main/java/me/gommeantilegit/minecraft/earth/world/generation/WorldGeneration.kt:15-21 | generating twice is the same as generating once |
| `WorldGeneration.SuperFlatIgnoresPosition` | app/src/main/java/me/gommeantilegit/minecraft/earth/world/generation/WorldGeneration.kt:15-21 | the generated cells do not depend on the chunk's position |
| `Structures.IndexIsFlat3` | app/src/main/java/me/gommeantilegit/minecraft/earth/world/structure/Structure.kt:11 | the structure index is the mixed-radix number with digits y, x, z |
| `Structures.IndexBijective` | app/src/main/java/me/gommeantilegit/minecraft/earth/world/structure/Structure.kt:10-12 | in-box cells get indices inside the block array, and distinct cells get distinct indices |
| `Structures.IndexOnto` | app/src/main/java/me/gommeantilegit/minecraft/earth/world/structure/Structure.kt:10-12 | every array index is the index of some in-box cell |
| `Structures.Get` | app/src/main/java/me/gommeantilegit/minecraft/earth/world/structure/Structure.kt:10-12 | `get` reads a cell of the block array: the one at the base-(sizeX, sizeZ) number with digits y, x, z |
| `Structures.SameCellsSameStructure` | app/src/main/java/me/gommeantilegit/minecraft/earth/world/structure/Structure.kt:8-12 | two structures with equal sizes that agree on every cell are equal |
| `Structures.PlaceIntoChunk` | app/src/main/java/me/gommeantilegit/minecraft/earth/world/structure/Structure.kt:14-31 | placement fails exactly when the bounds test rejects the start; otherwise every non-air pattern cell is written at its offset and every other chunk cell is kept |
| `Structures.PlacementKeepsUnstamped` | app/src/main/java/me/gommeantilegit/minecraft/earth/world/structure/Structure.kt:26-27 | chunk cells under air pattern cells, or outside the footprint, keep their contents |
| `Text.Split` | app/src/main/java/me/gommeantilegit/minecraft/earth/world/structure/Structure.kt:54 | the pieces joined with the delimiter give the input back, there is at least one piece, and no piece contains the delimiter |
| `Text.SplitJoin` | app/src/main/java/me/gommeantilegit/minecraft/earth/world/structure/Structure.kt:54 | splitting a join of delimiter-free pieces gives those pieces back |
| `Text.ParseInt` | app/src/main/java/me/gommeantilegit/minecraft/earth/world/structure/Structure.kt:66 | `toInt` succeeds exactly on a numeral (digits, optionally after `+` or `-`, whose value fits in 32 bits) and returns its signed digit value |
| `Text.NumeralSamples` | app/src/main/java/me/gommeantilegit/minecraft/earth/world/structure/Structure.kt:66 | `+7` and `007` read as 7 and `-0` as 0; a bare sign, an empty text and `1x` are rejected |
| `Text.ParseShowInt` | app/src/main/java/me/gommeantilegit/minecraft/earth/world/structure/Structure.kt:66 | parsing the decimal text of any number gives that number back |
| `StructureFormat.ToInt` | app/src/main/java/me/gommeantilegit/minecraft/earth/world/structure/Structure.kt:66-71 | `toInt` succeeds exactly on a decimal numeral within the `Int` range and returns its signed value; otherwise it fails with that text |
| `StructureFormat.NonEmpty` | app/src/main/java/me/gommeantilegit/minecraft/earth/world/structure/Structure.kt:90-93 | the pieces kept by the row loop: exactly the non-empty ones, each still a piece of the row |
| `StructureFormat.PieceCell` | app/src/main/java/me/gommeantilegit/minecraft/earth/world/structure/Structure.kt:94-96 | a non-empty piece names no cell exactly when its first character is neither a space nor a declared synonym |
| `StructureFormat.UndeclaredShift` | app/src/main/java/me/gommeantilegit/minecraft/earth/world/structure/Structure.kt:88-96 | a row has an undeclared piece exactly when its first piece is undeclared or the rest of the row has one |
| `StructureFormat.RowCellsCons` | app/src/main/java/me/gommeantilegit/minecraft/earth/world/structure/Structure.kt:88-98 | a non-empty first piece contributes its cell in front of the cells of the rest of the row |
| `StructureFormat.ParseRow` | app/src/main/java/me/gommeantilegit/minecraft/earth/world/structure/Structure.kt:86-98 | a row fails exactly when some non-empty piece starts with an undeclared character other than space; otherwise it has one cell per non-empty piece, in order: air for a piece starting with a space, else the synonym of the piece's first character |
| `StructureFormat.Assign` | app/src/main/java/me/gommeantilegit/minecraft/earth/world/structure/Structure.kt:61-78 | under `info`, `sizeX`, `sizeY` and `sizeZ` fail with a number error exactly when the value is no numeral; `sizeX` and `sizeZ` take its number; `sizeY` takes it and allocates that many empty layers, failing when negative; other names are ignored. Under `blocks`, an empty name fails, an unknown block name fails, and otherwise the name's first character is bound to the named block. A variable outside `info` and `blocks` is ignored |
| `StructureFormat.AddRow` | app/src/main/java/me/gommeantilegit/minecraft/earth/world/structure/Structure.kt:82-99 | a row fails with "size undefined" while any size is unknown, then for a missing layer index, then for an index that is no numeral, then for an undeclared piece, then for an index outside the layers; it succeeds exactly when none of these applies, and then the row's cells are appended to that layer and nothing else changes |
| `StructureFormat.Step` | app/src/main/java/me/gommeantilegit/minecraft/earth/world/structure/Structure.kt:51-103 | a header's words after the dot become the section name and its arguments, and nothing else changes; a variable line without `=` fails, and otherwise the text before the first `=` is assigned the text between it and the next `=`, or the end of the line; lines that start with none of `.`, `$`, `\|` are ignored and a row outside a layer is ignored; a row in a layer fails while a size is unknown, and once the sizes are known it is accepted exactly when the layer index is present, a numeral, in range and every piece resolves, failing first for a missing index, then a non-numeral, then an undeclared piece, then an index out of range; an accepted row is appended to the layer its section names |
| `StructureFormat.ParseLines` | app/src/main/java/me/gommeantilegit/minecraft/earth/world/structure/Structure.kt:51-104 | reading lines keeps the parser state well-formed |
| `StructureFormat.ParseLinesAppend` | app/src/main/java/me/gommeantilegit/minecraft/earth/world/structure/Structure.kt:51-104 | reading a + b is reading a and then b, and an error in a stops the reading |
| `StructureFormat.TransposedCellAt` | app/src/main/java/me/gommeantilegit/minecraft/earth/world/structure/Structure.kt:106-114 | the array cell at a structure's index of (x, y, z) is the block in layer y, row z, column x |
| `StructureFormat.Build` | app/src/main/java/me/gommeantilegit/minecraft/earth/world/structure/Structure.kt:106-115 | the transposition succeeds exactly when the volume is non-negative and every layer, row and column it reads exists (with no column to copy, no row is read); the structure has the declared sizes and each cell comes from its layer, row and column |
| `StructureFormat.NoColumnsNeedNoRows` | app/src/main/java/me/gommeantilegit/minecraft/earth/world/structure/Structure.kt:106-115 | with sizeX 0 and one layer of no rows, the transposition succeeds with an empty structure |
| `StructureFormat.Parse` | app/src/main/java/me/gommeantilegit/minecraft/earth/world/structure/Structure.kt:34-116 | a successful parse reads all lines without error and returns the transposition of the layers read, with the sizes read |
| `StructureWriter.ParseRender` | app/src/main/java/me/gommeantilegit/minecraft/earth/world/structure/Structure.kt:34-116 | every structure the writer can express parses back to itself |
| `Meshing.CornersSpanCube` | app/src/main/java/me/gommeantilegit/minecraft/earth/rendering/WorldRendering.kt:87-98 | the eight corners p0..p7 are distinct and are exactly the corners of the unit cube at the cell |
| `Meshing.VertexAt` | app/src/main/java/me/gommeantilegit/minecraft/earth/rendering/WorldRendering.kt:114-144 | vertex 4·side + i is corner i of that side's quad, with that side's normal and the i-th UV corner |
| `Meshing.QuadLiesOnItsFace` | app/src/main/java/me/gommeantilegit/minecraft/earth/rendering/WorldRendering.kt:114-144 | corrected: each quad vertex lies on the cell face its side names, and its normal is that side's outward direction |
| `Meshing.WrittenNormalsFlipNorthSouth` | app/src/main/java/me/gommeantilegit/minecraft/earth/rendering/WorldRendering.kt:125-133 | as written: the vertex list equals the corrected one in positions and UVs, and differs only by flipping the north and south normals |
| `Meshing.WrittenNormalAgainstFacing` | app/src/main/java/me/gommeantilegit/minecraft/earth/rendering/WorldRendering.kt:114-144 | the written normal of north and south is the opposite of the facing's direction; for the other four sides it is the facing's direction |
| `Meshing.NorthNormalPointsInward` | app/src/main/java/me/gommeantilegit/minecraft/earth/rendering/WorldRendering.kt:125 | the first north vertex of cell (0, 0, 0) lies on the plane z = 0 with normal (0, 0, 1), while north is (0, 0, −1) |
| `Meshing.SideIndices` | app/src/main/java/me/gommeantilegit/minecraft/earth/rendering/WorldRendering.kt:155-163 | the six triangle indices of a side all address that side's four vertices |
| `Meshing.FindOrAppend` | app/src/main/java/me/gommeantilegit/minecraft/earth/rendering/WorldRendering.kt:166-171 | a vertex already listed is reused; a new one is appended; either way the result is its first position, and a repeat-free list stays repeat-free |
| `Meshing.IndexOfStable` | app/src/main/java/me/gommeantilegit/minecraft/earth/rendering/WorldRendering.kt:165-173 | appending vertices never moves the position of a vertex already listed |
| `Meshing.EmitIndices` | app/src/main/java/me/gommeantilegit/minecraft/earth/rendering/WorldRendering.kt:165-173 | the chunk vertex list only grows, by vertices of the quad, and each emitted index addresses the matching quad vertex |
| `Meshing.SideTargets` | app/src/main/java/me/gommeantilegit/minecraft/earth/rendering/WorldRendering.kt:155-166 | the six vertices a side's triangles refer to are entries 4·side + (3, 1, 0, 3, 2, 1) of the cell's vertex list under the given normal table; so the two triangles share their diagonal |
| `Meshing.QuadIndicesShareDiagonal` | app/src/main/java/me/gommeantilegit/minecraft/earth/rendering/WorldRendering.kt:155-173 | after deduplication the diagonal is shared by index, and every index addresses the intended vertex |
| `Meshing.LayerMeshes` | app/src/main/java/me/gommeantilegit/minecraft/earth/rendering/WorldRendering.kt:175-182 | one submesh per texture layer, each with that layer's material and the side's indices, with a tint call per layer; fails on the first unloaded material |
| `Meshing.BuildFrom` | app/src/main/java/me/gommeantilegit/minecraft/earth/rendering/WorldRendering.kt:146-185 | under either normal table, building from a side onwards succeeds exactly when every exposed side's materials are loaded, and then every submesh is correct for an exposed side and layer; an error names an exposed side |
| `Meshing.Build` | app/src/main/java/me/gommeantilegit/minecraft/earth/rendering/WorldRendering.kt:85-186 | as written, with the source's normals: `build` succeeds exactly when all exposed sides' materials are loaded, and then yields one correct submesh per exposed side and layer, in side order |
| `Meshing.BuildOutward` | app/src/main/java/me/gommeantilegit/minecraft/earth/rendering/WorldRendering.kt:85-186 | corrected: the same build over the vertex list whose normals point out of their faces, with the same success condition and submeshes |
| `Meshing.ShownLayerNormals` | app/src/main/java/me/gommeantilegit/minecraft/earth/rendering/WorldRendering.kt:114-182 | in a successful build, every layer of every exposed side has a submesh and a tint call, and its six indices address vertices carrying the table's normal for that side |
| `Meshing.WrittenBuildNormals` | app/src/main/java/me/gommeantilegit/minecraft/earth/rendering/WorldRendering.kt:114-182 | as written: an exposed side's submesh addresses vertices whose normal is the facing's direction, except on north and south, where it is the opposite |
| `Meshing.OutwardBuildNormalsFaceOut` | app/src/main/java/me/gommeantilegit/minecraft/earth/rendering/WorldRendering.kt:114-182 | corrected: an exposed side's submesh addresses vertices whose normal is that side's facing direction |
| `Meshing.BuildsAgreeBesideNormals` | app/src/main/java/me/gommeantilegit/minecraft/earth/rendering/WorldRendering.kt:146-185 | the written and corrected builds succeed together and make the same tint calls, with the same materials in the same order |
| `Meshing.HiddenCellAddsNothing` | app/src/main/java/me/gommeantilegit/minecraft/earth/rendering/WorldRendering.kt:146-151 | a cell with no exposed side adds no vertices, submeshes or tint calls |
| `Meshing.EmittedCount` | app/src/main/java/me/gommeantilegit/minecraft/earth/rendering/WorldRendering.kt:175-182 | the number of submeshes is the total layer count of the exposed sides |
| `Meshing.InitialMaterials` | app/src/main/java/me/gommeantilegit/minecraft/earth/rendering/WorldRendering.kt:47 | every side gets one empty material slot per texture layer |
| `Meshing.SetMaterial` | app/src/main/java/me/gommeantilegit/minecraft/earth/rendering/WorldRendering.kt:77 | loading a material fills only its own slot; the table keeps its shape |
| `Meshing.Bakery` | app/src/main/java/me/gommeantilegit/minecraft/earth/rendering/WorldRendering.kt:195-227 | the bakery has a model exactly for the visible registered blocks, each with the block's tint and six sides of material slots |
| `Meshing.BakeryCoversVisibleBlocks` | app/src/main/java/me/gommeantilegit/minecraft/earth/rendering/WorldRendering.kt:196-198 | air has no model; every other registered block has one, with one empty material slot per texture layer |
| `Palettes.GetIndex` | app/src/main/java/me/gommeantilegit/minecraft/earth/utils/palette/Palette.kt:7-13 | lookup fails exactly for a value that is not a possible state; otherwise it gives the first position holding the value |
| `Palettes.FromIndex` | app/src/main/java/me/gommeantilegit/minecraft/earth/utils/palette/Palette.kt:15-17 | a state comes back exactly for an index inside the list, and it is the state at that index |
| `Palettes.FromIndexOfGetIndex` | app/src/main/java/me/gommeantilegit/minecraft/earth/utils/palette/Palette.kt:7-17 | reading back the position of a possible state gives that state |
| `Palettes.GetIndexOfFromIndex` | app/src/main/java/me/gommeantilegit/minecraft/earth/utils/palette/Palette.kt:7-17 | with no state listed twice, looking up the state at position i gives i |
| `Palettes.DuplicateReadsBackFirst` | app/src/main/java/me/gommeantilegit/minecraft/earth/utils/palette/Palette.kt:7-17 | with a repeated state, position 1 reads back as position 0 |
| `WorldDisplayers.NewDisplayer` | app/src/main/java/me/gommeantilegit/minecraft/earth/world/WorldDisplayer.kt:19-27 | a new displayer has seen no viewer position, has an empty queue and no chunk nodes |
| `WorldDisplayers.UpdateChunkMesh` | app/src/main/java/me/gommeantilegit/minecraft/earth/world/WorldDisplayer.kt:108-115 | a non-empty mesh is queued when the queue holds fewer than 100; an empty mesh, or one meeting a full queue, is dropped; nothing else changes |
| `WorldDisplayers.RebuildFor` | app/src/main/java/me/gommeantilegit/minecraft/earth/world/WorldDisplayer.kt:35-41 | a block change re-meshes the chunk holding that block when it exists, and otherwise does nothing |
| `WorldDisplayers.FillOne` | app/src/main/java/me/gommeantilegit/minecraft/earth/world/WorldDisplayer.kt:99-104 | a position with a chunk changes nothing; otherwise a fresh super-flat chunk is stored there, meshed against the world that already holds it, and its mesh queued when it has submeshes and vertices and the queue has room |
| `WorldDisplayers.FillStep` | app/src/main/java/me/gommeantilegit/minecraft/earth/world/WorldDisplayer.kt:97-106 | each step of the loop keeps the invariant: positions done so far have chunks, old chunks are kept, new chunks are fresh and came from the range, the old queue is a prefix, the tail is for new chunks, and with always-visible meshes and room in the queue every new chunk has one queued result |
| `WorldDisplayers.QueueCompleted` | app/src/main/java/me/gommeantilegit/minecraft/earth/world/WorldDisplayer.kt:102-115 | when every mesh shows and the queue has room, queueing the result of one more new chunk keeps one result per new chunk |
| `WorldDisplayers.QueuedAfterIndex` | app/src/main/java/me/gommeantilegit/minecraft/earth/world/WorldDisplayer.kt:113 | a position queued after the first n results has a queue index at or beyond n holding its result |
| `WorldDisplayers.OnChunkChanged` | app/src/main/java/me/gommeantilegit/minecraft/earth/world/WorldDisplayer.kt:97-115 | fails exactly for a negative render distance; otherwise every chunk in range exists afterwards, old chunks are untouched, each new chunk is a fresh super-flat chunk in range, and queued meshes are only appended, for new chunks; when every mesh has submeshes and vertices and the queue has room, exactly one result per new chunk is queued, so every new chunk has one |
| `WorldDisplayers.OnViewerMoved` | app/src/main/java/me/gommeantilegit/minecraft/earth/world/WorldDisplayer.kt:87-95 | the remembered block and chunk positions become the viewer's; the world and queue change only when the viewer entered a different chunk, which then fills the range around it; the queue only grows, with results for new chunks, and when every mesh shows and the queue has room every new chunk has one |
| `WorldDisplayers.LatestFor` | app/src/main/java/me/gommeantilegit/minecraft/earth/world/WorldDisplayer.kt:66-80 | no result exactly when no queued mesh is for that position; otherwise a queued mesh for it with no later one |
| `WorldDisplayers.NodeFor` | app/src/main/java/me/gommeantilegit/minecraft/earth/world/WorldDisplayer.kt:70-75 | a chunk's node shows its mesh, placed at the chunk's world origin lowered by one |
| `WorldDisplayers.OnFrame` | app/src/main/java/me/gommeantilegit/minecraft/earth/world/WorldDisplayer.kt:49-85 | draining empties the queue, counts every drained mesh, and leaves each position's node as the latest queued mesh for it, or as before when none was queued |

## Left out

- MainActivity.kt is not part of this model.
- Floating point: `BlockPos.of(Vector3)`, `floorCast`, `floorCeil`, `asVector` and `getWorldSpaceCoords`. Node positions are integer vectors, and the mesher works on the integer grid (`worldScale` is 1).
- Texture and material loading, and the rendering-library builders (`Vertex`, `Submesh`, `RenderableDefinition`, `ModelRenderable`, `Node`, anchors). Materials are slots that are loaded or empty. A submesh is its material and its indices. The tint processor is recorded as a trace of calls.
- The grass colour-map sampling (`getGrassColor`) and the leaves colour: the model records which layers are tinted, not the colour.
- Concurrency. `createRenderable` and `thenAcceptAsync` run on worker threads in the program. The model computes a mesh synchronously, when it is requested, and the queue is a sequence.
- `Chunk.createRenderable` (World.kt:224-238) is not modelled as a loop. `WorldDisplayers` takes the chunk mesher as a function parameter, and `Meshing.Build` models one cell. `createRenderable` as defined in World.kt takes no world, while `WorldDisplayer` passes one and `Mesher.build` expects one.
- `World.isBlockExposedOnSide`, `World.getChunkAt`, `addBlockChangeListener` and `setBlockWithWorldSpaceCoords` are called but not defined in the World.kt that is modelled. The mesher takes face exposure as a parameter, and `Worlds.IsBlockExposedOnSide` gives one definition of it. `getChunkAt` is a map lookup. The block-change listener is `RebuildFor`, which the caller invokes.
- `Blocks.byName` is not defined in the Block.kt that is modelled. `Blocks.ByName` is the first registered block with that name.
- The older displayer in World.kt:30-101 is not modelled. Neither is the `onClick` demo in WorldDisplayer.kt:122-127.
- Reading the structure resource file (Structure.kt:35-38). `StructureFormat.Parse` takes the lines.
- `PaletteStorage` (Palette.kt:21-24) has no members.
- `toInt` accepts only ASCII digits here. Kotlin also accepts other Unicode decimal digits.
- 32-bit overflow in sizes and index arithmetic is not modelled: structure volume, the `iterateRange` capacity, chunk origins. Only the hash codes wrap.
- The world generator is fixed to the super-flat one, the only `IWorldGenerator` in the program.
- The winding order of the emitted triangles is not proved.
- `Blocks.BlockEquals`: compares texture stacks by value, while Kotlin's `contentEquals` compares the inner arrays by identity. Two blocks built from equal but separate inner arrays are unequal in the program and equal in the model.
- `Structures.PlaceIntoChunk` keeps the program's bounds test, which uses `>=`. A structure that would end exactly on the chunk's last cell is rejected.
- `StructureFormat.Parse`: its contract states only what a successful parse returns. The error conditions are stated line by line by `StructureFormat.Step`, `StructureFormat.Assign`, `StructureFormat.ParseRow` and `StructureFormat.Build`.
- `StructureFormat.PieceCell` and `StructureFormat.Assign` key synonyms by whole characters, while Kotlin's `Char` is a UTF-16 code unit. The two agree below U+10000. A synonym beyond U+FFFF is keyed in the program by its high surrogate, so `$😀=stone` also makes `😁` (same high surrogate) resolve to stone; the model keeps the two apart.
- `WorldDisplayers.OnChunkChanged` and `WorldDisplayers.OnViewerMoved` state the queued tail by position and count. The submeshes and vertices of each queued result are stated one chunk at a time by `WorldDisplayers.FillOne`, because each depends on the world as it stood when that chunk was added. When some mesh is empty or the queue fills, they state only that the tail holds results for new chunks.
- `Meshing.QuadCorners`, `Meshing.CellVertices`, `Meshing.WrittenVertices`, `Meshing.Vertices` and `Meshing.TableVertices` state only their lengths. Their contents are stated by `Meshing.VertexAt`, `Meshing.QuadLiesOnItsFace` and `Meshing.WrittenNormalsFlipNorthSouth`.

## Findings

| source | as written | input that shows it | evidently intended | confidence | as-written member | corrected member |
|---|---|---|---|---|---|---|
| app/src/main/java/me/gommeantilegit/minecraft/earth/utils/Math.kt:12 | `ceilDiv` adds 1 to the truncated quotient whenever the remainder is non-zero | `ceilDiv(-3, 2)` gives 0; the ceiling of −1.5 is −1 | the ceiling of a / b for every sign | medium: no caller in the modelled files, so the discrepancy is latent; not executed | `KotlinMath.CeilDivCounterexample` | `KotlinMath.Ceiling` |
| app/src/main/java/me/gommeantilegit/minecraft/earth/world/World.kt:169 | `getBlock` finds the right chunk, but then looks up the world coordinates as chunk-local ones | with a stone chunk at chunk (1, 0, 0), `getBlock(17, 0, 0)` returns null instead of stone | look up the local coordinates (x − 16·cx, y − 16·cy, z − 16·cz) | high: any block outside chunk (0, 0, 0) is missed; not executed | `Worlds.GetBlockMissesOtherChunks` | `Worlds.BlockAt` |
| app/src/main/java/me/gommeantilegit/minecraft/earth/rendering/WorldRendering.kt:125-133 | the north quad (on the cell's low-z face) gets normal `back()`, and the south quad gets `forward()` | cell (0, 0, 0): vertex 8 lies at z = 0 with normal (0, 0, 1), pointing into the cell; any built cell with an exposed north face meshes it with normal (0, 0, 1) | normals along each facing's direction, as for the other four sides | medium: rests on the library's `forward()` being (0, 0, −1); not executed | `Meshing.WrittenBuildNormals` | `Meshing.OutwardBuildNormalsFaceOut` |

=== FILE: block.dfy ===
/** The block catalogue (block/Block.kt): block types, their construction
    invariant, their equality and hash, the fixed registry, and the grass
    tint rule. */
module Blocks {
  import opened Wrappers
  import KotlinMath

  /** A texture to load for one layer of one block side. */
  datatype TextureResource = TextureResource(name: string, transparent: bool)

  /** The block's `ISubmeshProcessor`: the no-op default, the grass tint, or
      the fixed leaves colour. */
  datatype Tint = NoTint | GrassTint | LeavesTint

  /** A block type. `textures[side]` is the stack of texture layers drawn on
      that side (0 bottom, 1 top, 2 north, 3 south, 4 west, 5 east). */
  datatype Block = Block(
    name: string,
    id: int,
    invisible: bool,
    textures: seq<seq<TextureResource>>,
    metallic: real,
    roughness: real,
    reflectance: real,
    processor: Tint)

  /** The shape the `init` block demands: six stacks for a visible block, none
      for an invisible one. */
  predicate StacksWellShaped(invisible: bool, textures: seq<seq<TextureResource>>)
  {
    if invisible then |textures| == 0 else |textures| == 6
  }

  predicate Valid(b: Block)
  {
    StacksWellShaped(b.invisible, b.textures)
  }

  datatype BlockError = InvalidTextureStacks | NotInvisible

  /** The primary constructor together with its `init` check. */
  function NewBlock(name: string, id: int, invisible: bool, textures: seq<seq<TextureResource>>,
                    metallic: real, roughness: real, reflectance: real, processor: Tint): (r: Result<Block, BlockError>)
    ensures r.Ok? <==> StacksWellShaped(invisible, textures)
    ensures r.Ok? ==> Valid(r.value) && r.value.name == name && r.value.id == id
                      && r.value.invisible == invisible && r.value.textures == textures
    ensures r.Err? ==> r.error == InvalidTextureStacks
  {
    if (|textures| != 6 && !invisible) || (|textures| != 0 && invisible) then
      Err(InvalidTextureStacks)
    else
      Ok(Block(name, id, invisible, textures, metallic, roughness, reflectance, processor))
  }

  /** The constructor for visible blocks with explicit texture stacks. */
  function SolidBlock(name: string, id: int, textures: seq<seq<TextureResource>>,
                      metallic: real, roughness: real, reflectance: real, processor: Tint): (r: Result<Block, BlockError>)
    ensures r.Ok? <==> |textures| == 6
    ensures r.Ok? ==> !r.value.invisible && r.value.textures == textures && r.value.processor == processor
  {
    NewBlock(name, id, false, textures, metallic, roughness, reflectance, processor)
  }

  /** The constructor for visible blocks drawn with one texture on every side. */
  function SingleTextureBlock(name: string, id: int, texture: string, transparent: bool,
                              metallic: real, roughness: real, reflectance: real, processor: Tint): (r: Result<Block, BlockError>)
    ensures r.Ok?
    ensures !r.value.invisible && r.value.name == name && r.value.id == id
    ensures |r.value.textures| == 6
    ensures forall side :: 0 <= side < 6 ==> r.value.textures[side] == [TextureResource(texture, transparent)]
  {
    var stack := [TextureResource(texture, transparent)];
    SolidBlock(name, id, [stack, stack, stack, stack, stack, stack], metallic, roughness, reflectance, processor)
  }

  /** The `(name, id, invisible)` constructor. With `invisible = false` the
      primary constructor's `init` rejects the empty stack list first. */
  function InvisibleBlock(name: string, id: int, invisible: bool): (r: Result<Block, BlockError>)
    ensures r.Ok? <==> invisible
    ensures r.Ok? ==> r.value.invisible && r.value.textures == [] && r.value.processor == NoTint
    ensures !invisible ==> r == Err(InvalidTextureStacks)
  {
    var b :- NewBlock(name, id, invisible, [], 0.0, 0.0, 0.0, NoTint);
    // the constructor body's own check comes after `init`, which has already
    // thrown for every visible block, so it never fires
    if !invisible then Err(NotInvisible) else Ok(b)
  }

  /** `Block.equals`: name, id and texture stacks only. */
  function BlockEquals(a: Block, b: Block): (r: bool)
    // equal blocks differ at most in visibility, material and tint
    ensures r <==> a.(invisible := b.invisible, metallic := b.metallic, roughness := b.roughness,
                      reflectance := b.reflectance, processor := b.processor) == b
  {
    a.name == b.name && a.id == b.id && a.textures == b.textures
  }

  /** `equals` ignores the visibility flag, the material parameters and the processor. */
  lemma EqualsIgnoresRenderingFields(b: Block, invisible: bool, metallic: real, roughness: real, reflectance: real, processor: Tint)
    ensures BlockEquals(b, b.(invisible := invisible, metallic := metallic, roughness := roughness,
                              reflectance := reflectance, processor := processor))
  {
  }

  /** The UTF-16 code units of one character: the character itself below
      U+10000, otherwise its high and low surrogate. */
  function Utf16Units(c: char): (u: seq<int>)
    ensures 1 <= |u| <= 2 && (|u| == 1 <==> (c as int) < 0x1_0000)
    ensures |u| == 1 ==> u[0] == c as int
    ensures |u| == 2 ==> 0xD800 <= u[0] < 0xDC00 && 0xDC00 <= u[1] < 0xE000
                         && 0x1_0000 + (u[0] - 0xD800) * 0x400 + (u[1] - 0xDC00) == c as int
  {
    if (c as int) < 0x1_0000 then [c as int]
    else
      var v := c as int - 0x1_0000;
      [0xD800 + v / 0x400, 0xDC00 + v % 0x400]
  }

  /** A string as Java stores it: the UTF-16 code units of its characters, in order. */
  function Utf16(s: string): seq<int>
  {
    if |s| == 0 then [] else Utf16(s[..|s| - 1]) + Utf16Units(s[|s| - 1])
  }

  /** Below U+10000 every character is one code unit, its own value. */
  lemma {:induction false} Utf16OfBasicPlane(s: string)
    requires forall i :: 0 <= i < |s| ==> (s[i] as int) < 0x1_0000
    ensures |Utf16(s)| == |s|
    ensures forall i :: 0 <= i < |s| ==> Utf16(s)[i] == s[i] as int
  {
    if |s| > 0 {
      var init := s[..|s| - 1];
      Utf16OfBasicPlane(init);
      assert forall i :: 0 <= i < |init| ==> init[i] == s[i];
    }
  }

  /** h = 31·h + u over code units, in 32-bit arithmetic. */
  function UnitsHash(u: seq<int>): (h: int)
    ensures KotlinMath.INT_MIN <= h <= KotlinMath.INT_MAX
  {
    if |u| == 0 then 0
    else KotlinMath.ToInt32(31 * UnitsHash(u[..|u| - 1]) + u[|u| - 1])
  }

  /** Java's `String.hashCode`, which folds the UTF-16 code units rather than the characters. */
  function StringHash(s: string): (h: int)
    ensures KotlinMath.INT_MIN <= h <= KotlinMath.INT_MAX
  {
    UnitsHash(Utf16(s))
  }

  /** A one-character string beyond U+FFFF is hashed as its surrogate pair. */
  lemma {:induction false} StringHashOfSupplementary(c: char)
    requires (c as int) >= 0x1_0000
    ensures var u := Utf16Units(c);
            StringHash([c]) == 31 * u[0] + u[1]
  {
    var u := Utf16Units(c);
    assert [c][..0] == [];
    assert Utf16([c]) == u;
    assert u[..1] == [u[0]];
    assert [u[0]][..0] == [];
    assert UnitsHash([u[0]]) == u[0];
  }

  /** Two characters below U+10000 hash as 31·first + second. */
  lemma {:induction false} StringHashOfBasicPair(a: char, b: char)
    requires (a as int) < 0x1_0000 && (b as int) < 0x1_0000
    ensures StringHash([a, b]) == 31 * (a as int) + b as int
  {
    assert [a, b][..1] == [a];
    assert [a][..0] == [];
    assert Utf16([a]) == [a as int];
    assert Utf16([a, b]) == [a as int, b as int];
    assert [a as int, b as int][..1] == [a as int];
    assert [a as int][..0] == [];
    assert UnitsHash([a as int]) == a as int;
  }

  /** "ab" hashes as 31·97 + 98, one code unit per character. */
  lemma StringHashSamples()
    ensures StringHash("ab") == 31 * 97 + 98
  {
    StringHashOfBasicPair('a', 'b');
  }

  /** The emoji U+1F600 hashes as its surrogates 0xD83D, 0xDE00, not as its own value. */
  lemma StringHashOfEmoji()
    ensures StringHash("\U{1F600}") == 31 * 0xD83D + 0xDE00
  {
    StringHashOfSupplementary('\U{1F600}');
  }

  /** `Array.contentHashCode` over the side stacks. The stacks are themselves
      arrays, whose hash the model cannot see, so it is a parameter. */
  function StacksHash(stacks: seq<seq<TextureResource>>, stackHash: seq<TextureResource> -> int): (h: int)
    ensures KotlinMath.INT_MIN <= h <= KotlinMath.INT_MAX
  {
    if |stacks| == 0 then 1
    else KotlinMath.ToInt32(31 * StacksHash(stacks[..|stacks| - 1], stackHash) + stackHash(stacks[|stacks| - 1]))
  }

  /** `Block.hashCode`. */
  function BlockHash(b: Block, stackHash: seq<TextureResource> -> int): (h: int)
    ensures KotlinMath.INT_MIN <= h <= KotlinMath.INT_MAX
  {
    var h0 := StringHash(b.name);
    var h1 := KotlinMath.ToInt32(31 * h0 + b.id);
    KotlinMath.ToInt32(31 * h1 + StacksHash(b.textures, stackHash))
  }

  /** `hashCode` reads only the fields `equals` compares, so equal blocks hash alike. */
  lemma HashRespectsEquals(a: Block, b: Block, stackHash: seq<TextureResource> -> int)
    requires BlockEquals(a, b)
    ensures BlockHash(a, stackHash) == BlockHash(b, stackHash)
  {
  }

  const Air: Block := InvisibleBlock("air", 0, true).value
  const Stone: Block := SingleTextureBlock("stone", 1, "stone", false, 0.0, 1.0, 0.0, NoTint).value
  const Dirt: Block := SingleTextureBlock("dirt", 2, "dirt", false, 0.0, 1.0, 0.0, NoTint).value
  const Bedrock: Block := SingleTextureBlock("bedrock", 3, "bedrock", false, 0.25, 1.0, 0.15, NoTint).value

  const DirtLayer: TextureResource := TextureResource("dirt", false)
  const GrassOverlay: TextureResource := TextureResource("grass_block_side_overlay", true)

  const Grass: Block := SolidBlock("grass", 4,
    [[DirtLayer], [TextureResource("grass_block_top", false)],
     [DirtLayer, GrassOverlay], [DirtLayer, GrassOverlay], [DirtLayer, GrassOverlay], [DirtLayer, GrassOverlay]],
    0.0, 1.0, 0.0, GrassTint).value

  const LogTop: seq<TextureResource> := [TextureResource("spruce_log_top", false)]
  const LogSide: seq<TextureResource> := [TextureResource("spruce_log", false)]
  const Log: Block := SolidBlock("log", 5, [LogTop, LogTop, LogSide, LogSide, LogSide, LogSide], 0.0, 1.0, 0.0, NoTint).value

  const LeavesStack: seq<TextureResource> := [TextureResource("spruce_leaves", false)]
  const Leaves: Block := SolidBlock("leaves", 6,
    [LeavesStack, LeavesStack, LeavesStack, LeavesStack, LeavesStack, LeavesStack], 0.0, 1.0, 0.0, LeavesTint).value

  const DiamondOre: Block := SingleTextureBlock("diamond_ore", 7, "diamond_ore", false, 0.0, 1.0, 0.0, NoTint).value

  /** `Blocks.blocks`, in order. */
  const Registry: seq<Block> := [Air, Stone, Dirt, Bedrock, Grass, Log, Leaves, DiamondOre]

  /** The registry: eight well-formed blocks whose ids are their positions,
      with pairwise distinct names, of which only air is invisible. */
  lemma RegistryFacts()
    ensures |Registry| == 8
    ensures forall i :: 0 <= i < |Registry| ==> Registry[i].id == i && Valid(Registry[i])
    ensures forall i :: 0 <= i < |Registry| ==> (Registry[i].invisible <==> i == 0)
    ensures forall i, j :: 0 <= i < j < |Registry| ==> Registry[i].name != Registry[j].name
  {
  }

  /** `Blocks.byName`: the first registered block with that name. */
  function ByName(name: string): (r: Option<Block>)
    ensures r.Some? ==> r.value in Registry && r.value.name == name
    ensures r.None? ==> forall b :: b in Registry ==> b.name != name
  {
    FindByName(Registry, name)
  }

  function FindByName(blocks: seq<Block>, name: string): (r: Option<Block>)
    ensures r.Some? ==> r.value in blocks && r.value.name == name
    ensures r.None? ==> forall b :: b in blocks ==> b.name != name
  {
    if |blocks| == 0 then None
    else if blocks[0].name == name then Some(blocks[0])
    else FindByName(blocks[1..], name)
  }

  /** Looking up a registered block's name finds that block. */
  lemma ByNameFindsRegistered(i: int)
    requires 0 <= i < |Registry|
    ensures ByName(Registry[i].name) == Some(Registry[i])
  {
    RegistryFacts();
  }

  /** The grass processor's condition for tinting a submesh. */
  predicate GrassTinted(sideIndex: int, materialIndex: int)
  {
    sideIndex != 0 && ((sideIndex == 1 && materialIndex == 0) || (materialIndex == 1 && sideIndex != 1))
  }

  /** On the six sides, grass is tinted exactly on the top's base layer and on
      the overlay layer of the four lateral sides; never on the bottom and never
      on a lateral side's base layer. */
  lemma GrassTintedSides(side: int, layer: int)
    requires 0 <= side < 6 && layer >= 0
    ensures GrassTinted(side, layer) <==> (side == 1 && layer == 0) || (2 <= side <= 5 && layer == 1)
    ensures side == 0 ==> !GrassTinted(side, layer)
    ensures 2 <= side <= 5 ==> !GrassTinted(side, 0)
  {
  }

  /** Whether a block's processor recolours the submesh of (side, layer). */
  predicate Tints(t: Tint, sideIndex: int, materialIndex: int)
  {
    match t
    case NoTint => false
    case GrassTint => GrassTinted(sideIndex, materialIndex)
    case LeavesTint => true
  }

  /** Over the grass block's own texture stacks, the tinted layers are the top
      and the side overlays, and nothing else. */
  lemma GrassTintMatchesStacks(side: int, layer: int)
    requires 0 <= side < 6 && 0 <= layer < |Grass.textures[side]|
    ensures Tints(Grass.processor, side, layer) <==>
            Grass.textures[side][layer] == GrassOverlay || Grass.textures[side][layer].name == "grass_block_top"
  {
  }
}

=== FILE: chunk.dfy ===
/** Dense block storage of one chunk (`BlockState` and `Chunk` in world/World.kt). */
module Chunks {
  import opened Wrappers
  import opened Positioning
  import opened Blocks
  import opened ChunkPositions
  import Radix
  import KotlinMath

  /** A block placed in the world; today it carries only its block type. */
  datatype BlockState = BlockState(block: Block)

  /** Number of cells in a chunk: 16³. */
  const Volume: int := 4096

  /** A chunk: its grid position and its 16³ block states, at `GetIndex` order. */
  datatype Chunk = Chunk(pos: ChunkPosition, blocks: seq<BlockState>)
  {
    predicate Valid() { |blocks| == Volume }
  }

  datatype ChunkError = IndexOutOfBounds | InvalidFacing(side: int)

  predicate InBounds(x: int, y: int, z: int)
  {
    0 <= x < ChunkSize && 0 <= y < ChunkSize && 0 <= z < ChunkSize
  }

  /** `Chunk(chunkPosition)`: every cell starts as air. */
  function NewChunk(pos: ChunkPosition): (c: Chunk)
    ensures c.Valid() && c.pos == pos
    ensures forall i :: 0 <= i < Volume ==> c.blocks[i] == BlockState(Air)
  {
    Chunk(pos, seq(Volume, _ => BlockState(Air)))
  }

  /** `getIndex`: the flat index of a local cell, or -1 outside the chunk. */
  function GetIndex(x: int, y: int, z: int): (r: int)
    ensures r == -1 <==> !InBounds(x, y, z)
    ensures InBounds(x, y, z) ==> 0 <= r < Volume
  {
    if x >= ChunkSize || y >= ChunkSize || z >= ChunkSize || x < 0 || y < 0 || z < 0 then -1
    else x * ChunkSize * ChunkSize + y * ChunkSize + z
  }

  /** `getIndex` is the mixed-radix flattening with x most significant and z least. */
  lemma GetIndexIsFlat3(x: int, y: int, z: int)
    requires InBounds(x, y, z)
    ensures GetIndex(x, y, z) == Radix.Flat3(x, y, z, ChunkSize, ChunkSize)
  {
  }

  /** `getIndex` maps the 16³ local cells one-to-one onto [0, 4096). */
  lemma GetIndexInjective(x: int, y: int, z: int, x': int, y': int, z': int)
    requires InBounds(x, y, z) && InBounds(x', y', z')
    requires GetIndex(x, y, z) == GetIndex(x', y', z')
    ensures x == x' && y == y' && z == z'
  {
    Radix.Flat3Injective(x, y, z, x', y', z', ChunkSize, ChunkSize, ChunkSize);
  }

  /** Every flat index is the `getIndex` of exactly the cell read off its digits. */
  lemma GetIndexOnto(i: int)
    requires 0 <= i < Volume
    ensures InBounds(LocalX(i), LocalY(i), LocalZ(i))
    ensures GetIndex(LocalX(i), LocalY(i), LocalZ(i)) == i
  {
    Radix.Flat3Encode(i, ChunkSize, ChunkSize, ChunkSize);
  }

  function LocalX(i: int): int { Radix.Hi(i, ChunkSize, ChunkSize) }
  function LocalY(i: int): int { Radix.Mid(i, ChunkSize, ChunkSize) }
  function LocalZ(i: int): int { Radix.Lo(i, ChunkSize) }

  /** `getBlock`: `getOrNull(getIndex(x, y, z))`; absent outside the chunk. */
  function GetBlock(c: Chunk, x: int, y: int, z: int): (r: Option<BlockState>)
    requires c.Valid()
    ensures r.Some? <==> InBounds(x, y, z)
    ensures r.Some? ==> r.value == c.blocks[GetIndex(x, y, z)]
  {
    var i := GetIndex(x, y, z);
    if 0 <= i < |c.blocks| then Some(c.blocks[i]) else None
  }

  /** Two chunks at one position that read alike at every local cell are the same chunk. */
  lemma SameCellsSameChunk(a: Chunk, b: Chunk)
    requires a.Valid() && b.Valid() && a.pos == b.pos
    requires forall x, y, z :: InBounds(x, y, z) ==> GetBlock(a, x, y, z) == GetBlock(b, x, y, z)
    ensures a == b
  {
    forall i | 0 <= i < Volume
      ensures a.blocks[i] == b.blocks[i]
    {
      GetIndexOnto(i);
      assert GetBlock(a, LocalX(i), LocalY(i), LocalZ(i)) == GetBlock(b, LocalX(i), LocalY(i), LocalZ(i));
    }
  }

  /** A fresh chunk reads air at every local cell. */
  lemma NewChunkIsAir(pos: ChunkPosition, x: int, y: int, z: int)
    requires InBounds(x, y, z)
    ensures GetBlock(NewChunk(pos), x, y, z) == Some(BlockState(Air))
  {
  }

  /** `setBlock`: writes the cell, or throws (index -1) outside the chunk. */
  function SetBlock(c: Chunk, x: int, y: int, z: int, s: BlockState): (r: Result<Chunk, ChunkError>)
    requires c.Valid()
    ensures r.Ok? <==> InBounds(x, y, z)
    ensures r.Err? ==> r.error == IndexOutOfBounds
    ensures r.Ok? ==> r.value.Valid() && r.value.pos == c.pos
    ensures r.Ok? ==> GetBlock(r.value, x, y, z) == Some(s)
    ensures r.Ok? ==> forall x', y', z' :: InBounds(x', y', z') && (x', y', z') != (x, y, z) ==>
                        GetBlock(r.value, x', y', z') == GetBlock(c, x', y', z')
  {
    var i := GetIndex(x, y, z);
    if i < 0 || i >= |c.blocks| then Err(IndexOutOfBounds)
    else
      var c' := c.(blocks := c.blocks[i := s]);
      assert forall x', y', z' :: InBounds(x', y', z') && (x', y', z') != (x, y, z) ==>
               GetBlock(c', x', y', z') == GetBlock(c, x', y', z') by {
        forall x', y', z' | InBounds(x', y', z') && (x', y', z') != (x, y, z)
          ensures GetBlock(c', x', y', z') == GetBlock(c, x', y', z')
        {
          if GetIndex(x', y', z') == i {
            GetIndexInjective(x, y, z, x', y', z');
          }
        }
      }
      Ok(c')
  }

  /** The cell a local lookup in direction `f` reaches from (x, y, z). */
  function Neighbour(x: int, y: int, z: int, f: Facing): (int, int, int)
  {
    var n := Vec3i(x, y, z).Plus(f.Direction());
    (n.x, n.y, n.z)
  }

  /** The neighbour, component by component. */
  lemma NeighbourAt(x: int, y: int, z: int, f: Facing)
    ensures Neighbour(x, y, z, f) == (x + f.Direction().x, y + f.Direction().y, z + f.Direction().z)
  {
  }

  /** `canSee`: whether the neighbour in direction `side` lies in this chunk
      and holds an invisible block; a side outside 0..5 is an error. */
  function CanSee(c: Chunk, x: int, y: int, z: int, side: int): (r: Result<bool, ChunkError>)
    requires c.Valid()
    ensures r.Err? <==> !(0 <= side < 6)
    ensures r.Err? ==> r.error == InvalidFacing(side)
    ensures r.Ok? ==> var (nx, ny, nz) := Neighbour(x, y, z, Facings[side]);
                      (r.value <==> InBounds(nx, ny, nz) && c.blocks[GetIndex(nx, ny, nz)].block.invisible)
  {
    match OfIndex(side)
    case None => Err(InvalidFacing(side))
    case Some(facing) =>
      var d := facing.Direction();
      match GetBlock(c, x + d.x, y + d.y, z + d.z)
      case None => Ok(false)
      case Some(s) => Ok(s.block.invisible)
  }

  /** Comparing the block arrays index by index is comparing the chunks cell by cell. */
  lemma CellwiseEquals(a: Chunk, b: Chunk)
    requires a.Valid() && b.Valid()
    ensures (forall i :: 0 <= i < Volume ==> BlockEquals(a.blocks[i].block, b.blocks[i].block))
            <==> (forall x, y, z :: InBounds(x, y, z) ==>
                    BlockEquals(GetBlock(a, x, y, z).value.block, GetBlock(b, x, y, z).value.block))
  {
    if forall x, y, z :: InBounds(x, y, z) ==> BlockEquals(GetBlock(a, x, y, z).value.block, GetBlock(b, x, y, z).value.block) {
      forall i | 0 <= i < Volume
        ensures BlockEquals(a.blocks[i].block, b.blocks[i].block)
      {
        GetIndexOnto(i);
        assert GetBlock(a, LocalX(i), LocalY(i), LocalZ(i)).value == a.blocks[i];
        assert GetBlock(b, LocalX(i), LocalY(i), LocalZ(i)).value == b.blocks[i];
      }
    }
  }

  /** `Chunk.equals`: `contentDeepEquals` over the block states, whose own
      equality is the block's `equals`. The chunk position takes no part. */
  function ChunkEquals(a: Chunk, b: Chunk): (r: bool)
    requires a.Valid() && b.Valid()
    // cell by cell, over the chunk's local coordinates
    ensures r <==> forall x, y, z :: InBounds(x, y, z) ==>
                     BlockEquals(GetBlock(a, x, y, z).value.block, GetBlock(b, x, y, z).value.block)
  {
    CellwiseEquals(a, b);
    forall i :: 0 <= i < Volume ==> BlockEquals(a.blocks[i].block, b.blocks[i].block)
  }

  /** `Arrays.deepHashCode` over a prefix of the block states: 31·h + element hash. */
  function StatesHash(states: seq<BlockState>, stackHash: seq<TextureResource> -> int): (h: int)
    ensures KotlinMath.INT_MIN <= h <= KotlinMath.INT_MAX
  {
    if |states| == 0 then 1
    else KotlinMath.ToInt32(31 * StatesHash(states[..|states| - 1], stackHash) + BlockHash(states[|states| - 1].block, stackHash))
  }

  /** `Chunk.hashCode`. */
  function ChunkHash(c: Chunk, stackHash: seq<TextureResource> -> int): (h: int)
    ensures KotlinMath.INT_MIN <= h <= KotlinMath.INT_MAX
  {
    StatesHash(c.blocks, stackHash)
  }

  /** States that are pairwise equal under `BlockEquals` hash alike. */
  lemma {:induction false} StatesHashRespectsEquals(s: seq<BlockState>, t: seq<BlockState>, stackHash: seq<TextureResource> -> int)
    requires |s| == |t|
    requires forall i :: 0 <= i < |s| ==> BlockEquals(s[i].block, t[i].block)
    ensures StatesHash(s, stackHash) == StatesHash(t, stackHash)
  {
    if |s| > 0 {
      var n := |s| - 1;
      assert StatesHash(s[..n], stackHash) == StatesHash(t[..n], stackHash) by {
        StatesHashRespectsEquals(s[..n], t[..n], stackHash);
      }
      assert BlockHash(s[n].block, stackHash) == BlockHash(t[n].block, stackHash) by {
        HashRespectsEquals(s[n].block, t[n].block, stackHash);
      }
      StatesHashStep(s, t, stackHash);
    }
  }

  /** The hash of a non-empty array is fixed by the hash of all but its last
      element and the last element's hash. */
  lemma {:induction false} StatesHashStep(s: seq<BlockState>, t: seq<BlockState>, stackHash: seq<TextureResource> -> int)
    requires |s| == |t| > 0
    requires StatesHash(s[..|s| - 1], stackHash) == StatesHash(t[..|t| - 1], stackHash)
    requires BlockHash(s[|s| - 1].block, stackHash) == BlockHash(t[|t| - 1].block, stackHash)
    ensures StatesHash(s, stackHash) == StatesHash(t, stackHash)
  {
  }

  /** Equal chunks hash alike, so `hashCode` agrees with `equals`. */
  lemma ChunkHashRespectsEquals(a: Chunk, b: Chunk, stackHash: seq<TextureResource> -> int)
    requires a.Valid() && b.Valid() && ChunkEquals(a, b)
    ensures ChunkHash(a, stackHash) == ChunkHash(b, stackHash)
  {
    StatesHashRespectsEquals(a.blocks, b.blocks, stackHash);
  }

  /** Equality and hash look only at the block contents, never at the chunk position. */
  lemma ChunkIdentityIgnoresPosition(c: Chunk, q: ChunkPosition, stackHash: seq<TextureResource> -> int)
    requires c.Valid()
    ensures ChunkEquals(c, c.(pos := q))
    ensures ChunkHash(c, stackHash) == ChunkHash(c.(pos := q), stackHash)
  {
  }
}

=== FILE: chunk_position.dfy ===
/** Chunk-grid coordinates (`ChunkPosition` in world/World.kt). */
module ChunkPositions {
  import opened Positioning
  import Radix
  import KotlinMath

  /** `Chunk.chunkSize`: the edge length of a chunk, in blocks. */
  const ChunkSize: int := 16

  /** A position on the chunk grid, in units of chunks. */
  datatype ChunkPosition = ChunkPosition(cx: int, cy: int, cz: int)
  {
    /** World-space x of the chunk's first block (`xPosition`): the block
        coordinate that starts the chunk's slab on that axis. */
    function XPosition(): (r: int)
      ensures InSlab(r, cx) && r % ChunkSize == 0
    {
      cx * ChunkSize
    }

    function YPosition(): (r: int)
      ensures InSlab(r, cy) && r % ChunkSize == 0
    {
      cy * ChunkSize
    }

    function ZPosition(): (r: int)
      ensures InSlab(r, cz) && r % ChunkSize == 0
    {
      cz * ChunkSize
    }
  }

  /** True when block coordinate `v` lies in the chunk slab starting at `c * 16`. */
  predicate InSlab(v: int, c: int)
  {
    ChunkSize * c <= v < ChunkSize * c + ChunkSize
  }

  /** `ChunkPosition.of` (also `BlockPos.chunkPos`): `floorDiv` by the chunk
      size on each axis. Dafny's `/` by a positive divisor rounds down, as
      `floorDiv` does. */
  function Of(b: BlockPos): (r: ChunkPosition)
    ensures InSlab(b.x, r.cx) && InSlab(b.y, r.cy) && InSlab(b.z, r.cz)
  {
    ChunkPosition(b.x / ChunkSize, b.y / ChunkSize, b.z / ChunkSize)
  }

  /** The chunk of a block is the only chunk whose slabs contain it. */
  lemma OfIsUnique(b: BlockPos, p: ChunkPosition)
    ensures Of(b) == p <==> InSlab(b.x, p.cx) && InSlab(b.y, p.cy) && InSlab(b.z, p.cz)
  {
    var q := Of(b);
    if InSlab(b.x, p.cx) && InSlab(b.y, p.cy) && InSlab(b.z, p.cz) {
      SlabUnique(b.x, p.cx, q.cx);
      SlabUnique(b.y, p.cy, q.cy);
      SlabUnique(b.z, p.cz, q.cz);
    }
  }

  lemma SlabUnique(v: int, c: int, c': int)
    requires InSlab(v, c) && InSlab(v, c')
    ensures c == c'
  {
  }

  /** Negative block coordinates round down: block -1 is the last block of chunk -1. */
  lemma OfNegative()
    ensures Of(BlockPos(-1, 0, 0)) == ChunkPosition(-1, 0, 0)
    ensures Of(BlockPos(-16, -17, 15)) == ChunkPosition(-1, -2, 0)
    ensures -1 - ChunkPosition(-1, 0, 0).XPosition() == 15
  {
  }

  /** A chunk's origin, and every block a local offset in [0, 16) away from it, lie in that chunk. */
  lemma OriginInChunk(p: ChunkPosition, x: int, y: int, z: int)
    requires 0 <= x < ChunkSize && 0 <= y < ChunkSize && 0 <= z < ChunkSize
    ensures Of(BlockPos(p.XPosition() + x, p.YPosition() + y, p.ZPosition() + z)) == p
  {
    OfIsUnique(BlockPos(p.XPosition() + x, p.YPosition() + y, p.ZPosition() + z), p);
  }

  /** The number of values in `-d..d`. */
  function Side(d: nat): nat { 2 * d + 1 }

  /** True when q lies within Chebyshev distance d of p on the chunk grid. */
  predicate WithinRange(p: ChunkPosition, q: ChunkPosition, d: int)
  {
    -d <= q.cx - p.cx <= d && -d <= q.cy - p.cy <= d && -d <= q.cz - p.cz <= d
  }

  /** `iterateRange`: every position whose offset from p on each axis lies in
      [-d, d], x varying slowest and z fastest. A negative distance makes the
      list's initial capacity negative, which the Kotlin code rejects; hence
      the precondition. */
  function IterateRange(p: ChunkPosition, d: nat): (r: seq<ChunkPosition>)
    ensures |r| == Side(d) * Side(d) * Side(d)
    ensures ListsOffsetsInOrder(p, d, r)
  {
    var r := seq(Cube(Side(d)), i => RangeElement(p, d, i));
    RangeElementsInOrder(p, d, r);
    r
  }

  /** Each position of the cube around p sits at the flat index of its offset
      digits: x slowest, z fastest. */
  ghost predicate ListsOffsetsInOrder(p: ChunkPosition, d: nat, r: seq<ChunkPosition>)
  {
    forall a, b, c :: Radix.InBox(a, b, c, Side(d), Side(d), Side(d)) ==>
      0 <= Radix.Flat3(a, b, c, Side(d), Side(d)) < |r| &&
      r[Radix.Flat3(a, b, c, Side(d), Side(d))] == ChunkPosition(p.cx + a - d, p.cy + b - d, p.cz + c - d)
  }

  function Cube(n: nat): (r: nat)
    ensures r == n * n * n
  {
    KotlinMath.MulLeq(0, n * n, n);
    n * n * n
  }

  /** The position `iterateRange` lists i-th, read off the digits of i. */
  function RangeElement(p: ChunkPosition, d: nat, i: int): ChunkPosition
  {
    var n := Side(d);
    ChunkPosition(p.cx + Radix.Hi(i, n, n) - d, p.cy + Radix.Mid(i, n, n) - d, p.cz + Radix.Lo(i, n) - d)
  }

  lemma RangeElementsInOrder(p: ChunkPosition, d: nat, r: seq<ChunkPosition>)
    requires |r| == Side(d) * Side(d) * Side(d)
    requires forall i :: 0 <= i < |r| ==> r[i] == RangeElement(p, d, i)
    ensures ListsOffsetsInOrder(p, d, r)
  {
    var n := Side(d);
    forall a, b, c | Radix.InBox(a, b, c, n, n, n)
      ensures 0 <= Radix.Flat3(a, b, c, n, n) < |r|
      ensures r[Radix.Flat3(a, b, c, n, n)] == ChunkPosition(p.cx + a - d, p.cy + b - d, p.cz + c - d)
    {
      Radix.Flat3Bounds(a, b, c, n, n, n);
      Radix.Flat3Decode(a, b, c, n, n, n);
    }
  }

  /** Every element of `iterateRange(d)` is the element at its own digits. */
  lemma IterateRangeAt(p: ChunkPosition, d: nat, i: int)
    requires 0 <= i < |IterateRange(p, d)|
    ensures IterateRange(p, d)[i] == RangeElement(p, d, i)
  {
  }

  /** q is enumerated by `iterateRange(d)` around p exactly when it lies within distance d. */
  lemma InIterateRange(p: ChunkPosition, d: nat, q: ChunkPosition)
    ensures q in IterateRange(p, d) <==> WithinRange(p, q, d)
  {
    var n := Side(d);
    var r := IterateRange(p, d);
    if q in r {
      var i :| 0 <= i < |r| && r[i] == q;
      IterateRangeAt(p, d, i);
      Radix.Flat3Encode(i, n, n, n);
    }
    if WithinRange(p, q, d) {
      var a, b, c := q.cx - p.cx + d, q.cy - p.cy + d, q.cz - p.cz + d;
      assert r[Radix.Flat3(a, b, c, n, n)] == q;
    }
  }

  /** `iterateRange` never lists a position twice, so it holds (2d+1)³ distinct positions. */
  lemma IterateRangeDistinct(p: ChunkPosition, d: nat, i: int, j: int)
    requires 0 <= i < |IterateRange(p, d)| && 0 <= j < |IterateRange(p, d)|
    requires IterateRange(p, d)[i] == IterateRange(p, d)[j]
    ensures i == j
  {
    var n := Side(d);
    IterateRangeAt(p, d, i);
    IterateRangeAt(p, d, j);
    Radix.Flat3Encode(i, n, n, n);
    Radix.Flat3Encode(j, n, n, n);
  }
}

=== FILE: displayer.dfy ===
/** The chunk streaming controller (`WorldDisplayer` in world/WorldDisplayer.kt):
    it generates the chunks around the viewer, queues their meshes and, once
    per frame, swaps the queued meshes into the per-chunk scene nodes. */
module WorldDisplayers {
  import opened Wrappers
  import opened Positioning
  import opened ChunkPositions
  import opened Chunks
  import opened Worlds
  import opened WorldGeneration
  import Meshing

  /** The capacity of `chunkRenderablesToFinalize`. */
  const QueueCapacity: int := 100

  /** `ChunkMeshBuildResult`: a chunk's submeshes and vertex list. */
  datatype MeshBuildResult = MeshBuildResult(chunkPosition: ChunkPosition, meshes: seq<Meshing.Submesh>, vertices: seq<Meshing.Vertex>)

  /** A scene node showing one chunk's mesh, placed one unit below the chunk's origin. */
  datatype ChunkNode = ChunkNode(localPosition: Vec3i, shown: MeshBuildResult)

  /** What `chunk.createRenderable(world)` yields: submeshes and vertices. */
  type Mesher = (World, Chunk) -> (seq<Meshing.Submesh>, seq<Meshing.Vertex>)

  /** `onChunkChanged` sizes its position list by (2d)³, which Kotlin's
      `ArrayList` rejects as a negative capacity when d < 0. */
  datatype DisplayError = NegativeCapacity(renderDistance: int)

  datatype Displayer = Displayer(
    renderDistance: int,
    world: World,
    lastChunkPos: Option<ChunkPosition>,
    lastBlockPos: Option<BlockPos>,
    pending: seq<MeshBuildResult>,
    nodes: map<ChunkPosition, ChunkNode>,
    finalized: nat)
  {
    /** The world is well-formed, the queue within its capacity, and every
        queued result has submeshes and vertices. */
    ghost predicate Valid()
    {
      world.Valid()
      && |pending| <= QueueCapacity
      && forall k :: 0 <= k < |pending| ==> Shows(pending[k])
    }
  }

  /** A result worth turning into a node: it has submeshes and vertices. */
  predicate Shows(m: MeshBuildResult)
  {
    |m.meshes| > 0 && |m.vertices| > 0
  }

  /** A fresh controller: nothing seen, nothing queued, no nodes. */
  function NewDisplayer(renderDistance: int, w: World): (r: Displayer)
    requires w.Valid()
    ensures r.Valid() && r.world == w && r.renderDistance == renderDistance
    ensures r.lastChunkPos.None? && r.pending == [] && r.nodes == map[]
  {
    Displayer(renderDistance, w, None, None, [], map[], 0)
  }

  /** `updateChunkMesh`: mesh the chunk against the current world and queue
      the result, unless it has no submeshes or no vertices. `add` on a full
      queue throws inside the completion callback, where nobody observes
      it, so the result is lost. */
  function UpdateChunkMesh(d: Displayer, c: Chunk, mesh: Mesher): (r: Displayer)
    requires d.Valid()
    ensures r.Valid()
    ensures r == d.(pending := r.pending)
    ensures var m := MeshBuildResult(c.pos, mesh(d.world, c).0, mesh(d.world, c).1);
            if Shows(m) && |d.pending| < QueueCapacity then r.pending == d.pending + [m]
            else r.pending == d.pending
  {
    var (meshes, vertices) := mesh(d.world, c);
    if |meshes| == 0 || |vertices| == 0 then d
    else if |d.pending| >= QueueCapacity then d
    else d.(pending := d.pending + [MeshBuildResult(c.pos, meshes, vertices)])
  }

  /** `rebuildFor`: a block change re-meshes its chunk, if the world has one. */
  function RebuildFor(d: Displayer, b: BlockPos, mesh: Mesher): (r: Displayer)
    requires d.Valid()
    ensures r.Valid() && r == d.(pending := r.pending)
    ensures !HasChunkAt(d.world, Of(b)) ==> r == d
    ensures HasChunkAt(d.world, Of(b)) ==> r == UpdateChunkMesh(d, d.world.chunks[Of(b)], mesh)
  {
    match GetChunkAt(d.world, Of(b))
    case None => d
    case Some(c) => UpdateChunkMesh(d, c, mesh)
  }

  /** The results queued after the first `n`, each for a position in `added`. */
  ghost predicate QueuedFor(pending: seq<MeshBuildResult>, n: int, added: set<ChunkPosition>)
  {
    0 <= n <= |pending| && forall k :: n <= k < |pending| ==> pending[k].chunkPosition in added
  }

  /** One position of the range: a missing chunk is generated, stored and
      queued for meshing; a present one is left alone. */
  function FillOne(cur: Displayer, pos: ChunkPosition, mesh: Mesher): (r: Displayer)
    requires cur.Valid()
    ensures r.Valid() && r == cur.(world := r.world, pending := r.pending)
    ensures HasChunkAt(cur.world, pos) ==> r == cur
    ensures !HasChunkAt(cur.world, pos) ==> r.world == AddChunk(cur.world, SuperFlat(NewChunk(pos)))
    // the new chunk is meshed against the world that already holds it, and
    // the result is queued when it shows and the queue has room
    ensures !HasChunkAt(cur.world, pos) ==>
              var m := MeshBuildResult(pos, mesh(r.world, SuperFlat(NewChunk(pos))).0, mesh(r.world, SuperFlat(NewChunk(pos))).1);
              if Shows(m) && |cur.pending| < QueueCapacity then r.pending == cur.pending + [m]
              else r.pending == cur.pending
  {
    if HasChunkAt(cur.world, pos) then cur
    else
      var chunk := SuperFlat(NewChunk(pos));
      UpdateChunkMesh(cur.(world := AddChunk(cur.world, chunk)), chunk, mesh)
  }

  /** The state of `onChunkChanged` after the first i positions of `range`. */
  ghost predicate Filling(d: Displayer, range: seq<ChunkPosition>, i: int, cur: Displayer, mesh: Mesher)
  {
    && 0 <= i <= |range|
    && cur.Valid() && cur == d.(world := cur.world, pending := cur.pending)
    && ChunksFilled(d.world, range[..i], cur.world)
    && QueueFilled(d.pending, cur.pending, cur.world.chunks.Keys - d.world.chunks.Keys)
    && QueueComplete(d.pending, cur.pending, cur.world.chunks.Keys - d.world.chunks.Keys, |cur.world.chunks| - |d.world.chunks|, mesh)
  }

  /** Every chunk meshes to something visible, whatever the world. */
  ghost predicate AlwaysShows(mesh: Mesher)
  {
    forall w, c :: |mesh(w, c).0| > 0 && |mesh(w, c).1| > 0
  }

  /** When every mesh shows and the queue has room for the `grown` new
      chunks, one result per new chunk is queued after `before`, and each
      position in `added` has one. */
  ghost predicate QueueComplete(before: seq<MeshBuildResult>, pending: seq<MeshBuildResult>, added: set<ChunkPosition>,
                                grown: int, mesh: Mesher)
  {
    AlwaysShows(mesh) && |before| + grown <= QueueCapacity ==>
      && |pending| == |before| + grown
      && forall q :: q in added ==> QueuedAfter(pending, |before|, q)
  }

  /** Some result after the first n is for position q. */
  ghost predicate QueuedAfter(pending: seq<MeshBuildResult>, n: int, q: ChunkPosition)
    decreases |pending|
  {
    0 <= n < |pending| && (pending[|pending| - 1].chunkPosition == q || QueuedAfter(pending[..|pending| - 1], n, q))
  }

  /** `QueuedAfter` names an index of the queue holding a result for q. */
  lemma {:induction false} QueuedAfterIndex(pending: seq<MeshBuildResult>, n: int, q: ChunkPosition)
    requires QueuedAfter(pending, n, q)
    ensures exists k :: n <= k < |pending| && pending[k].chunkPosition == q
    decreases |pending|
  {
    var last := |pending| - 1;
    if pending[last].chunkPosition != q {
      QueuedAfterIndex(pending[..last], n, q);
      var k :| n <= k < last && pending[..last][k].chunkPosition == q;
      assert pending[k] == pending[..last][k];
    }
  }

  /** `w` is `before` plus a fresh super-flat chunk for every position of `done`
      that `before` lacked. */
  ghost predicate ChunksFilled(before: World, done: seq<ChunkPosition>, w: World)
  {
    && (forall j :: 0 <= j < |done| ==> done[j] in w.chunks)
    && (forall q :: q in before.chunks ==> q in w.chunks && w.chunks[q] == before.chunks[q])
    && (forall q :: q in w.chunks && q !in before.chunks ==> q in done && w.chunks[q] == SuperFlat(NewChunk(q)))
  }

  /** `pending` is `before` followed by results for positions in `added`. */
  ghost predicate QueueFilled(before: seq<MeshBuildResult>, pending: seq<MeshBuildResult>, added: set<ChunkPosition>)
  {
    |before| <= |pending| && pending[..|before|] == before && QueuedFor(pending, |before|, added)
  }

  lemma FillStep(d: Displayer, range: seq<ChunkPosition>, i: int, cur: Displayer, mesh: Mesher)
    requires Filling(d, range, i, cur, mesh) && i < |range|
    ensures Filling(d, range, i + 1, FillOne(cur, range[i], mesh), mesh)
  {
    assert range[..i + 1] == range[..i] + [range[i]];
    if HasChunkAt(cur.world, range[i]) {
      ChunksPresent(d.world, range[..i], cur.world, range[i]);
    } else {
      ChunksAdded(d.world, range[..i], cur.world, SuperFlat(NewChunk(range[i])));
      FillAbsent(d, cur, range[i], mesh);
    }
  }

  /** Filling a position whose chunk is missing adds that chunk's position to
      the new ones, and queues at most its result. */
  lemma FillAbsent(d: Displayer, cur: Displayer, pos: ChunkPosition, mesh: Mesher)
    requires cur.Valid() && cur == d.(world := cur.world, pending := cur.pending) && !HasChunkAt(cur.world, pos)
    requires d.world.chunks.Keys <= cur.world.chunks.Keys
    requires QueueFilled(d.pending, cur.pending, cur.world.chunks.Keys - d.world.chunks.Keys)
    requires QueueComplete(d.pending, cur.pending, cur.world.chunks.Keys - d.world.chunks.Keys, |cur.world.chunks| - |d.world.chunks|, mesh)
    ensures QueueFilled(d.pending, FillOne(cur, pos, mesh).pending, FillOne(cur, pos, mesh).world.chunks.Keys - d.world.chunks.Keys)
    ensures QueueComplete(d.pending, FillOne(cur, pos, mesh).pending, FillOne(cur, pos, mesh).world.chunks.Keys - d.world.chunks.Keys,
                          |FillOne(cur, pos, mesh).world.chunks| - |d.world.chunks|, mesh)
  {
    var next := FillOne(cur, pos, mesh);
    var added := cur.world.chunks.Keys - d.world.chunks.Keys;
    assert next.world.chunks.Keys - d.world.chunks.Keys == added + {pos};
    FillQueue(d.pending, added, |cur.world.chunks| - |d.world.chunks|, cur, pos, mesh);
  }

  /** Filling an absent position queues at most its own result, and queues it
      whenever every mesh shows and the queue has room. */
  lemma FillQueue(before: seq<MeshBuildResult>, added: set<ChunkPosition>, grown: int, cur: Displayer, pos: ChunkPosition, mesh: Mesher)
    requires cur.Valid() && !HasChunkAt(cur.world, pos) && pos !in added
    requires QueueFilled(before, cur.pending, added) && QueueComplete(before, cur.pending, added, grown, mesh)
    ensures QueueFilled(before, FillOne(cur, pos, mesh).pending, added + {pos})
    ensures QueueComplete(before, FillOne(cur, pos, mesh).pending, added + {pos}, grown + 1, mesh)
  {
    var next := FillOne(cur, pos, mesh);
    var chunk := SuperFlat(NewChunk(pos));
    QueueAdded(before, cur.pending, added, next.pending, pos);
    if AlwaysShows(mesh) && |cur.pending| < QueueCapacity {
      assert Shows(MeshBuildResult(pos, mesh(next.world, chunk).0, mesh(next.world, chunk).1));
    }
    QueueCompleted(before, cur.pending, added, grown, next.pending, pos, mesh);
  }

  /** A position whose chunk is already there adds nothing. */
  lemma ChunksPresent(before: World, done: seq<ChunkPosition>, w: World, pos: ChunkPosition)
    requires ChunksFilled(before, done, w) && pos in w.chunks
    ensures ChunksFilled(before, done + [pos], w)
  {
  }

  /** Storing a fresh chunk for the next position keeps the world filled. */
  lemma ChunksAdded(before: World, done: seq<ChunkPosition>, w: World, chunk: Chunk)
    requires w.Valid() && chunk.Valid() && chunk.pos !in w.chunks && chunk == SuperFlat(NewChunk(chunk.pos))
    requires ChunksFilled(before, done, w)
    ensures ChunksFilled(before, done + [chunk.pos], AddChunk(w, chunk))
  {
  }

  /** Queueing at most one result, for `pos`, keeps the earlier queue as a prefix. */
  lemma QueueAdded(before: seq<MeshBuildResult>, pending: seq<MeshBuildResult>, added: set<ChunkPosition>,
                   next: seq<MeshBuildResult>, pos: ChunkPosition)
    requires QueueFilled(before, pending, added)
    requires next == pending || (|next| == |pending| + 1 && next[..|pending|] == pending && next[|pending|].chunkPosition == pos)
    ensures QueueFilled(before, next, added + {pos})
  {
    if next != pending {
      assert next[..|before|] == next[..|pending|][..|before|];
    }
  }

  /** Queueing the one result for a position not yet added keeps every added
      position queued, as long as every mesh shows and the queue has room. */
  lemma QueueCompleted(before: seq<MeshBuildResult>, pending: seq<MeshBuildResult>, added: set<ChunkPosition>, grown: int,
                       next: seq<MeshBuildResult>, pos: ChunkPosition, mesh: Mesher)
    requires QueueComplete(before, pending, added, grown, mesh) && pos !in added && |before| <= |pending|
    requires AlwaysShows(mesh) && |pending| < QueueCapacity ==> |next| == |pending| + 1 && next[..|pending|] == pending && next[|pending|].chunkPosition == pos
    ensures QueueComplete(before, next, added + {pos}, grown + 1, mesh)
  {
    if AlwaysShows(mesh) && |before| + grown + 1 <= QueueCapacity {
      assert next[..|next| - 1] == pending;
      forall q | q in added + {pos}
        ensures QueuedAfter(next, |before|, q)
      {
        if q != pos {
          assert QueuedAfter(pending, |before|, q);
        }
      }
    }
  }

  /** `onChunkChanged`: every position within the render distance of the new
      chunk that the world lacks gets a fresh chunk, passed through the
      super-flat generator, stored, and queued for meshing. */
  method OnChunkChanged(d: Displayer, center: ChunkPosition, mesh: Mesher) returns (r: Result<Displayer, DisplayError>)
    requires d.Valid()
    ensures r.Err? <==> d.renderDistance < 0
    ensures r.Err? ==> r.error == NegativeCapacity(d.renderDistance)
    ensures r.Ok? ==> r.value.Valid()
    ensures r.Ok? ==> r.value == d.(world := r.value.world, pending := r.value.pending)
    // every position in range is present afterwards
    ensures r.Ok? ==> forall q :: WithinRange(center, q, d.renderDistance) ==> HasChunkAt(r.value.world, q)
    // chunks already present are kept as they were
    ensures r.Ok? ==> forall q :: q in d.world.chunks ==> q in r.value.world.chunks && r.value.world.chunks[q] == d.world.chunks[q]
    // a new chunk lies in range and is a freshly generated one
    ensures r.Ok? ==> forall q :: q in r.value.world.chunks && q !in d.world.chunks ==>
              WithinRange(center, q, d.renderDistance) && r.value.world.chunks[q] == SuperFlat(NewChunk(q))
    // the queue only grew, and only with meshes of new chunks
    ensures r.Ok? ==> |d.pending| <= |r.value.pending| && r.value.pending[..|d.pending|] == d.pending
    ensures r.Ok? ==> QueuedFor(r.value.pending, |d.pending|, r.value.world.chunks.Keys - d.world.chunks.Keys)
    // when every mesh shows and the queue has room for all of them, each new
    // chunk has exactly one result queued
    ensures r.Ok? && AlwaysShows(mesh) && |d.pending| + (|r.value.world.chunks| - |d.world.chunks|) <= QueueCapacity ==>
              && |r.value.pending| == |d.pending| + (|r.value.world.chunks| - |d.world.chunks|)
              && forall q :: q in r.value.world.chunks && q !in d.world.chunks ==>
                   exists k :: |d.pending| <= k < |r.value.pending| && r.value.pending[k].chunkPosition == q
  {
    if d.renderDistance < 0 {
      return Err(NegativeCapacity(d.renderDistance));
    }
    var range := IterateRange(center, d.renderDistance);
    var cur := d;
    var i := 0;
    assert range[..0] == [];
    while i < |range|
      invariant Filling(d, range, i, cur, mesh)
    {
      FillStep(d, range, i, cur, mesh);
      cur := FillOne(cur, range[i], mesh);
      i := i + 1;
    }
    assert range[..i] == range;
    forall q | WithinRange(center, q, d.renderDistance)
      ensures HasChunkAt(cur.world, q)
    {
      InIterateRange(center, d.renderDistance, q);
    }
    forall q | q in cur.world.chunks && q !in d.world.chunks
      ensures WithinRange(center, q, d.renderDistance)
    {
      assert q in range;
      InIterateRange(center, d.renderDistance, q);
    }
    var added := cur.world.chunks.Keys - d.world.chunks.Keys;
    if AlwaysShows(mesh) && |d.pending| + (|cur.world.chunks| - |d.world.chunks|) <= QueueCapacity {
      forall q | q in cur.world.chunks && q !in d.world.chunks
        ensures exists k :: |d.pending| <= k < |cur.pending| && cur.pending[k].chunkPosition == q
      {
        assert q in added;
        QueuedAfterIndex(cur.pending, |d.pending|, q);
      }
    }
    return Ok(cur);
  }

  /** `onViewerMoved` for a viewer standing in block `b`: entering a chunk
      other than the last one triggers `onChunkChanged`; then the last chunk
      and block positions are updated. */
  method OnViewerMoved(d: Displayer, b: BlockPos, mesh: Mesher) returns (r: Result<Displayer, DisplayError>)
    requires d.Valid()
    ensures r.Err? <==> d.lastChunkPos != Some(Of(b)) && d.renderDistance < 0
    ensures r.Ok? ==> r.value.Valid()
    ensures r.Ok? ==> r.value.lastChunkPos == Some(Of(b)) && r.value.lastBlockPos == Some(b)
    ensures r.Ok? ==> r.value.nodes == d.nodes && r.value.renderDistance == d.renderDistance
    // staying in the same chunk touches neither the world nor the queue
    ensures r.Ok? && d.lastChunkPos == Some(Of(b)) ==> r.value.world == d.world && r.value.pending == d.pending
    // entering another chunk fills the range around it
    ensures r.Ok? && d.lastChunkPos != Some(Of(b)) ==>
              forall q :: WithinRange(Of(b), q, d.renderDistance) ==> HasChunkAt(r.value.world, q)
    ensures r.Ok? ==> forall q :: q in d.world.chunks ==> q in r.value.world.chunks && r.value.world.chunks[q] == d.world.chunks[q]
    // the queue only grows, and with results for the new chunks only
    ensures r.Ok? ==> |d.pending| <= |r.value.pending| && r.value.pending[..|d.pending|] == d.pending
    ensures r.Ok? ==> QueuedFor(r.value.pending, |d.pending|, r.value.world.chunks.Keys - d.world.chunks.Keys)
    // when every mesh shows and the queue has room, each new chunk is queued
    ensures r.Ok? && AlwaysShows(mesh) && |d.pending| + (|r.value.world.chunks| - |d.world.chunks|) <= QueueCapacity ==>
              forall q :: q in r.value.world.chunks && q !in d.world.chunks ==>
                exists k :: |d.pending| <= k < |r.value.pending| && r.value.pending[k].chunkPosition == q
  {
    var current := Of(b);
    var next := d;
    if d.lastChunkPos != Some(current) {
      next :- OnChunkChanged(d, current, mesh);
    }
    return Ok(next.(lastChunkPos := Some(current), lastBlockPos := Some(b)));
  }

  /** The latest result queued for chunk position p, if any. */
  function LatestFor(pending: seq<MeshBuildResult>, p: ChunkPosition): (r: Option<MeshBuildResult>)
    ensures r.None? <==> forall k :: 0 <= k < |pending| ==> pending[k].chunkPosition != p
    ensures r.Some? ==> exists k :: 0 <= k < |pending| && pending[k] == r.value && r.value.chunkPosition == p
                          && forall j :: k < j < |pending| ==> pending[j].chunkPosition != p
  {
    if |pending| == 0 then None
    else
      var last := pending[|pending| - 1];
      if last.chunkPosition == p then Some(last)
      else
        var prefix := pending[..|pending| - 1];
        var r := LatestFor(prefix, p);
        assert r.Some? ==> exists k :: 0 <= k < |pending| && pending[k] == r.value && r.value.chunkPosition == p
                                       && forall j :: k < j < |pending| ==> pending[j].chunkPosition != p
        by {
          if r.Some? {
            var k :| 0 <= k < |prefix| && prefix[k] == r.value && r.value.chunkPosition == p
                     && forall j :: k < j < |prefix| ==> prefix[j].chunkPosition != p;
            assert pending[k] == prefix[k];
            forall j | k < j < |pending| ensures pending[j].chunkPosition != p {
              if j < |prefix| { assert pending[j] == prefix[j]; }
            }
          }
        }
        assert forall k :: 0 <= k < |prefix| ==> prefix[k] == pending[k];
        r
  }

  /** Extending the drained prefix by one result: that result becomes the
      latest for its own position, and every other position is unaffected. */
  lemma LatestForStep(pending: seq<MeshBuildResult>, i: int, p: ChunkPosition)
    requires 0 <= i < |pending|
    ensures LatestFor(pending[..i + 1], p)
            == if pending[i].chunkPosition == p then Some(pending[i]) else LatestFor(pending[..i], p)
  {
    assert pending[..i + 1][..i] == pending[..i];
  }

  /** The node that shows a drained result. */
  function NodeFor(m: MeshBuildResult): (n: ChunkNode)
    ensures n.shown == m
    ensures n.localPosition == Vec3i(m.chunkPosition.XPosition(), m.chunkPosition.YPosition() - 1, m.chunkPosition.ZPosition())
  {
    ChunkNode(Vec3i(m.chunkPosition.XPosition(), m.chunkPosition.YPosition() - 1, m.chunkPosition.ZPosition()), m)
  }

  /** `nodes` is `base` after draining `drained`: exactly the positions with a
      node before or a drained result have one, each drained position shows its
      latest result, and the others keep their node. */
  ghost predicate Drained(base: map<ChunkPosition, ChunkNode>, drained: seq<MeshBuildResult>, nodes: map<ChunkPosition, ChunkNode>)
  {
    && (forall p :: p in nodes <==> p in base || LatestFor(drained, p).Some?)
    && (forall p :: LatestFor(drained, p).Some? ==> p in nodes && nodes[p] == NodeFor(LatestFor(drained, p).value))
    && (forall p :: p in base && LatestFor(drained, p).None? ==> p in nodes && nodes[p] == base[p])
  }

  /** Draining one more result replaces the node of its position. */
  lemma DrainStep(base: map<ChunkPosition, ChunkNode>, pending: seq<MeshBuildResult>, i: int, nodes: map<ChunkPosition, ChunkNode>)
    requires 0 <= i < |pending| && Drained(base, pending[..i], nodes)
    ensures Drained(base, pending[..i + 1], nodes[pending[i].chunkPosition := NodeFor(pending[i])])
  {
    forall p: ChunkPosition
      ensures LatestFor(pending[..i + 1], p) == if pending[i].chunkPosition == p then Some(pending[i]) else LatestFor(pending[..i], p)
    {
      LatestForStep(pending, i, p);
    }
  }

  /** `onFrame`: drain the queue in order, each result replacing the node of
      its chunk position. */
  method OnFrame(d: Displayer) returns (r: Displayer)
    requires d.Valid()
    ensures r.Valid() && r.pending == []
    ensures r == d.(pending := [], nodes := r.nodes, finalized := r.finalized)
    ensures r.finalized == d.finalized + |d.pending|
    ensures forall p :: p in r.nodes <==> p in d.nodes || LatestFor(d.pending, p).Some?
    // a position with queued results shows the latest of them
    ensures forall p :: LatestFor(d.pending, p).Some? ==> p in r.nodes && r.nodes[p] == NodeFor(LatestFor(d.pending, p).value)
    // a position with none keeps its node
    ensures forall p :: p in d.nodes && LatestFor(d.pending, p).None? ==> p in r.nodes && r.nodes[p] == d.nodes[p]
  {
    var nodes := d.nodes;
    var i := 0;
    assert d.pending[..0] == [];
    while i < |d.pending|
      invariant 0 <= i <= |d.pending|
      invariant Drained(d.nodes, d.pending[..i], nodes)
    {
      DrainStep(d.nodes, d.pending, i, nodes);
      var m := d.pending[i];
      nodes := nodes[m.chunkPosition := NodeFor(m)];
      i := i + 1;
    }
    assert d.pending[..i] == d.pending;
    r := d.(pending := [], nodes := nodes, finalized := d.finalized + |d.pending|);
  }
}

=== FILE: generation.dfy ===
/** Chunk generation (world/generation/WorldGeneration.kt). */
module WorldGeneration {
  import opened Wrappers
  import opened Blocks
  import opened ChunkPositions
  import opened Chunks
  import Radix

  /** The chunk the super-flat pass produces: grass on the whole y = 0 layer,
      every other cell as before. */
  function SuperFlat(c: Chunk): (r: Chunk)
    requires c.Valid()
    ensures r.Valid() && r.pos == c.pos
    ensures forall x, y, z :: InBounds(x, y, z) ==>
              GetBlock(r, x, y, z) == if y == 0 then Some(BlockState(Grass)) else GetBlock(c, x, y, z)
  {
    var r := c.(blocks := seq(Volume, i requires 0 <= i < Volume =>
                                if LocalY(i) == 0 then BlockState(Grass) else c.blocks[i]));
    assert forall x, y, z :: InBounds(x, y, z) ==>
             GetBlock(r, x, y, z) == if y == 0 then Some(BlockState(Grass)) else GetBlock(c, x, y, z) by {
      forall x, y, z | InBounds(x, y, z)
        ensures GetBlock(r, x, y, z) == if y == 0 then Some(BlockState(Grass)) else GetBlock(c, x, y, z)
      {
        GetIndexIsFlat3(x, y, z);
        Radix.Flat3Decode(x, y, z, ChunkSize, ChunkSize, ChunkSize);
      }
    }
    r
  }

  /** `SuperFlatChunkGenerator.generate`: sets (x, 0, z) to grass for every x
      and z, row by row. Every write is in bounds, so it never fails. */
  method Generate(c: Chunk) returns (r: Chunk)
    requires c.Valid()
    ensures r.Valid() && r.pos == c.pos
    ensures forall x, z :: InBounds(x, 0, z) ==> GetBlock(r, x, 0, z) == Some(BlockState(Grass))
    ensures forall x, y, z :: InBounds(x, y, z) && y != 0 ==> GetBlock(r, x, y, z) == GetBlock(c, x, y, z)
    ensures r == SuperFlat(c)
  {
    r := c;
    for x := 0 to ChunkSize
      invariant r.Valid() && r.pos == c.pos
      invariant forall X, Y, Z :: InBounds(X, Y, Z) ==>
                  GetBlock(r, X, Y, Z) == if Y == 0 && X < x then Some(BlockState(Grass)) else GetBlock(c, X, Y, Z)
    {
      for z := 0 to ChunkSize
        invariant r.Valid() && r.pos == c.pos
        invariant forall X, Y, Z :: InBounds(X, Y, Z) ==>
                    GetBlock(r, X, Y, Z) == if Y == 0 && (X < x || (X == x && Z < z)) then Some(BlockState(Grass))
                                            else GetBlock(c, X, Y, Z)
      {
        var written := SetBlock(r, x, 0, z, BlockState(Grass));
        r := written.value;
      }
    }
    SameCellsSameChunk(r, SuperFlat(c));
  }

  /** Generating twice leaves the same chunk as generating once. */
  lemma SuperFlatIdempotent(c: Chunk)
    requires c.Valid()
    ensures SuperFlat(SuperFlat(c)) == SuperFlat(c)
  {
    SameCellsSameChunk(SuperFlat(SuperFlat(c)), SuperFlat(c));
  }

  /** The generated blocks do not depend on the chunk's position. */
  lemma SuperFlatIgnoresPosition(c: Chunk, q: ChunkPosition)
    requires c.Valid()
    ensures SuperFlat(c.(pos := q)).blocks == SuperFlat(c).blocks
  {
  }
}

=== FILE: kotlin_math.dfy ===
/** Kotlin `Int` arithmetic that differs from Dafny's: `/` and `%` round toward
    zero (Dafny's are Euclidean), and 32-bit results wrap around. Also
    `ceilDiv` from utils/Math.kt. */
module KotlinMath {

  const INT_MIN: int := -0x8000_0000
  const INT_MAX: int := 0x7fff_ffff

  function Abs(a: int): nat { if a < 0 then -a else a }

  /** Kotlin `a / b`: the quotient rounded toward zero. */
  function TruncDiv(a: int, b: int): (q: int)
    requires b != 0
    ensures Abs(q) * Abs(b) <= Abs(a) < Abs(q) * Abs(b) + Abs(b)
    ensures q == 0 || ((q < 0) <==> ((a < 0) != (b < 0)))
  {
    var m := Abs(a) / Abs(b);
    DivBounds(Abs(a), Abs(b));
    if (a < 0) == (b < 0) then m else -m
  }

  lemma DivBounds(n: nat, d: nat)
    requires d > 0
    ensures (n / d) * d <= n < (n / d) * d + d
    ensures (n / d) >= 0
  {
  }

  /** Kotlin `a % b`: the remainder takes the sign of the dividend. */
  function TruncRem(a: int, b: int): (r: int)
    requires b != 0
    ensures a == TruncDiv(a, b) * b + r
    ensures Abs(r) < Abs(b)
    ensures r == 0 || ((r < 0) <==> (a < 0))
  {
    var q := TruncDiv(a, b);
    var r := a - q * b;
    assert Abs(q * b) == Abs(q) * Abs(b) by { AbsMul(q, b); }
    r
  }

  lemma AbsMul(x: int, y: int)
    ensures Abs(x * y) == Abs(x) * Abs(y)
  {
    if x < 0 && y < 0 {
      assert x * y == (-x) * (-y);
    } else if x < 0 {
      assert x * y == -((-x) * y);
    } else if y < 0 {
      assert x * y == -(x * (-y));
    }
  }

  /** `ceilDiv(a, b)` exactly as written: truncated quotient, plus one when the
      truncated remainder is non-zero. */
  function CeilDiv(a: int, b: int): (r: int)
    requires b != 0
    // the truncated quotient, raised by one exactly when b does not divide a
    ensures r == TruncDiv(a, b) || r == TruncDiv(a, b) + 1
    ensures r == TruncDiv(a, b) <==> TruncDiv(a, b) * b == a
  {
    TruncDiv(a, b) + if TruncRem(a, b) == 0 then 0 else 1
  }

  /** The true ceiling of the rational a / b, computed with Euclidean division
      by a positive divisor. */
  function Ceiling(a: int, b: int): (r: int)
    requires b != 0
    ensures b > 0 ==> (r - 1) * b < a <= r * b
    ensures b < 0 ==> r * b <= a < (r - 1) * b
  {
    if b > 0 then
      var q := (-a) / b;
      assert q * b <= -a < q * b + b;
      -q
    else
      var q := a / (-b);
      assert q * (-b) <= a < q * (-b) + (-b);
      -q
  }

  /** For a ≥ 0 and b > 0, `ceilDiv` returns the least q with q·b ≥ a. */
  lemma CeilDivIsLeast(a: int, b: int)
    requires a >= 0 && b > 0
    ensures CeilDiv(a, b) * b >= a
    ensures (CeilDiv(a, b) - 1) * b < a
    ensures CeilDiv(a, b) == Ceiling(a, b)
  {
    var q := TruncDiv(a, b);
    var r := TruncRem(a, b);
    assert a == q * b + r && 0 <= r < b;
    if r == 0 {
      assert CeilDiv(a, b) * b == a;
    } else {
      assert CeilDiv(a, b) * b == q * b + b;
    }
    CeilingUnique(a, b, CeilDiv(a, b));
  }

  /** The ceiling is the only q with (q - 1)·b < a ≤ q·b, for b > 0. */
  lemma CeilingUnique(a: int, b: int, q: int)
    requires b > 0
    requires (q - 1) * b < a <= q * b
    ensures q == Ceiling(a, b)
  {
    var c := Ceiling(a, b);
    if q < c {
      assert q <= c - 1;
      assert q * b <= (c - 1) * b by { MulLeq(q, c - 1, b); }
    } else if q > c {
      assert c <= q - 1;
      assert c * b <= (q - 1) * b by { MulLeq(c, q - 1, b); }
    }
  }

  /** Multiplying by a non-negative factor keeps the order. */
  lemma MulLeq(x: int, y: int, k: int)
    requires x <= y && k >= 0
    ensures x * k <= y * k
  {
    assert y * k - x * k == (y - x) * k;
  }

  /** An exact division adds nothing: `ceilDiv(k·b, b) == k`, for any sign. */
  lemma CeilDivExactMultiple(k: int, b: int)
    requires b != 0
    ensures CeilDiv(k * b, b) == k
  {
    var n := Abs(b);
    AbsMul(k, b);
    ExactDivision(Abs(k), n);
    MulSign(k, b);
    assert TruncDiv(k * b, b) == k;
  }

  lemma ExactDivision(q: nat, n: int)
    requires n > 0
    ensures (q * n) / n == q
  {
    var d := (q * n) / n;
    var rem := (q * n) % n;
    assert (q - d) * n == rem;
    if q > d {
      MulLeq(1, q - d, n);
    } else if q < d {
      MulLeq(1, d - q, n);
    }
  }

  lemma MulSign(x: int, y: int)
    ensures x * y < 0 <==> (x < 0 && y > 0) || (x > 0 && y < 0)
    ensures x * y > 0 <==> (x < 0 && y < 0) || (x > 0 && y > 0)
  {
    AbsMul(x, y);
    if x != 0 && y != 0 {
      assert Abs(x) * Abs(y) > 0 by { MulLeq(1, Abs(x), Abs(y)); }
    }
  }

  /** When b does not divide a, `ceilDiv` is the truncated quotient plus one,
      whatever the signs. */
  lemma CeilDivNotDivisible(a: int, b: int)
    requires b != 0 && TruncRem(a, b) != 0
    ensures CeilDiv(a, b) == TruncDiv(a, b) + 1
    ensures TruncDiv(a, b) * b != a
  {
  }

  /** Finding: for a negative dividend that a positive divisor does not divide,
      `ceilDiv` overshoots the ceiling by one. */
  lemma {:induction false} CeilDivOvershootsNegative(a: int, b: int)
    requires a < 0 && b > 0 && TruncRem(a, b) != 0
    ensures CeilDiv(a, b) == Ceiling(a, b) + 1
  {
    var q := TruncDiv(a, b);
    var r := TruncRem(a, b);
    assert a == q * b + r && -b < r < 0;
    assert q <= 0;
    CeilingUnique(a, b, q);
  }

  /** The smallest witness of the finding: ceilDiv(-3, 2) is 0, the ceiling of -1.5 is -1. */
  lemma CeilDivCounterexample()
    ensures CeilDiv(-3, 2) == 0
    ensures Ceiling(-3, 2) == -1
  {
    CeilDivOvershootsNegative(-3, 2);
  }

  /** Two's-complement wrap-around of a Kotlin `Int` result. */
  function ToInt32(x: int): (r: int)
    ensures INT_MIN <= r <= INT_MAX
    ensures (r - x) % 0x1_0000_0000 == 0
    ensures INT_MIN <= x <= INT_MAX ==> r == x
  {
    (x - INT_MIN) % 0x1_0000_0000 + INT_MIN
  }
}

=== FILE: lists.dfy ===
/** List helpers with Kotlin's semantics: `indexOf` returns the first matching
    position, or -1 when the value is absent. */
module Lists {

  /** Kotlin `List.indexOf`. */
  function IndexOf<T(==)>(s: seq<T>, v: T): (r: int)
    ensures r == -1 <==> v !in s
    ensures r != -1 ==> 0 <= r < |s| && s[r] == v && v !in s[..r]
  {
    if |s| == 0 then -1
    else if s[0] == v then 0
    else
      var k := IndexOf(s[1..], v);
      if k == -1 then -1
      else
        assert s[..k + 1] == [s[0]] + s[1..][..k];
        k + 1
  }

  /** No value occurs twice. */
  predicate NoDup<T(==)>(s: seq<T>)
  {
    forall i, j :: 0 <= i < j < |s| ==> s[i] != s[j]
  }

  /** In a duplicate-free list, `indexOf` inverts indexing. */
  lemma IndexOfNoDup<T>(s: seq<T>, i: int)
    requires NoDup(s) && 0 <= i < |s|
    ensures IndexOf(s, s[i]) == i
  {
  }
}

=== FILE: palette.dfy ===
/** `Palette` from utils/palette/Palette.kt: a fixed list of possible states,
    addressed by position. */
module Palettes {
  import opened Wrappers
  import opened Lists

  datatype Palette<T> = Palette(possibleStates: seq<T>)

  /** The two exceptions a palette lookup can throw. */
  datatype PaletteError = NotInPalette | IndexOutOfRange(index: int)

  /** `getIndex`: the first position holding `v`; a value that is not a
      possible state throws. */
  function GetIndex<T(==)>(p: Palette<T>, v: T): (r: Result<int, PaletteError>)
    ensures r.Err? <==> v !in p.possibleStates
    ensures r.Err? ==> r.error == NotInPalette
    ensures r.Ok? ==> 0 <= r.value < |p.possibleStates| && p.possibleStates[r.value] == v
                      && forall i :: 0 <= i < r.value ==> p.possibleStates[i] != v
  {
    var index := IndexOf(p.possibleStates, v);
    if index == -1 then Err(NotInPalette)
    else
      assert forall i :: 0 <= i < index ==> p.possibleStates[..index][i] == p.possibleStates[i];
      Ok(index)
  }

  /** `fromIndex`: the state at `index`; Kotlin's list access throws outside
      the list. */
  function FromIndex<T>(p: Palette<T>, index: int): (r: Result<T, PaletteError>)
    ensures r.Ok? <==> 0 <= index < |p.possibleStates|
    ensures r.Ok? ==> r.value == p.possibleStates[index]
    ensures r.Err? ==> r.error == IndexOutOfRange(index)
  {
    if 0 <= index < |p.possibleStates| then Ok(p.possibleStates[index])
    else Err(IndexOutOfRange(index))
  }

  /** Looking a possible state up and reading its position back gives the state. */
  lemma FromIndexOfGetIndex<T>(p: Palette<T>, v: T)
    requires v in p.possibleStates
    ensures GetIndex(p, v).Ok?
    ensures FromIndex(p, GetIndex(p, v).value) == Ok(v)
  {
  }

  /** With no state listed twice, reading position i and looking the state
      up again gives i. */
  lemma GetIndexOfFromIndex<T>(p: Palette<T>, i: int)
    requires NoDup(p.possibleStates) && 0 <= i < |p.possibleStates|
    ensures FromIndex(p, i).Ok?
    ensures GetIndex(p, FromIndex(p, i).value) == Ok(i)
  {
    IndexOfNoDup(p.possibleStates, i);
  }

  /** Without that, a repeated state always reads back as its first position. */
  lemma DuplicateReadsBackFirst()
    ensures var p := Palette([7, 7]);
            FromIndex(p, 1) == Ok(7) && GetIndex(p, 7) == Ok(0)
  {
    assert [7, 7][0] == 7;
  }
}

=== FILE: positioning.dfy ===
/** Integer vectors, the six block facings and block positions (utils/Positioning.kt). */
module Positioning {
  import opened Wrappers

  datatype Vec3i = Vec3i(x: int, y: int, z: int)
  {
    /** `Vec3i.plus`. */
    function Plus(v: Vec3i): (r: Vec3i)
      ensures r.x - x == v.x && r.y - y == v.y && r.z - z == v.z
    {
      Vec3i(x + v.x, y + v.y, v.z + z)
    }
  }

  datatype Plane = Horizontal | Vertical

  datatype Axis = X | Y | Z
  {
    function Name(): string
    {
      match this
      case X => "x"
      case Y => "y"
      case Z => "z"
    }

    function Plane(): Plane
    {
      match this
      case X => Horizontal
      case Y => Vertical
      case Z => Horizontal
    }
  }

  datatype AxisDirection = Positive | Negative
  {
    function Dir(): int
    {
      match this
      case Positive => 1
      case Negative => -1
    }
  }

  /** `EnumFacing`, in declaration order. */
  datatype Facing = Down | Up | North | South | West | East
  {
    function Index(): int
    {
      match this
      case Down => 0
      case Up => 1
      case North => 2
      case South => 3
      case West => 4
      case East => 5
    }

    function Name(): string
    {
      match this
      case Down => "down"
      case Up => "up"
      case North => "north"
      case South => "south"
      case West => "west"
      case East => "east"
    }

    function AxisDirection(): AxisDirection
    {
      match this
      case Down => Negative
      case Up => Positive
      case North => Negative
      case South => Positive
      case West => Negative
      case East => Positive
    }

    function Axis(): Axis
    {
      match this
      case Down => Y
      case Up => Y
      case North => Z
      case South => Z
      case West => X
      case East => X
    }

    function Direction(): Vec3i
    {
      match this
      case Down => Vec3i(0, -1, 0)
      case Up => Vec3i(0, 1, 0)
      case North => Vec3i(0, 0, -1)
      case South => Vec3i(0, 0, 1)
      case West => Vec3i(-1, 0, 0)
      case East => Vec3i(1, 0, 0)
    }
  }

  /** `EnumFacing.values()`. */
  const Facings: seq<Facing> := [Down, Up, North, South, West, East]

  /** `EnumFacing.ofIndex`: `values().getOrNull(index)`. */
  function OfIndex(index: int): (r: Option<Facing>)
    ensures r.Some? <==> 0 <= index < 6
    ensures r.Some? ==> r.value.Index() == index
  {
    if 0 <= index < |Facings| then Some(Facings[index]) else None
  }

  /** The component of a vector along an axis. */
  function Component(v: Vec3i, a: Axis): int
  {
    match a
    case X => v.x
    case Y => v.y
    case Z => v.z
  }

  function Negate(v: Vec3i): Vec3i
  {
    Vec3i(-v.x, -v.y, -v.z)
  }

  /** `index` equals declaration order, and `ofIndex` inverts it. */
  lemma FacingIndexOrder()
    ensures forall i :: 0 <= i < 6 ==> Facings[i].Index() == i
    ensures forall f: Facing :: Facings[f.Index()] == f
    ensures forall f: Facing :: OfIndex(f.Index()) == Some(f)
  {
  }

  /** Each facing's unit direction has exactly one non-zero component: the one
      on the facing's axis, equal to the axis direction's sign. */
  lemma FacingDirectionIsUnit(f: Facing)
    ensures Component(f.Direction(), f.Axis()) == f.AxisDirection().Dir()
    ensures forall a: Axis :: a != f.Axis() ==> Component(f.Direction(), a) == 0
  {
  }

  /** Facings 0/1, 2/3 and 4/5 are opposite pairs: the even one points the
      negative way, and its successor shares its axis and negates its direction. */
  lemma FacingOppositePairs(lo: Facing)
    requires lo.Index() % 2 == 0
    ensures lo.AxisDirection() == Negative
    ensures Facings[lo.Index() + 1].AxisDirection() == Positive
    ensures Facings[lo.Index() + 1].Axis() == lo.Axis()
    ensures Facings[lo.Index() + 1].Direction() == Negate(lo.Direction())
  {
  }

  /** One step towards a facing changes only the component on its axis, by
      the axis direction's sign. */
  lemma StepAlongFacing(p: Vec3i, f: Facing, a: Axis)
    ensures Component(p.Plus(f.Direction()), a)
            == Component(p, a) + (if a == f.Axis() then f.AxisDirection().Dir() else 0)
  {
    FacingDirectionIsUnit(f);
  }

  /** Stepping towards a facing and then towards its opposite returns to the start. */
  lemma StepThereAndBack(p: Vec3i, lo: Facing)
    requires lo.Index() % 2 == 0
    ensures p.Plus(lo.Direction()).Plus(Facings[lo.Index() + 1].Direction()) == p
    ensures p.Plus(Facings[lo.Index() + 1].Direction()).Plus(lo.Direction()) == p
  {
    match lo
    case Down => assert Facings[1] == Up;
    case North => assert Facings[3] == South;
    case West => assert Facings[5] == East;
  }

  /** Y is the only vertical axis. */
  lemma OnlyYIsVertical(a: Axis)
    ensures a.Plane() == Vertical <==> a == Y
  {
  }

  /** A block position in world space, in blocks. */
  datatype BlockPos = BlockPos(x: int, y: int, z: int)

  /** The secondary constructor `BlockPos(vec3i)`. */
  function BlockPosOf(v: Vec3i): (r: BlockPos)
    ensures r.x == v.x && r.y == v.y && r.z == v.z
  {
    BlockPos(v.x, v.y, v.z)
  }
}

=== FILE: radix.dfy ===
/** Mixed-radix flattening of a three-dimensional box into a line: digit `a`
    is the most significant, `c` the least. Chunk storage, structure storage
    and the chunk-range enumeration all lay out cells this way. */
module Radix {
  import KotlinMath

  /** The flat index of (a, b, c) with radices (_, nb, nc). */
  function Flat3(a: int, b: int, c: int, nb: int, nc: int): int
  {
    (a * nb + b) * nc + c
  }

  /** The most significant digit of i. */
  function Hi(i: int, nb: int, nc: int): int
    requires nb > 0 && nc > 0
  {
    (i / nc) / nb
  }

  /** The middle digit of i. */
  function Mid(i: int, nb: int, nc: int): int
    requires nb > 0 && nc > 0
  {
    (i / nc) % nb
  }

  /** The least significant digit of i. */
  function Lo(i: int, nc: int): int
    requires nc > 0
  {
    i % nc
  }

  predicate InBox(a: int, b: int, c: int, na: int, nb: int, nc: int)
  {
    0 <= a < na && 0 <= b < nb && 0 <= c < nc
  }

  /** Division by a positive divisor is unique: q·n + r with 0 ≤ r < n splits back into q and r. */
  lemma DivModUnique(q: int, r: int, n: int)
    requires n > 0 && 0 <= r < n
    ensures (q * n + r) / n == q
    ensures (q * n + r) % n == r
  {
    var i := q * n + r;
    var q' := i / n;
    var r' := i % n;
    assert (q - q') * n == r' - r;
    if q > q' {
      KotlinMath.MulLeq(1, q - q', n);
    } else if q < q' {
      KotlinMath.MulLeq(1, q' - q, n);
    }
  }

  /** Every box cell lands inside [0, na·nb·nc). */
  lemma Flat3Bounds(a: int, b: int, c: int, na: int, nb: int, nc: int)
    requires InBox(a, b, c, na, nb, nc)
    ensures 0 <= Flat3(a, b, c, nb, nc) < na * nb * nc
  {
    var ab := a * nb + b;
    assert 0 <= ab < na * nb by {
      KotlinMath.MulLeq(a, na - 1, nb);
      assert (na - 1) * nb == na * nb - nb;
    }
    KotlinMath.MulLeq(ab, na * nb - 1, nc);
    assert (na * nb - 1) * nc == na * nb * nc - nc;
    assert 0 <= ab * nc;
  }

  /** Decoding a flattened box cell gives the cell back. */
  lemma Flat3Decode(a: int, b: int, c: int, na: int, nb: int, nc: int)
    requires InBox(a, b, c, na, nb, nc)
    ensures Hi(Flat3(a, b, c, nb, nc), nb, nc) == a
    ensures Mid(Flat3(a, b, c, nb, nc), nb, nc) == b
    ensures Lo(Flat3(a, b, c, nb, nc), nc) == c
  {
    DivModUnique(a * nb + b, c, nc);
    DivModUnique(a, b, nb);
  }

  /** The flattening is one-to-one on the box. */
  lemma Flat3Injective(a: int, b: int, c: int, a': int, b': int, c': int, na: int, nb: int, nc: int)
    requires InBox(a, b, c, na, nb, nc) && InBox(a', b', c', na, nb, nc)
    requires Flat3(a, b, c, nb, nc) == Flat3(a', b', c', nb, nc)
    ensures a == a' && b == b' && c == c'
  {
    Flat3Decode(a, b, c, na, nb, nc);
    Flat3Decode(a', b', c', na, nb, nc);
  }

  /** A quotient of something below m·n by n is below m. */
  lemma QuotientBelow(i: int, m: int, n: int)
    requires n > 0 && 0 <= i < m * n
    ensures 0 <= i / n < m
  {
    if i / n >= m {
      KotlinMath.MulLeq(m, i / n, n);
    }
  }

  /** The flattening is onto [0, na·nb·nc): every index is the image of its digits. */
  lemma Flat3Encode(i: int, na: int, nb: int, nc: int)
    requires na > 0 && nb > 0 && nc > 0 && 0 <= i < na * nb * nc
    ensures InBox(Hi(i, nb, nc), Mid(i, nb, nc), Lo(i, nc), na, nb, nc)
    ensures Flat3(Hi(i, nb, nc), Mid(i, nb, nc), Lo(i, nc), nb, nc) == i
  {
    var q := i / nc;
    QuotientBelow(i, na * nb, nc);
    QuotientBelow(q, na, nb);
    assert q == (q / nb) * nb + q % nb;
    assert i == q * nc + i % nc;
  }
}

=== FILE: rendering.dfy ===
/** The face-culling mesher `StupidMesher.build` and the model bakery
    (rendering/WorldRendering.kt), with `World.worldScale = 1` so that every
    cube corner is an integer point. */
module Meshing {
  import opened Wrappers
  import opened Positioning
  import opened Lists
  import opened Blocks

  /** Sceneform's unit vectors (`Vector3.up()` and so on); forward is -z. */
  const SceneUp: Vec3i := Vec3i(0, 1, 0)
  const SceneDown: Vec3i := Vec3i(0, -1, 0)
  const SceneForward: Vec3i := Vec3i(0, 0, -1)
  const SceneBack: Vec3i := Vec3i(0, 0, 1)
  const SceneLeft: Vec3i := Vec3i(-1, 0, 0)
  const SceneRight: Vec3i := Vec3i(1, 0, 0)

  /** The four texture coordinates a quad uses. */
  datatype Uv = Uv00 | Uv10 | Uv01 | Uv11

  /** A mesh vertex; two vertices are the same exactly when all three parts agree. */
  datatype Vertex = Vertex(position: Vec3i, normal: Vec3i, uv: Uv)

  /** Corner k of the unit cube of local cell (x, y, z): corners 0..3 lie on
      the bottom face, 4..7 above them in the same order. */
  function Corner(k: int, x: int, y: int, z: int): Vec3i
    requires 0 <= k < 8
  {
    match k
    case 0 => Vec3i(x, y, z + 1)
    case 1 => Vec3i(x + 1, y, z + 1)
    case 2 => Vec3i(x + 1, y, z)
    case 3 => Vec3i(x, y, z)
    case 4 => Vec3i(x, y + 1, z + 1)
    case 5 => Vec3i(x + 1, y + 1, z + 1)
    case 6 => Vec3i(x + 1, y + 1, z)
    case _ => Vec3i(x, y + 1, z)
  }

  /** Whether p is a corner point of the unit cube of cell (x, y, z). */
  predicate InCube(p: Vec3i, x: int, y: int, z: int)
  {
    x <= p.x <= x + 1 && y <= p.y <= y + 1 && z <= p.z <= z + 1
  }

  /** The eight corners are eight distinct points of the cell's cube, and
      every point of the cube is one of them. */
  lemma CornersSpanCube(x: int, y: int, z: int)
    ensures forall k :: 0 <= k < 8 ==> InCube(Corner(k, x, y, z), x, y, z)
    ensures forall k, k' :: 0 <= k < k' < 8 ==> Corner(k, x, y, z) != Corner(k', x, y, z)
    ensures forall p :: InCube(p, x, y, z) ==> exists k :: 0 <= k < 8 && Corner(k, x, y, z) == p
  {
    forall p | InCube(p, x, y, z)
      ensures exists k :: 0 <= k < 8 && Corner(k, x, y, z) == p
    {
      var k := if p.y == y then (if p.z == z + 1 then (if p.x == x then 0 else 1) else (if p.x == x + 1 then 2 else 3))
               else (if p.z == z + 1 then (if p.x == x then 4 else 5) else (if p.x == x + 1 then 6 else 7));
      assert Corner(k, x, y, z) == p;
    }
  }

  /** The corners of each side's quad, in the order of the vertex list
      (side numbering as `EnumFacing.index`). */
  function QuadCorners(side: int): (r: seq<int>)
    requires 0 <= side < 6
    ensures |r| == 4 && forall i :: 0 <= i < 4 ==> 0 <= r[i] < 8
  {
    [[0, 1, 2, 3], [7, 6, 5, 4], [6, 7, 3, 2], [4, 5, 1, 0], [7, 4, 0, 3], [5, 6, 2, 1]][side]
  }

  /** The texture coordinates of a quad's four vertices, in list order. */
  const QuadUvs: seq<Uv> := [Uv01, Uv11, Uv10, Uv00]

  /** The normal the source gives each side's vertices: north gets `back()`
      and south gets `forward()`. */
  function WrittenNormal(side: int): Vec3i
    requires 0 <= side < 6
  {
    [SceneDown, SceneUp, SceneBack, SceneForward, SceneLeft, SceneRight][side]
  }

  /** The normal each side's vertices should carry: the side's facing direction. */
  function SideNormal(side: int): Vec3i
    requires 0 <= side < 6
  {
    Facings[side].Direction()
  }

  /** The 24-vertex list of one cell, four per side, with a per-side normal. */
  function CellVertices(x: int, y: int, z: int, normal: int --> Vec3i): (r: seq<Vertex>)
    requires forall side :: 0 <= side < 6 ==> normal.requires(side)
    ensures |r| == 24
  {
    seq(24, i requires 0 <= i < 24 =>
      Vertex(Corner(QuadCorners(i / 4)[i % 4], x, y, z), normal(i / 4), QuadUvs[i % 4]))
  }

  /** The vertex list as written, with the source's normals. */
  function WrittenVertices(x: int, y: int, z: int): (r: seq<Vertex>)
    ensures |r| == 24
  {
    CellVertices(x, y, z, WrittenNormal)
  }

  /** The vertex list with every normal pointing out of its face; the mesher
      below uses this one. */
  function Vertices(x: int, y: int, z: int): (r: seq<Vertex>)
    ensures |r| == 24
  {
    CellVertices(x, y, z, SideNormal)
  }

  /** Which normals a mesh's vertices carry: the source's, or the outward ones. */
  datatype NormalTable = AsWritten | Outward
  {
    function Normal(side: int): Vec3i
      requires 0 <= side < 6
    {
      match this
      case AsWritten => WrittenNormal(side)
      case Outward => SideNormal(side)
    }
  }

  /** The cell's vertex list under a normal table. */
  function TableVertices(t: NormalTable, x: int, y: int, z: int): (r: seq<Vertex>)
    ensures |r| == 24
  {
    match t
    case AsWritten => WrittenVertices(x, y, z)
    case Outward => Vertices(x, y, z)
  }

  /** Entry 4 * side + i of a vertex list is corner i of the side's quad. */
  lemma VertexAt(x: int, y: int, z: int, normal: int --> Vec3i, side: int, i: int)
    requires forall s :: 0 <= s < 6 ==> normal.requires(s)
    requires 0 <= side < 6 && 0 <= i < 4
    ensures CellVertices(x, y, z, normal)[4 * side + i]
            == Vertex(Corner(QuadCorners(side)[i], x, y, z), normal(side), QuadUvs[i])
  {
    assert (4 * side + i) / 4 == side && (4 * side + i) % 4 == i;
  }

  /** Each corner of a side's quad lies on the cube's face towards that side. */
  lemma QuadCornerOnFace(x: int, y: int, z: int, side: int, i: int)
    requires 0 <= side < 6 && 0 <= i < 4
    ensures var p := Corner(QuadCorners(side)[i], x, y, z);
            var d := Facings[side].Direction();
            (d.x == 1 ==> p.x == x + 1) && (d.x == -1 ==> p.x == x)
            && (d.y == 1 ==> p.y == y + 1) && (d.y == -1 ==> p.y == y)
            && (d.z == 1 ==> p.z == z + 1) && (d.z == -1 ==> p.z == z)
  {
    if side == 0 {
    } else if side == 1 {
    } else if side == 2 {
    } else if side == 3 {
    } else if side == 4 {
    } else {
    }
  }

  /** The four vertices of a side lie on the cube's face towards that side,
      carry that side's outward normal, and take the quad's texture corners. */
  lemma QuadLiesOnItsFace(x: int, y: int, z: int, side: int, i: int)
    requires 0 <= side < 6 && 0 <= i < 4
    ensures var v := Vertices(x, y, z)[4 * side + i];
            var d := Facings[side].Direction();
            v.normal == d && v.uv == QuadUvs[i]
            && (d.x == 1 ==> v.position.x == x + 1) && (d.x == -1 ==> v.position.x == x)
            && (d.y == 1 ==> v.position.y == y + 1) && (d.y == -1 ==> v.position.y == y)
            && (d.z == 1 ==> v.position.z == z + 1) && (d.z == -1 ==> v.position.z == z)
  {
    VertexAt(x, y, z, SideNormal, side, i);
    QuadCornerOnFace(x, y, z, side, i);
  }

  /** The six list positions a side's two triangles use: (3, 1, 0) and (3, 2, 1)
      within the side's block of four. */
  function SideIndices(side: int): (r: seq<int>)
    requires 0 <= side < 6
    ensures |r| == 6 && forall t :: 0 <= t < 6 ==> 4 * side <= r[t] < 4 * side + 4
  {
    [3 + 4 * side, 1 + 4 * side, 0 + 4 * side, 3 + 4 * side, 2 + 4 * side, 1 + 4 * side]
  }

  /** As written, the north and south quads carry the normal of the opposite
      side, pointing into the cube, while the other four sides carry their
      outward direction; positions and texture corners are those of the
      corrected list. */
  lemma WrittenNormalsFlipNorthSouth(x: int, y: int, z: int, side: int, i: int)
    requires 0 <= side < 6 && 0 <= i < 4
    ensures var n := WrittenVertices(x, y, z)[4 * side + i].normal;
            var d := Facings[side].Direction();
            (side == 2 || side == 3 ==> n == Negate(d)) && (side != 2 && side != 3 ==> n == d)
    ensures WrittenVertices(x, y, z)[4 * side + i].position == Vertices(x, y, z)[4 * side + i].position
    ensures WrittenVertices(x, y, z)[4 * side + i].uv == Vertices(x, y, z)[4 * side + i].uv
  {
    VertexAt(x, y, z, WrittenNormal, side, i);
    VertexAt(x, y, z, SideNormal, side, i);
    WrittenNormalAgainstFacing(side);
  }

  /** The vertical sides' normals as written, against their facings. */
  lemma NormalsDownUp()
    ensures WrittenNormal(0) == SideNormal(0) && WrittenNormal(1) == SideNormal(1)
  {
  }

  /** The north and south normals as written, against their facings. */
  lemma NormalsNorthSouth()
    ensures WrittenNormal(2) == Negate(SideNormal(2)) && WrittenNormal(3) == Negate(SideNormal(3))
  {
  }

  /** The west and east normals as written, against their facings. */
  lemma NormalsWestEast()
    ensures WrittenNormal(4) == SideNormal(4) && WrittenNormal(5) == SideNormal(5)
  {
  }

  /** Side by side, the source's normal against the facing direction. */
  lemma WrittenNormalAgainstFacing(side: int)
    requires 0 <= side < 6
    ensures side == 2 || side == 3 ==> WrittenNormal(side) == Negate(SideNormal(side))
    ensures side != 2 && side != 3 ==> WrittenNormal(side) == SideNormal(side)
  {
    if side < 2 { NormalsDownUp(); } else if side < 4 { NormalsNorthSouth(); } else { NormalsWestEast(); }
  }

  /** The north quad of the cell at the origin lies on the plane z = 0 and
      faces -z, yet the source gives its vertices the normal +z. */
  lemma NorthNormalPointsInward()
    ensures WrittenVertices(0, 0, 0)[8].position.z == 0
    ensures Facings[2].Direction() == Vec3i(0, 0, -1)
    ensures WrittenVertices(0, 0, 0)[8].normal == Vec3i(0, 0, 1)
  {
    VertexAt(0, 0, 0, WrittenNormal, 2, 0);
  }

  /** The vertex-list deduplication step: the index of the first equal vertex,
      appending the vertex when there is none. */
  function FindOrAppend(vs: seq<Vertex>, v: Vertex): (r: (seq<Vertex>, int))
    ensures (v in vs ==> r.0 == vs) && (v !in vs ==> r.0 == vs + [v])
    ensures r.1 == IndexOf(r.0, v) && 0 <= r.1 < |r.0| && r.0[r.1] == v
    ensures NoDup(vs) ==> NoDup(r.0)
  {
    var k := IndexOf(vs, v);
    if k == -1 then
      var ws := vs + [v];
      assert ws[..|vs|] == vs;
      (ws, |vs|)
    else
      (vs, k)
  }

  /** `vs` is a prefix of `ws`. */
  predicate Extends(vs: seq<Vertex>, ws: seq<Vertex>)
  {
    |vs| <= |ws| && ws[..|vs|] == vs
  }

  /** Extending a list does not move the first occurrence of a value it
      already holds. */
  lemma IndexOfStable(vs: seq<Vertex>, ws: seq<Vertex>, v: Vertex)
    requires Extends(vs, ws) && v in vs
    ensures IndexOf(ws, v) == IndexOf(vs, v)
  {
    var i := IndexOf(vs, v);
    var j := IndexOf(ws, v);
    assert forall k :: 0 <= k < |vs| ==> ws[k] == vs[k] by {
      forall k | 0 <= k < |vs| ensures ws[k] == vs[k] {
        assert ws[..|vs|][k] == ws[k];
      }
    }
    assert forall k :: 0 <= k < i ==> vs[k] != v by {
      forall k | 0 <= k < i ensures vs[k] != v {
        assert vs[..i][k] == vs[k];
      }
    }
    assert forall k :: 0 <= k < j ==> ws[k] != v by {
      forall k | 0 <= k < j ensures ws[k] != v {
        assert ws[..j][k] == ws[k];
      }
    }
  }

  /** The six triangle indices of one side: each target vertex looked up, or
      appended, in order. */
  function EmitIndices(vs: seq<Vertex>, targets: seq<Vertex>): (r: (seq<Vertex>, seq<int>))
    decreases |targets|
    ensures Extends(vs, r.0) && |r.1| == |targets|
    ensures forall i :: |vs| <= i < |r.0| ==> r.0[i] in targets
    ensures forall t :: 0 <= t < |targets| ==> targets[t] in r.0 && r.1[t] == IndexOf(r.0, targets[t])
    ensures NoDup(vs) ==> NoDup(r.0)
  {
    if |targets| == 0 then (vs, [])
    else
      var (vs1, k) := FindOrAppend(vs, targets[0]);
      var (vs2, ks) := EmitIndices(vs1, targets[1..]);
      EmitStep(vs, targets, vs1, k, vs2, ks);
      (vs2, [k] + ks)
  }

  /** One step of `EmitIndices`: the first target's index survives the later appends. */
  lemma EmitStep(vs: seq<Vertex>, targets: seq<Vertex>, vs1: seq<Vertex>, k: int, vs2: seq<Vertex>, ks: seq<int>)
    requires |targets| > 0 && (vs1, k) == FindOrAppend(vs, targets[0])
    requires Extends(vs1, vs2) && |ks| == |targets| - 1
    requires forall i :: |vs1| <= i < |vs2| ==> vs2[i] in targets[1..]
    requires forall t :: 0 <= t < |targets[1..]| ==> targets[1..][t] in vs2 && ks[t] == IndexOf(vs2, targets[1..][t])
    ensures Extends(vs, vs2)
    ensures forall i :: |vs| <= i < |vs2| ==> vs2[i] in targets
    ensures forall t :: 0 <= t < |targets| ==> targets[t] in vs2 && ([k] + ks)[t] == IndexOf(vs2, targets[t])
  {
    assert vs2[..|vs|] == vs2[..|vs1|][..|vs|];
    EmitStepIndices(vs, targets, vs1, k, vs2, ks);
    EmitStepAppended(vs, targets, vs1, k, vs2);
  }

  /** The first target keeps its index; the later ones had theirs computed in `vs2`. */
  lemma EmitStepIndices(vs: seq<Vertex>, targets: seq<Vertex>, vs1: seq<Vertex>, k: int, vs2: seq<Vertex>, ks: seq<int>)
    requires |targets| > 0 && (vs1, k) == FindOrAppend(vs, targets[0])
    requires Extends(vs1, vs2) && |ks| == |targets| - 1
    requires forall t :: 0 <= t < |targets[1..]| ==> targets[1..][t] in vs2 && ks[t] == IndexOf(vs2, targets[1..][t])
    ensures forall t :: 0 <= t < |targets| ==> targets[t] in vs2 && ([k] + ks)[t] == IndexOf(vs2, targets[t])
  {
    IndexOfStable(vs1, vs2, targets[0]);
    forall t | 0 <= t < |targets|
      ensures targets[t] in vs2 && ([k] + ks)[t] == IndexOf(vs2, targets[t])
    {
      if t == 0 {
        assert vs2[k] == vs2[..|vs1|][k];
      } else {
        assert targets[t] == targets[1..][t - 1];
        assert ([k] + ks)[t] == ks[t - 1];
      }
    }
  }

  /** Every vertex appended along the way is one of the targets. */
  lemma EmitStepAppended(vs: seq<Vertex>, targets: seq<Vertex>, vs1: seq<Vertex>, k: int, vs2: seq<Vertex>)
    requires |targets| > 0 && (vs1, k) == FindOrAppend(vs, targets[0])
    requires Extends(vs1, vs2)
    requires forall i :: |vs1| <= i < |vs2| ==> vs2[i] in targets[1..]
    ensures forall i :: |vs| <= i < |vs2| ==> vs2[i] in targets
  {
    forall i | |vs| <= i < |vs2|
      ensures vs2[i] in targets
    {
      if i < |vs1| {
        assert vs1[i] == targets[0];
        assert vs2[i] == vs2[..|vs1|][i];
      } else {
        var w := vs2[i];
        assert w in targets[1..];
        var t :| 0 <= t < |targets[1..]| && targets[1..][t] == w;
        assert targets[t + 1] == w;
      }
    }
  }

  /** The vertices a side's triangles refer to, in index order. */
  function SideTargets(t: NormalTable, x: int, y: int, z: int, side: int): (r: seq<Vertex>)
    requires 0 <= side < 6
    ensures |r| == 6 && r[0] == r[3] && r[1] == r[5]
    ensures forall i :: 0 <= i < 6 ==> r[i] == TableVertices(t, x, y, z)[SideIndices(side)[i]]
  {
    var vs := TableVertices(t, x, y, z);
    var ix := SideIndices(side);
    [vs[ix[0]], vs[ix[1]], vs[ix[2]], vs[ix[3]], vs[ix[4]], vs[ix[5]]]
  }

  /** `indices` are the triangle indices of `side` into `vs`: each points at
      the first copy of the vertex it stands for. */
  predicate QuadIndices(t: NormalTable, vs: seq<Vertex>, indices: seq<int>, x: int, y: int, z: int, side: int)
    requires 0 <= side < 6
  {
    |indices| == 6
    && forall i :: 0 <= i < 6 ==>
         SideTargets(t, x, y, z, side)[i] in vs && indices[i] == IndexOf(vs, SideTargets(t, x, y, z, side)[i])
  }

  /** A side's two triangles share their diagonal: positions 0 and 3 name the
      same vertex, and so do 1 and 5; and each index points at its vertex. */
  lemma QuadIndicesShareDiagonal(t: NormalTable, vs: seq<Vertex>, indices: seq<int>, x: int, y: int, z: int, side: int)
    requires 0 <= side < 6 && QuadIndices(t, vs, indices, x, y, z, side)
    ensures indices[0] == indices[3] && indices[1] == indices[5]
    ensures forall i :: 0 <= i < 6 ==> 0 <= indices[i] < |vs| && vs[indices[i]] == SideTargets(t, x, y, z, side)[i]
  {
  }

  /** A loaded material. */
  datatype Material = Material(id: nat)

  /** One submesh: a material drawn over the triangles `indices`. */
  datatype Submesh = Submesh(material: Material, indices: seq<int>)

  /** A call of the block's `onSubmeshCreation` hook. */
  datatype ProcessorCall = ProcessorCall(x: int, y: int, z: int, side: int, layer: int, material: Material)

  /** The build fails on the first exposed side whose layer `layer` has no material yet. */
  datatype MeshError = MaterialNotLoaded(side: int, layer: int)

  /** The submeshes of one cell, the hook calls made, and the shared vertex list after it. */
  datatype CellMesh = CellMesh(vertices: seq<Vertex>, meshes: seq<Submesh>, calls: seq<ProcessorCall>)

  /** The materials of a model: per side, one slot per texture layer, filled
      once the layer's texture has loaded. */
  type Materials = seq<seq<Option<Material>>>

  /** Where the cell sits: its chunk's origin in world coordinates and its
      local coordinates. */
  datatype CellAt = CellAt(origin: Vec3i, x: int, y: int, z: int)
  {
    /** The world coordinates of the cell. */
    function World(): Vec3i
    {
      Vec3i(origin.x + x, origin.y + y, origin.z + z)
    }
  }

  /** Whether the face of the cell towards `side` is drawn, according to the
      world's exposure rule `exposed`. */
  predicate Shows(exposed: (int, int, int, Facing) -> bool, c: CellAt, side: int)
    requires 0 <= side < 6
  {
    var p := c.World();
    exposed(p.x, p.y, p.z, Facings[side])
  }

  /** The (side, layer) pairs that get a submesh, for sides from `side` on:
      every layer of every shown side, sides in index order. */
  function Emitted(exposed: (int, int, int, Facing) -> bool, c: CellAt, materials: Materials, side: int): (r: seq<(int, int)>)
    requires |materials| == 6 && 0 <= side <= 6
    decreases 6 - side
  {
    if side == 6 then []
    else
      (if Shows(exposed, c, side) then seq(|materials[side]|, j => (side, j)) else [])
      + Emitted(exposed, c, materials, side + 1)
  }

  /** The build succeeds exactly when this holds: every layer of every shown
      side from `side` on has its material. */
  predicate AllLoaded(exposed: (int, int, int, Facing) -> bool, c: CellAt, materials: Materials, side: int)
    requires |materials| == 6 && 0 <= side <= 6
  {
    forall s, j :: side <= s < 6 && Shows(exposed, c, s) && 0 <= j < |materials[s]| ==> materials[s][j].Some?
  }

  /** The submeshes and hook calls of one shown side, layers from `j` on. */
  function LayerMeshes(layers: seq<Option<Material>>, c: CellAt, side: int, indices: seq<int>, j: nat)
    : (r: Result<(seq<Submesh>, seq<ProcessorCall>), MeshError>)
    requires j <= |layers|
    decreases |layers| - j
    ensures r.Ok? <==> forall i :: j <= i < |layers| ==> layers[i].Some?
    ensures r.Ok? ==> |r.value.0| == |layers| - j && |r.value.1| == |layers| - j
    ensures r.Ok? ==> forall i :: 0 <= i < |layers| - j ==>
              layers[j + i].Some?
              && r.value.0[i] == Submesh(layers[j + i].value, indices)
              && r.value.1[i] == ProcessorCall(c.x, c.y, c.z, side, j + i, layers[j + i].value)
    ensures r.Err? ==> j <= r.error.layer < |layers| && r.error.side == side && layers[r.error.layer].None?
                       && forall i :: j <= i < r.error.layer ==> layers[i].Some?
  {
    if j == |layers| then Ok(([], []))
    else if layers[j].None? then Err(MaterialNotLoaded(side, j))
    else
      var m := layers[j].value;
      var rest :- LayerMeshes(layers, c, side, indices, j + 1);
      Ok(([Submesh(m, indices)] + rest.0, [ProcessorCall(c.x, c.y, c.z, side, j, m)] + rest.1))
  }

  /** Submesh `mesh` and hook call `call` are the ones layer j of side s yields. */
  ghost predicate MeshEntry(t: NormalTable, c: CellAt, materials: Materials, vertices: seq<Vertex>,
                            mesh: Submesh, call: ProcessorCall, s: int, j: int)
    requires |materials| == 6
  {
    0 <= s < 6 && 0 <= j < |materials[s]| && materials[s][j].Some?
    && mesh.material == materials[s][j].value
    && call == ProcessorCall(c.x, c.y, c.z, s, j, materials[s][j].value)
    && QuadIndices(t, vertices, mesh.indices, c.x, c.y, c.z, s)
  }

  /** What a successful build from `side` on promises about its result. */
  ghost predicate BuiltCorrectly(t: NormalTable, exposed: (int, int, int, Facing) -> bool, c: CellAt, materials: Materials,
                                 side: int, vs: seq<Vertex>, m: CellMesh)
    requires |materials| == 6 && 0 <= side <= 6
  {
    var pairs := Emitted(exposed, c, materials, side);
    Extends(vs, m.vertices)
    && (NoDup(vs) ==> NoDup(m.vertices))
    && |m.meshes| == |pairs| && |m.calls| == |pairs|
    && forall k :: 0 <= k < |pairs| ==>
         side <= pairs[k].0 && MeshEntry(t, c, materials, m.vertices, m.meshes[k], m.calls[k], pairs[k].0, pairs[k].1)
  }

  /** The build from `side` on succeeds when the side's own layers (if it
      shows) and those of the later sides are all loaded. */
  lemma AllLoadedStep(exposed: (int, int, int, Facing) -> bool, c: CellAt, materials: Materials, side: int)
    requires |materials| == 6 && 0 <= side < 6
    ensures AllLoaded(exposed, c, materials, side)
            <==> (Shows(exposed, c, side) ==> forall j :: 0 <= j < |materials[side]| ==> materials[side][j].Some?)
                 && AllLoaded(exposed, c, materials, side + 1)
  {
  }

  /** The per-side loop of `build`, from `side` on, extending the chunk's
      vertex list `vs`. */
  function BuildFrom(t: NormalTable, exposed: (int, int, int, Facing) -> bool, c: CellAt, materials: Materials,
                     side: int, vs: seq<Vertex>): (r: Result<CellMesh, MeshError>)
    requires |materials| == 6 && 0 <= side <= 6
    decreases 6 - side
    ensures r.Ok? <==> AllLoaded(exposed, c, materials, side)
    ensures r.Ok? ==> BuiltCorrectly(t, exposed, c, materials, side, vs, r.value)
    ensures r.Err? ==> side <= r.error.side < 6 && Shows(exposed, c, r.error.side)
                       && 0 <= r.error.layer < |materials[r.error.side]|
                       && materials[r.error.side][r.error.layer].None?
  {
    if side == 6 then Ok(CellMesh(vs, [], []))
    else if !Shows(exposed, c, side) then
      AllLoadedStep(exposed, c, materials, side);
      assert Emitted(exposed, c, materials, side) == Emitted(exposed, c, materials, side + 1);
      BuildFrom(t, exposed, c, materials, side + 1, vs)
    else
      AllLoadedStep(exposed, c, materials, side);
      var (vs1, indices) := EmitIndices(vs, SideTargets(t, c.x, c.y, c.z, side));
      var here :- LayerMeshes(materials[side], c, side, indices, 0);
      var rest :- BuildFrom(t, exposed, c, materials, side + 1, vs1);
      SideThenRest(t, exposed, c, materials, side, vs, vs1, indices, here, rest);
      Ok(CellMesh(rest.vertices, here.0 + rest.meshes, here.1 + rest.calls))
  }

  /** Gluing the submeshes of one shown side in front of those of the later sides. */
  lemma SideThenRest(t: NormalTable, exposed: (int, int, int, Facing) -> bool, c: CellAt, materials: Materials,
                     side: int, vs: seq<Vertex>, vs1: seq<Vertex>, indices: seq<int>,
                     here: (seq<Submesh>, seq<ProcessorCall>), rest: CellMesh)
    requires |materials| == 6 && 0 <= side < 6 && Shows(exposed, c, side)
    requires (vs1, indices) == EmitIndices(vs, SideTargets(t, c.x, c.y, c.z, side))
    requires LayerMeshes(materials[side], c, side, indices, 0) == Ok(here)
    requires BuiltCorrectly(t, exposed, c, materials, side + 1, vs1, rest)
    ensures BuiltCorrectly(t, exposed, c, materials, side, vs,
                           CellMesh(rest.vertices, here.0 + rest.meshes, here.1 + rest.calls))
  {
    assert Extends(vs, vs1) && (NoDup(vs) ==> NoDup(vs1));
    assert Extends(vs1, rest.vertices) && (NoDup(vs1) ==> NoDup(rest.vertices));
    ExtendsTransitive(vs, vs1, rest.vertices);
    QuadIndicesKept(t, vs1, rest.vertices, indices, c.x, c.y, c.z, side);
    GlueEntries(t, exposed, c, materials, side, indices, here, rest);
  }

  /** A prefix of a prefix is a prefix. */
  lemma ExtendsTransitive(us: seq<Vertex>, vs: seq<Vertex>, ws: seq<Vertex>)
    requires Extends(us, vs) && Extends(vs, ws)
    ensures Extends(us, ws)
  {
    assert ws[..|us|] == ws[..|vs|][..|us|];
  }

  /** A side's indices stay right while later sides append vertices. */
  lemma QuadIndicesKept(t: NormalTable, vs: seq<Vertex>, ws: seq<Vertex>, indices: seq<int>, x: int, y: int, z: int, side: int)
    requires 0 <= side < 6 && Extends(vs, ws) && QuadIndices(t, vs, indices, x, y, z, side)
    ensures QuadIndices(t, ws, indices, x, y, z, side)
  {
    var targets := SideTargets(t, x, y, z, side);
    forall i | 0 <= i < 6
      ensures targets[i] in ws && indices[i] == IndexOf(ws, targets[i])
    {
      IndexOfStable(vs, ws, targets[i]);
    }
  }

  /** The entries of a shown side followed by those of the later sides are
      the entries promised from this side on. */
  lemma GlueEntries(t: NormalTable, exposed: (int, int, int, Facing) -> bool, c: CellAt, materials: Materials,
                    side: int, indices: seq<int>, here: (seq<Submesh>, seq<ProcessorCall>), rest: CellMesh)
    requires |materials| == 6 && 0 <= side < 6 && Shows(exposed, c, side)
    requires LayerMeshes(materials[side], c, side, indices, 0) == Ok(here)
    requires QuadIndices(t, rest.vertices, indices, c.x, c.y, c.z, side)
    requires var tail := Emitted(exposed, c, materials, side + 1);
             |rest.meshes| == |tail| && |rest.calls| == |tail|
             && forall k :: 0 <= k < |tail| ==>
                  side + 1 <= tail[k].0 && MeshEntry(t, c, materials, rest.vertices, rest.meshes[k], rest.calls[k], tail[k].0, tail[k].1)
    ensures var pairs := Emitted(exposed, c, materials, side);
            var m := CellMesh(rest.vertices, here.0 + rest.meshes, here.1 + rest.calls);
            |m.meshes| == |pairs| && |m.calls| == |pairs|
            && forall k :: 0 <= k < |pairs| ==>
                 side <= pairs[k].0 && MeshEntry(t, c, materials, m.vertices, m.meshes[k], m.calls[k], pairs[k].0, pairs[k].1)
  {
    var head := seq(|materials[side]|, j => (side, j));
    var tail := Emitted(exposed, c, materials, side + 1);
    var pairs := Emitted(exposed, c, materials, side);
    var m := CellMesh(rest.vertices, here.0 + rest.meshes, here.1 + rest.calls);
    EmittedShownSide(exposed, c, materials, side);
    assert |here.0| == |head| && |here.1| == |head|;
    forall k | 0 <= k < |pairs|
      ensures side <= pairs[k].0 && MeshEntry(t, c, materials, m.vertices, m.meshes[k], m.calls[k], pairs[k].0, pairs[k].1)
    {
      if k < |head| {
        HeadEntry(t, c, materials, side, indices, here, rest, head, tail, k);
      } else {
        var i := k - |head|;
        assert side + 1 <= tail[i].0 && MeshEntry(t, c, materials, rest.vertices, rest.meshes[i], rest.calls[i], tail[i].0, tail[i].1);
        TailEntry(t, c, materials, here, rest, tail, i);
        assert (head + tail)[k] == tail[i];
      }
    }
  }

  /** A shown side emits its layers in order, ahead of the later sides. */
  lemma EmittedShownSide(exposed: (int, int, int, Facing) -> bool, c: CellAt, materials: Materials, side: int)
    requires |materials| == 6 && 0 <= side < 6 && Shows(exposed, c, side)
    ensures Emitted(exposed, c, materials, side)
            == seq(|materials[side]|, j => (side, j)) + Emitted(exposed, c, materials, side + 1)
  {
  }

  /** Entry k of a shown side's own submeshes, read in the glued result. */
  lemma HeadEntry(t: NormalTable, c: CellAt, materials: Materials, side: int, indices: seq<int>,
                  here: (seq<Submesh>, seq<ProcessorCall>), rest: CellMesh, head: seq<(int, int)>, tail: seq<(int, int)>, k: int)
    requires |materials| == 6 && 0 <= side < 6
    requires LayerMeshes(materials[side], c, side, indices, 0) == Ok(here)
    requires QuadIndices(t, rest.vertices, indices, c.x, c.y, c.z, side)
    requires head == seq(|materials[side]|, j => (side, j)) && 0 <= k < |head|
    ensures (head + tail)[k] == (side, k)
    ensures k < |here.0| && k < |here.1|
    ensures MeshEntry(t, c, materials, rest.vertices, (here.0 + rest.meshes)[k], (here.1 + rest.calls)[k], side, k)
  {
    HereEntry(t, c, materials, side, indices, here, rest.vertices, k);
  }

  /** Entry i of the later sides' submeshes is entry |here| + i of the glued ones. */
  lemma TailEntry(t: NormalTable, c: CellAt, materials: Materials,
                  here: (seq<Submesh>, seq<ProcessorCall>), rest: CellMesh, tail: seq<(int, int)>, i: int)
    requires |materials| == 6 && |here.0| == |here.1| && 0 <= i < |tail|
    requires |rest.meshes| == |tail| && |rest.calls| == |tail|
    requires MeshEntry(t, c, materials, rest.vertices, rest.meshes[i], rest.calls[i], tail[i].0, tail[i].1)
    ensures var m := CellMesh(rest.vertices, here.0 + rest.meshes, here.1 + rest.calls);
            MeshEntry(t, c, materials, m.vertices, m.meshes[|here.0| + i], m.calls[|here.0| + i], tail[i].0, tail[i].1)
  {
    ConcatRight(here.0, rest.meshes, |here.0| + i);
    ConcatRight(here.1, rest.calls, |here.0| + i);
  }

  /** Indexing past the first part of a concatenation lands in the second. */
  lemma ConcatRight<T>(a: seq<T>, b: seq<T>, k: int)
    requires |a| <= k < |a| + |b|
    ensures (a + b)[k] == b[k - |a|]
  {
  }

  /** Layer k of a shown side yields the k-th submesh and hook call of that side. */
  lemma HereEntry(t: NormalTable, c: CellAt, materials: Materials, side: int, indices: seq<int>,
                  here: (seq<Submesh>, seq<ProcessorCall>), vertices: seq<Vertex>, k: int)
    requires |materials| == 6 && 0 <= side < 6
    requires LayerMeshes(materials[side], c, side, indices, 0) == Ok(here)
    requires QuadIndices(t, vertices, indices, c.x, c.y, c.z, side)
    requires 0 <= k < |materials[side]|
    ensures k < |here.0| && k < |here.1|
    ensures MeshEntry(t, c, materials, vertices, here.0[k], here.1[k], side, k)
  {
    assert materials[side][0 + k].Some?;
  }

  /** `StupidMesher.build` for one cell, as written: the submeshes of every
      shown side, one per texture layer, all sharing that side's six triangle
      indices into the source's vertex list. */
  function Build(exposed: (int, int, int, Facing) -> bool, c: CellAt, materials: Materials,
                 vs: seq<Vertex>): (r: Result<CellMesh, MeshError>)
    requires |materials| == 6
    ensures r.Ok? <==> AllLoaded(exposed, c, materials, 0)
    ensures r.Ok? ==> BuiltCorrectly(AsWritten, exposed, c, materials, 0, vs, r.value)
  {
    BuildFrom(AsWritten, exposed, c, materials, 0, vs)
  }

  /** The same build over the vertex list whose normals point out of their faces. */
  function BuildOutward(exposed: (int, int, int, Facing) -> bool, c: CellAt, materials: Materials,
                        vs: seq<Vertex>): (r: Result<CellMesh, MeshError>)
    requires |materials| == 6
    ensures r.Ok? <==> AllLoaded(exposed, c, materials, 0)
    ensures r.Ok? ==> BuiltCorrectly(Outward, exposed, c, materials, 0, vs, r.value)
  {
    BuildFrom(Outward, exposed, c, materials, 0, vs)
  }

  /** Every layer of a shown side is among the emitted (side, layer) pairs. */
  lemma {:induction false} EmittedContains(exposed: (int, int, int, Facing) -> bool, c: CellAt, materials: Materials,
                                           side: int, s: int, j: int)
    requires |materials| == 6 && 0 <= side <= s < 6 && Shows(exposed, c, s) && 0 <= j < |materials[s]|
    ensures (s, j) in Emitted(exposed, c, materials, side)
    decreases 6 - side
  {
    if side == s {
      var head := seq(|materials[s]|, l => (s, l));
      assert head[j] == (s, j);
      assert Emitted(exposed, c, materials, side) == head + Emitted(exposed, c, materials, side + 1);
    } else {
      EmittedContains(exposed, c, materials, side + 1, s, j);
    }
  }

  /** Vertex 4 * side + q of a cell's list carries the table's normal for the side. */
  lemma TableVertexNormal(t: NormalTable, x: int, y: int, z: int, side: int, q: int)
    requires 0 <= side < 6 && 0 <= q < 4
    ensures TableVertices(t, x, y, z)[4 * side + q].normal == t.Normal(side)
  {
    assert (4 * side + q) / 4 == side;
  }

  /** All six triangle indices address a vertex with normal n. */
  predicate IndicesCarryNormal(vertices: seq<Vertex>, indices: seq<int>, n: Vec3i)
  {
    |indices| == 6
    && forall i :: 0 <= i < 6 ==> 0 <= indices[i] < |vertices| && vertices[indices[i]].normal == n
  }

  /** A side's triangle indices address vertices carrying that side's normal. */
  lemma QuadIndicesNormal(t: NormalTable, vertices: seq<Vertex>, indices: seq<int>, x: int, y: int, z: int, s: int)
    requires 0 <= s < 6 && QuadIndices(t, vertices, indices, x, y, z, s)
    ensures IndicesCarryNormal(vertices, indices, t.Normal(s))
  {
    QuadIndicesShareDiagonal(t, vertices, indices, x, y, z, s);
    forall i | 0 <= i < 6
      ensures vertices[indices[i]].normal == t.Normal(s)
    {
      TableVertexNormal(t, x, y, z, s, SideIndices(s)[i] - 4 * s);
    }
  }

  /** The position of layer j of a shown side s among the emitted pairs. */
  lemma ShownLayerEntry(exposed: (int, int, int, Facing) -> bool, c: CellAt, materials: Materials,
                        s: int, j: int) returns (k: int)
    requires |materials| == 6 && 0 <= s < 6 && Shows(exposed, c, s) && 0 <= j < |materials[s]|
    ensures 0 <= k < |Emitted(exposed, c, materials, 0)| && Emitted(exposed, c, materials, 0)[k] == (s, j)
  {
    EmittedContains(exposed, c, materials, 0, s, j);
    k := IndexOf(Emitted(exposed, c, materials, 0), (s, j));
  }

  /** The k-th submesh of a successful build is the one its k-th emitted pair names. */
  lemma EntryAt(t: NormalTable, exposed: (int, int, int, Facing) -> bool, c: CellAt, materials: Materials,
                m: CellMesh, vs: seq<Vertex>, k: int)
    requires |materials| == 6 && BuiltCorrectly(t, exposed, c, materials, 0, vs, m)
    requires 0 <= k < |Emitted(exposed, c, materials, 0)|
    ensures k < |m.meshes| && k < |m.calls|
    ensures var p := Emitted(exposed, c, materials, 0)[k];
            MeshEntry(t, c, materials, m.vertices, m.meshes[k], m.calls[k], p.0, p.1)
  {
  }

  /** ShownLayerNormals, assuming the build's success directly. */
  lemma OkLayerNormals(t: NormalTable, exposed: (int, int, int, Facing) -> bool, c: CellAt, materials: Materials,
                        vs: seq<Vertex>, s: int, j: int)
    requires |materials| == 6 && 0 <= s < 6 && Shows(exposed, c, s) && 0 <= j < |materials[s]|
    requires BuildFrom(t, exposed, c, materials, 0, vs).Ok?
    ensures var m := BuildFrom(t, exposed, c, materials, 0, vs).value;
            exists k :: 0 <= k < |m.meshes| && k < |m.calls|
              && m.calls[k] == ProcessorCall(c.x, c.y, c.z, s, j, m.meshes[k].material)
              && IndicesCarryNormal(m.vertices, m.meshes[k].indices, t.Normal(s))
  {
    var m := BuildFrom(t, exposed, c, materials, 0, vs).value;
    var k := ShownLayerEntry(exposed, c, materials, s, j);
    EntryAt(t, exposed, c, materials, m, vs, k);
    QuadIndicesNormal(t, m.vertices, m.meshes[k].indices, c.x, c.y, c.z, s);
    assert 0 <= k < |m.meshes| && k < |m.calls|
      && m.calls[k] == ProcessorCall(c.x, c.y, c.z, s, j, m.meshes[k].material)
      && IndicesCarryNormal(m.vertices, m.meshes[k].indices, t.Normal(s));
  }

  /** In a successful build, layer j of a shown side s has a submesh and a
      hook call, and each of the submesh's six indices addresses a vertex
      carrying the table's normal for s. */
  lemma ShownLayerNormals(t: NormalTable, exposed: (int, int, int, Facing) -> bool, c: CellAt, materials: Materials,
                          vs: seq<Vertex>, s: int, j: int)
    requires |materials| == 6 && 0 <= s < 6 && Shows(exposed, c, s) && 0 <= j < |materials[s]|
    requires AllLoaded(exposed, c, materials, 0)
    ensures var m := BuildFrom(t, exposed, c, materials, 0, vs).value;
            exists k :: 0 <= k < |m.meshes| && k < |m.calls|
              && m.calls[k] == ProcessorCall(c.x, c.y, c.z, s, j, m.meshes[k].material)
              && IndicesCarryNormal(m.vertices, m.meshes[k].indices, t.Normal(s))
  {
    assert BuildFrom(t, exposed, c, materials, 0, vs).Ok?;
    OkLayerNormals(t, exposed, c, materials, vs, s, j);
  }

  /** As written, every shown side's submeshes address vertices carrying the
      side's facing direction, except that north and south carry its
      opposite, so their normals point into the cell. */
  lemma WrittenBuildNormals(exposed: (int, int, int, Facing) -> bool, c: CellAt, materials: Materials,
                            vs: seq<Vertex>, s: int, j: int)
    requires |materials| == 6 && 0 <= s < 6 && Shows(exposed, c, s) && 0 <= j < |materials[s]|
    requires AllLoaded(exposed, c, materials, 0)
    ensures var m := Build(exposed, c, materials, vs).value;
            var n := if s == 2 || s == 3 then Negate(Facings[s].Direction()) else Facings[s].Direction();
            exists k :: 0 <= k < |m.meshes| && k < |m.calls|
              && m.calls[k] == ProcessorCall(c.x, c.y, c.z, s, j, m.meshes[k].material)
              && IndicesCarryNormal(m.vertices, m.meshes[k].indices, n)
  {
    assert Build(exposed, c, materials, vs).Ok?;
    WrittenNormalAgainstFacing(s);
    ShownLayerNormals(AsWritten, exposed, c, materials, vs, s, j);
  }

  /** With the outward table, every shown side's submeshes address vertices
      whose normal is that side's facing direction. */
  lemma OutwardBuildNormalsFaceOut(exposed: (int, int, int, Facing) -> bool, c: CellAt, materials: Materials,
                                   vs: seq<Vertex>, s: int, j: int)
    requires |materials| == 6 && 0 <= s < 6 && Shows(exposed, c, s) && 0 <= j < |materials[s]|
    requires AllLoaded(exposed, c, materials, 0)
    ensures var m := BuildOutward(exposed, c, materials, vs).value;
            exists k :: 0 <= k < |m.meshes| && k < |m.calls|
              && m.calls[k] == ProcessorCall(c.x, c.y, c.z, s, j, m.meshes[k].material)
              && IndicesCarryNormal(m.vertices, m.meshes[k].indices, Facings[s].Direction())
  {
    assert BuildOutward(exposed, c, materials, vs).Ok?;
    ShownLayerNormals(Outward, exposed, c, materials, vs, s, j);
  }

  /** The written and the outward builds succeed together, and make the same
      hook calls with the same materials in the same order. */
  lemma BuildsAgreeBesideNormals(exposed: (int, int, int, Facing) -> bool, c: CellAt, materials: Materials,
                                 vs: seq<Vertex>)
    requires |materials| == 6
    ensures Build(exposed, c, materials, vs).Ok? <==> BuildOutward(exposed, c, materials, vs).Ok?
    ensures Build(exposed, c, materials, vs).Ok? ==>
              var a, b := Build(exposed, c, materials, vs).value, BuildOutward(exposed, c, materials, vs).value;
              a.calls == b.calls && |a.meshes| == |b.meshes|
              && forall k :: 0 <= k < |a.meshes| ==> a.meshes[k].material == b.meshes[k].material
  {
    if Build(exposed, c, materials, vs).Ok? {
      var a, b := Build(exposed, c, materials, vs).value, BuildOutward(exposed, c, materials, vs).value;
      var pairs := Emitted(exposed, c, materials, 0);
      forall k | 0 <= k < |pairs|
        ensures a.calls[k] == b.calls[k] && a.meshes[k].material == b.meshes[k].material
      {
        assert MeshEntry(AsWritten, c, materials, a.vertices, a.meshes[k], a.calls[k], pairs[k].0, pairs[k].1);
        assert MeshEntry(Outward, c, materials, b.vertices, b.meshes[k], b.calls[k], pairs[k].0, pairs[k].1);
      }
    }
  }

  /** A cell none of whose sides shows adds no submesh and no vertex. */
  lemma {:induction false} HiddenCellAddsNothing(t: NormalTable, exposed: (int, int, int, Facing) -> bool, c: CellAt,
                                                 materials: Materials, side: int, vs: seq<Vertex>)
    requires |materials| == 6 && 0 <= side <= 6
    requires forall s :: side <= s < 6 ==> !Shows(exposed, c, s)
    ensures BuildFrom(t, exposed, c, materials, side, vs) == Ok(CellMesh(vs, [], []))
    decreases 6 - side
  {
    if side < 6 {
      HiddenCellAddsNothing(t, exposed, c, materials, side + 1, vs);
    }
  }

  /** The number of submeshes is the number of texture layers over the shown sides. */
  function LayerCount(exposed: (int, int, int, Facing) -> bool, c: CellAt, materials: Materials, side: int): nat
    requires |materials| == 6 && 0 <= side <= 6
    decreases 6 - side
  {
    if side == 6 then 0
    else (if Shows(exposed, c, side) then |materials[side]| else 0) + LayerCount(exposed, c, materials, side + 1)
  }

  lemma {:induction false} EmittedCount(exposed: (int, int, int, Facing) -> bool, c: CellAt, materials: Materials, side: int)
    requires |materials| == 6 && 0 <= side <= 6
    ensures |Emitted(exposed, c, materials, side)| == LayerCount(exposed, c, materials, side)
    decreases 6 - side
  {
    if side < 6 {
      EmittedCount(exposed, c, materials, side + 1);
    }
  }

  /** A fresh model's material slots: six sides, one empty slot per texture layer. */
  function InitialMaterials(b: Block): (r: Materials)
    requires !b.invisible && Valid(b)
    ensures |r| == 6
    ensures forall s :: 0 <= s < 6 ==> |r[s]| == |b.textures[s]| && forall j :: 0 <= j < |r[s]| ==> r[s][j].None?
  {
    seq(6, s requires 0 <= s < 6 => seq(|b.textures[s]|, _ => None))
  }

  /** The texture-load callback: the material for layer j of side i becomes available. */
  function SetMaterial(materials: Materials, i: int, j: int, m: Material): (r: Materials)
    requires 0 <= i < |materials| && 0 <= j < |materials[i]|
    ensures |r| == |materials| && forall s :: 0 <= s < |r| ==> |r[s]| == |materials[s]|
    ensures forall s, l :: 0 <= s < |r| && 0 <= l < |r[s]| ==>
              r[s][l] == if s == i && l == j then Some(m) else materials[s][l]
  {
    materials[i := materials[i][j := Some(m)]]
  }

  /** A model of a block: its material slots and its submesh hook. */
  datatype BlockModel = BlockModel(materials: Materials, processor: Tint)

  /** `BlockModelBakery.init`: a fresh model for every visible registered block. */
  function Bakery(): (r: map<Block, BlockModel>)
    ensures forall b :: b in r <==> b in Registry && !b.invisible
    ensures forall b :: b in r ==> r[b].processor == b.processor && |r[b].materials| == 6
  {
    RegistryFacts();
    map b | b in Registry && !b.invisible :: BlockModel(InitialMaterials(b), b.processor)
  }

  /** Air alone has no model; every other registered block has one, with one
      slot per texture layer and none loaded yet. */
  lemma BakeryCoversVisibleBlocks()
    ensures Air !in Bakery()
    ensures forall i :: 1 <= i < |Registry| ==> Registry[i] in Bakery()
    ensures forall b, s :: b in Bakery() && 0 <= s < 6 ==>
              |Bakery()[b].materials[s]| == |b.textures[s]|
              && forall j :: 0 <= j < |Bakery()[b].materials[s]| ==> Bakery()[b].materials[s][j].None?
  {
    RegistryFacts();
    assert Registry[0] == Air;
  }
}

=== FILE: structure.dfy ===
/** Prefabricated block patterns and their placement into a chunk
    (world/structure/Structure.kt). */
module Structures {
  import opened Wrappers
  import opened Blocks
  import opened ChunkPositions
  import opened Chunks
  import Radix

  /** A box of sizeX × sizeY × sizeZ blocks, stored at `Index` order. */
  datatype Structure = Structure(sizeX: int, sizeY: int, sizeZ: int, blocks: seq<Block>)
  {
    predicate Valid() { |blocks| == sizeX * sizeY * sizeZ }

    predicate InBox(x: int, y: int, z: int)
    {
      0 <= x < sizeX && 0 <= y < sizeY && 0 <= z < sizeZ
    }

    /** The flat index used by `get` and by the parser: x·sizeZ + y·sizeZ·sizeX + z. */
    function Index(x: int, y: int, z: int): int
    {
      x * sizeZ + y * sizeZ * sizeX + z
    }
  }

  /** The structure index is the mixed-radix flattening with y most
      significant, then x, then z. */
  lemma IndexIsFlat3(s: Structure, x: int, y: int, z: int)
    ensures s.Index(x, y, z) == Radix.Flat3(y, x, z, s.sizeX, s.sizeZ)
  {
    assert (y * s.sizeX + x) * s.sizeZ == y * s.sizeZ * s.sizeX + x * s.sizeZ;
  }

  /** The structure index maps the box one-to-one onto [0, sizeX·sizeY·sizeZ). */
  lemma IndexBijective(s: Structure, x: int, y: int, z: int, x': int, y': int, z': int)
    requires s.InBox(x, y, z) && s.InBox(x', y', z')
    ensures 0 <= s.Index(x, y, z) < s.sizeX * s.sizeY * s.sizeZ
    ensures s.Index(x, y, z) == s.Index(x', y', z') ==> x == x' && y == y' && z == z'
  {
    IndexIsFlat3(s, x, y, z);
    IndexIsFlat3(s, x', y', z');
    Radix.Flat3Bounds(y, x, z, s.sizeY, s.sizeX, s.sizeZ);
    assert s.sizeY * s.sizeX * s.sizeZ == s.sizeX * s.sizeY * s.sizeZ;
    if s.Index(x, y, z) == s.Index(x', y', z') {
      Radix.Flat3Injective(y, x, z, y', x', z', s.sizeY, s.sizeX, s.sizeZ);
    }
  }

  /** Every index of the block array is the index of some box cell. */
  lemma IndexOnto(s: Structure, i: int)
    requires s.sizeX > 0 && s.sizeY > 0 && s.sizeZ > 0 && 0 <= i < s.sizeX * s.sizeY * s.sizeZ
    ensures s.InBox(Radix.Mid(i, s.sizeX, s.sizeZ), Radix.Hi(i, s.sizeX, s.sizeZ), Radix.Lo(i, s.sizeZ))
    ensures s.Index(Radix.Mid(i, s.sizeX, s.sizeZ), Radix.Hi(i, s.sizeX, s.sizeZ), Radix.Lo(i, s.sizeZ)) == i
  {
    assert s.sizeY * s.sizeX * s.sizeZ == s.sizeX * s.sizeY * s.sizeZ;
    Radix.Flat3Encode(i, s.sizeY, s.sizeX, s.sizeZ);
    IndexIsFlat3(s, Radix.Mid(i, s.sizeX, s.sizeZ), Radix.Hi(i, s.sizeX, s.sizeZ), Radix.Lo(i, s.sizeZ));
  }

  /** `get(x, y, z)`. */
  function Get(s: Structure, x: int, y: int, z: int): (r: Block)
    requires s.Valid() && s.InBox(x, y, z)
    // the cell read with y as the most significant digit, then x, then z
    ensures r in s.blocks
    ensures 0 <= Radix.Flat3(y, x, z, s.sizeX, s.sizeZ) < |s.blocks| && r == s.blocks[Radix.Flat3(y, x, z, s.sizeX, s.sizeZ)]
  {
    IndexBijective(s, x, y, z, x, y, z);
    IndexIsFlat3(s, x, y, z);
    s.blocks[s.Index(x, y, z)]
  }

  /** Two structures of the same non-negative size that agree on every cell
      are the same structure: `Get` sees all of the block array. */
  lemma SameCellsSameStructure(s: Structure, t: Structure)
    requires s.Valid() && t.Valid() && s.sizeX >= 0 && s.sizeY >= 0 && s.sizeZ >= 0
    requires s.sizeX == t.sizeX && s.sizeY == t.sizeY && s.sizeZ == t.sizeZ
    requires forall x, y, z :: s.InBox(x, y, z) ==> Get(s, x, y, z) == Get(t, x, y, z)
    ensures s == t
  {
    if s.sizeX > 0 && s.sizeY > 0 && s.sizeZ > 0 {
      forall i | 0 <= i < |s.blocks|
        ensures s.blocks[i] == t.blocks[i]
      {
        IndexOnto(s, i);
        var x, y, z := Radix.Mid(i, s.sizeX, s.sizeZ), Radix.Hi(i, s.sizeX, s.sizeZ), Radix.Lo(i, s.sizeZ);
        assert Get(s, x, y, z) == Get(t, x, y, z);
      }
    } else {
      assert s.sizeX * s.sizeY * s.sizeZ == 0;
    }
  }

  datatype PlacementError = ExceedsChunkBorders

  /** The bounds test of `placeIntoChunk`. Because it uses ≥, a structure may
      not end flush with the chunk's last cell. */
  predicate FitsInChunk(s: Structure, startX: int, startY: int, startZ: int)
  {
    !((startX < 0 || startX + s.sizeX >= ChunkSize) ||
      (startY < 0 || startY + s.sizeY >= ChunkSize) ||
      (startZ < 0 || startZ + s.sizeZ >= ChunkSize))
  }

  /** Whether the pattern cell at offset (a, b, c) is a non-air block that placement writes. */
  predicate Overwrites(s: Structure, a: int, b: int, c: int)
    requires s.Valid()
  {
    s.InBox(a, b, c) && !BlockEquals(Get(s, a, b, c), Air)
  }

  /** What chunk cell (x, y, z) holds once the cells at offsets `Done` have been stamped. */
  function Stamped(s: Structure, ch: Chunk, startX: int, startY: int, startZ: int,
                   x: int, y: int, z: int, done: bool): Option<BlockState>
    requires s.Valid() && ch.Valid()
  {
    if done && Overwrites(s, x - startX, y - startY, z - startZ)
    then Some(BlockState(Get(s, x - startX, y - startY, z - startZ)))
    else GetBlock(ch, x, y, z)
  }

  /** Offset (a, b, c) comes before the loop counters (i, j, k) in x-y-z loop order. */
  predicate Before(a: int, b: int, c: int, i: int, j: int, k: int)
  {
    a < i || (a == i && (b < j || (b == j && c < k)))
  }

  /** `placeIntoChunk`: rejects a placement that crosses (or touches) the chunk
      border; otherwise copies every non-air pattern cell to its offset and
      leaves every other chunk cell alone. */
  method PlaceIntoChunk(s: Structure, ch: Chunk, startX: int, startY: int, startZ: int)
    returns (r: Result<Chunk, PlacementError>)
    requires s.Valid() && ch.Valid()
    ensures r.Err? <==> !FitsInChunk(s, startX, startY, startZ)
    ensures r.Ok? ==> r.value.Valid() && r.value.pos == ch.pos
    ensures r.Ok? ==> forall x, y, z :: InBounds(x, y, z) ==>
              GetBlock(r.value, x, y, z) == Stamped(s, ch, startX, startY, startZ, x, y, z, true)
  {
    if (startX < 0 || startX + s.sizeX >= ChunkSize) ||
       (startY < 0 || startY + s.sizeY >= ChunkSize) ||
       (startZ < 0 || startZ + s.sizeZ >= ChunkSize) {
      return Err(ExceedsChunkBorders);
    }
    var cur := ch;
    // Kotlin's `0 until n` is empty for negative n.
    for i := 0 to if s.sizeX < 0 then 0 else s.sizeX
      invariant cur.Valid() && cur.pos == ch.pos
      invariant forall x, y, z :: InBounds(x, y, z) ==>
                  GetBlock(cur, x, y, z) == Stamped(s, ch, startX, startY, startZ, x, y, z,
                                                    Before(x - startX, y - startY, z - startZ, i, 0, 0))
    {
      for j := 0 to if s.sizeY < 0 then 0 else s.sizeY
        invariant cur.Valid() && cur.pos == ch.pos
        invariant forall x, y, z :: InBounds(x, y, z) ==>
                    GetBlock(cur, x, y, z) == Stamped(s, ch, startX, startY, startZ, x, y, z,
                                                      Before(x - startX, y - startY, z - startZ, i, j, 0))
      {
        for k := 0 to if s.sizeZ < 0 then 0 else s.sizeZ
          invariant cur.Valid() && cur.pos == ch.pos
          invariant forall x, y, z :: InBounds(x, y, z) ==>
                      GetBlock(cur, x, y, z) == Stamped(s, ch, startX, startY, startZ, x, y, z,
                                                        Before(x - startX, y - startY, z - startZ, i, j, k))
        {
          var block := Get(s, i, j, k);
          if !BlockEquals(block, Air) {
            var written := SetBlock(cur, startX + i, startY + j, startZ + k, BlockState(block));
            cur := written.value;
          }
        }
      }
    }
    return Ok(cur);
  }

  /** A placement never erases: chunk cells under air pattern cells, and all
      cells outside the footprint, keep their contents. */
  lemma PlacementKeepsUnstamped(s: Structure, ch: Chunk, startX: int, startY: int, startZ: int, x: int, y: int, z: int)
    requires s.Valid() && ch.Valid() && InBounds(x, y, z)
    requires !Overwrites(s, x - startX, y - startY, z - startZ)
    ensures Stamped(s, ch, startX, startY, startZ, x, y, z, true) == GetBlock(ch, x, y, z)
  {
  }
}

=== FILE: structure_format.dfy ===
/** The line-oriented structure format read by `Structure.ofResource`
    (world/structure/Structure.kt): section headers `.info`, `.blocks` and
    `.layer N`, variables `$name=value`, and layer rows `|c|c|...|`. The parser
    is a fold of `Step` over the lines, followed by `Build`, which transposes
    the collected rows into a `Structure`. */
module StructureFormat {
  import opened Wrappers
  import opened Blocks
  import opened Text
  import opened Structures
  import Radix

  /** Everything that makes `ofResource` throw. */
  datatype FormatError =
    | MissingValue                 // `$name` with no `=`
    | EmptyVariableName            // `$=value` under `.blocks`
    | BadNumber(text: string)      // `toInt` rejects the text
    | NegativeArraySize            // a negative `sizeY`, or a negative cell count
    | UnknownBlock(name: string)   // `.blocks` names an unregistered block
    | SizeUndefined                // a layer row before all three sizes are set
    | MissingLayerIndex            // `.layer` with no argument
    | UnknownSynonym(arg: string)  // a row character never declared
    | LayerOutOfRange(layer: int)  // `.layer N` with N outside [0, sizeY)
    | MissingCell                  // too few rows, or a row too short, for the declared size

  /** The parser's variables: the three sizes (-1 until set), the rows
      collected per layer, the declared synonyms, and the current section. */
  datatype ParseState = ParseState(
    sizeX: int,
    sizeY: int,
    sizeZ: int,
    layers: seq<seq<seq<Block>>>,
    synonyms: map<char, Block>,
    section: string,
    args: seq<string>)
  {
    /** The layer buffer has been allocated for the current `sizeY`, or not at all. */
    predicate Valid()
    {
      (sizeY == -1 && layers == []) || (sizeY >= 0 && |layers| == sizeY)
    }
  }

  const Start: ParseState := ParseState(-1, -1, -1, [], map[], "", [])

  function ToInt(s: string): (r: Result<int, FormatError>)
    ensures r.Ok? <==> Numeral(s)
    ensures r.Ok? && AllDigits(s) ==> r.value == DigitsValue(s)
    ensures r.Ok? && StartsWith(s, '+') ==> r.value == DigitsValue(s[1..])
    ensures r.Ok? && StartsWith(s, '-') ==> r.value == -(DigitsValue(s[1..]) as int)
    ensures r.Err? ==> r.error == BadNumber(s)
  {
    match ParseInt(s)
    case None => Err(BadNumber(s))
    case Some(n) => Ok(n)
  }

  /** A row argument the parser cannot resolve: non-empty, not starting with
      a space, and with an undeclared first character. */
  predicate Undeclared(arg: string, synonyms: map<char, Block>)
  {
    arg != "" && arg[0] != ' ' && arg[0] !in synonyms
  }

  /** The pieces of a row that name a cell: the non-empty ones, in their order. */
  function NonEmpty(pieces: seq<string>): (r: seq<string>)
    ensures |r| <= |pieces|
    ensures forall k :: 0 <= k < |r| ==> r[k] != "" && r[k] in pieces
    ensures forall i :: 0 <= i < |pieces| && pieces[i] != "" ==> pieces[i] in r
  {
    if |pieces| == 0 then []
    else if pieces[0] == "" then NonEmpty(pieces[1..])
    else [pieces[0]] + NonEmpty(pieces[1..])
  }

  /** The cell a non-empty piece names: air when it starts with a space,
      otherwise the synonym of its first character, if one is declared. */
  function PieceCell(piece: string, synonyms: map<char, Block>): (r: Option<Block>)
    requires piece != ""
    ensures r.None? <==> Undeclared(piece, synonyms)
  {
    if piece[0] == ' ' then Some(Air)
    else if piece[0] in synonyms then Some(synonyms[piece[0]])
    else None
  }

  /** The cells of one row: empty pieces are skipped, a piece starting with
      a space is air, any other piece is its first character's synonym. */
  function ParseRow(pieces: seq<string>, synonyms: map<char, Block>): (r: Result<seq<Block>, FormatError>)
    ensures r.Err? <==> exists i :: 0 <= i < |pieces| && Undeclared(pieces[i], synonyms)
    ensures r.Ok? ==> forall k :: 0 <= k < |r.value| ==> r.value[k] == Air || r.value[k] in synonyms.Values
    ensures r.Ok? ==> |r.value| <= |pieces|
    // the k-th non-empty piece gives the k-th cell
    ensures r.Ok? ==> |r.value| == |NonEmpty(pieces)|
    ensures r.Ok? ==> forall k :: 0 <= k < |r.value| ==> PieceCell(NonEmpty(pieces)[k], synonyms) == Some(r.value[k])
  {
    if |pieces| == 0 then Ok([])
    else
      var arg := pieces[0];
      UndeclaredShift(pieces, synonyms);
      if arg == "" then
        assert NonEmpty(pieces) == NonEmpty(pieces[1..]);
        ParseRow(pieces[1..], synonyms)
      else
        var c := arg[0];
        if c != ' ' && c !in synonyms then
          Err(UnknownSynonym(arg))
        else
          var cell := if c == ' ' then Air else synonyms[c];
          match ParseRow(pieces[1..], synonyms)
          case Err(e) => Err(e)
          case Ok(cells) =>
            RowCellsCons(pieces, synonyms, cell, cells);
            Ok([cell] + cells)
  }

  /** A row has an undeclared piece exactly when its first piece is
      undeclared or the rest of the row has one. */
  lemma UndeclaredShift(pieces: seq<string>, synonyms: map<char, Block>)
    requires |pieces| > 0
    ensures (exists i :: 0 <= i < |pieces| && Undeclared(pieces[i], synonyms))
            <==> Undeclared(pieces[0], synonyms) || exists i :: 0 <= i < |pieces[1..]| && Undeclared(pieces[1..][i], synonyms)
  {
    if exists i :: 0 <= i < |pieces| && Undeclared(pieces[i], synonyms) {
      var i :| 0 <= i < |pieces| && Undeclared(pieces[i], synonyms);
      if i > 0 {
        assert pieces[1..][i - 1] == pieces[i];
      }
    }
    if exists i :: 0 <= i < |pieces[1..]| && Undeclared(pieces[1..][i], synonyms) {
      var i :| 0 <= i < |pieces[1..]| && Undeclared(pieces[1..][i], synonyms);
      assert pieces[i + 1] == pieces[1..][i];
    }
  }

  /** Reading a non-empty first piece puts its cell in front of the cells of
      the rest of the row. */
  lemma RowCellsCons(pieces: seq<string>, synonyms: map<char, Block>, cell: Block, cells: seq<Block>)
    requires |pieces| > 0 && pieces[0] != "" && PieceCell(pieces[0], synonyms) == Some(cell)
    requires |cells| == |NonEmpty(pieces[1..])|
    requires forall k :: 0 <= k < |cells| ==> PieceCell(NonEmpty(pieces[1..])[k], synonyms) == Some(cells[k])
    ensures |[cell] + cells| == |NonEmpty(pieces)|
    ensures forall k :: 0 <= k < |[cell] + cells| ==> PieceCell(NonEmpty(pieces)[k], synonyms) == Some(([cell] + cells)[k])
  {
    assert NonEmpty(pieces) == [pieces[0]] + NonEmpty(pieces[1..]);
    forall k | 0 <= k < |[cell] + cells|
      ensures PieceCell(NonEmpty(pieces)[k], synonyms) == Some(([cell] + cells)[k])
    {
      if k > 0 {
        assert NonEmpty(pieces)[k] == NonEmpty(pieces[1..])[k - 1];
      }
    }
  }

  /** The effect of one `$name=value` line. */
  function Assign(st: ParseState, name: string, value: string): (r: Result<ParseState, FormatError>)
    ensures st.Valid() && r.Ok? ==> r.value.Valid()
    // `sizeY` allocates that many empty layers, and a negative one throws
    ensures (st.section == "info" && name == "sizeY" && ParseInt(value).Some?) ==>
            (if ParseInt(value).value < 0 then r == Err(NegativeArraySize)
             else r == Ok(st.(sizeY := ParseInt(value).value, layers := seq(ParseInt(value).value, _ => []))))
    // `sizeX` and `sizeZ` take the value's number, and a value that is no number throws
    ensures (st.section == "info" && (name == "sizeX" || name == "sizeY" || name == "sizeZ")) ==>
            (r.Err? && r.error.BadNumber? <==> !Numeral(value))
    ensures (st.section == "info" && name == "sizeX" && r.Ok?) ==> r.value == st.(sizeX := ParseInt(value).value)
    ensures (st.section == "info" && name == "sizeZ" && r.Ok?) ==> r.value == st.(sizeZ := ParseInt(value).value)
    ensures (st.section == "info" && (name == "sizeX" || name == "sizeZ")) ==> (r.Ok? <==> Numeral(value))
    // any other name under `.info` is ignored
    ensures (st.section == "info" && name != "sizeX" && name != "sizeY" && name != "sizeZ") ==> r == Ok(st)
    // under `.blocks` the name's first character becomes a synonym of the named block
    ensures (st.section == "blocks" && name == "") ==> r == Err(EmptyVariableName)
    ensures (st.section == "blocks" && name != "" && ByName(value).Some?) ==>
            r == Ok(st.(synonyms := st.synonyms[name[0] := ByName(value).value]))
    // declaring a synonym for an unregistered block name throws
    ensures (st.section == "blocks" && name != "" && ByName(value).None?) ==> r == Err(UnknownBlock(value))
    // outside `.info` and `.blocks` a variable changes nothing
    ensures st.section != "info" && st.section != "blocks" ==> r == Ok(st)
  {
    if st.section == "info" then
      if name == "sizeX" then
        var n :- ToInt(value);
        Ok(st.(sizeX := n))
      else if name == "sizeY" then
        var n :- ToInt(value);
        if n < 0 then Err(NegativeArraySize)
        else Ok(st.(sizeY := n, layers := seq(n, _ => [])))
      else if name == "sizeZ" then
        var n :- ToInt(value);
        Ok(st.(sizeZ := n))
      else Ok(st)
    else if st.section == "blocks" then
      if |name| == 0 then Err(EmptyVariableName)
      else
        match ByName(value)
        case None => Err(UnknownBlock(value))
        case Some(b) => Ok(st.(synonyms := st.synonyms[name[0] := b]))
    else Ok(st)
  }

  /** All three sizes have been set. */
  predicate SizesKnown(st: ParseState)
  {
    st.sizeX != -1 && st.sizeY != -1 && st.sizeZ != -1
  }

  /** The effect of one `|...|` line under a `.layer` header. */
  function AddRow(st: ParseState, line: string): (r: Result<ParseState, FormatError>)
    ensures st.Valid() && r.Ok? ==> r.value.Valid()
    // the row is accepted exactly when the sizes are known, the section names
    // a layer index in range, and every piece of the row resolves
    ensures r.Ok? <==> SizesKnown(st) && |st.args| > 0 && ParseInt(st.args[0]).Some?
                       && 0 <= ParseInt(st.args[0]).value < |st.layers| && ParseRow(Split(line, '|'), st.synonyms).Ok?
    ensures r.Ok? ==> r.value == st.(layers := st.layers[ParseInt(st.args[0]).value :=
                                       st.layers[ParseInt(st.args[0]).value] + [ParseRow(Split(line, '|'), st.synonyms).value]])
    // the failures, in the order the source meets them
    ensures !SizesKnown(st) ==> r == Err(SizeUndefined)
    ensures SizesKnown(st) && |st.args| == 0 ==> r == Err(MissingLayerIndex)
    ensures SizesKnown(st) && |st.args| > 0 && !Numeral(st.args[0]) ==> r == Err(BadNumber(st.args[0]))
    ensures SizesKnown(st) && |st.args| > 0 && Numeral(st.args[0]) && ParseRow(Split(line, '|'), st.synonyms).Err?
            ==> r == Err(ParseRow(Split(line, '|'), st.synonyms).error)
    ensures SizesKnown(st) && |st.args| > 0 && Numeral(st.args[0]) && ParseRow(Split(line, '|'), st.synonyms).Ok?
            && !(0 <= ParseInt(st.args[0]).value < |st.layers|)
            ==> r == Err(LayerOutOfRange(ParseInt(st.args[0]).value))
  {
    if st.sizeX == -1 || st.sizeY == -1 || st.sizeZ == -1 then Err(SizeUndefined)
    else if |st.args| == 0 then Err(MissingLayerIndex)
    else
      var y :- ToInt(st.args[0]);
      var row :- ParseRow(Split(line, '|'), st.synonyms);
      if 0 <= y < |st.layers| then Ok(st.(layers := st.layers[y := st.layers[y] + [row]]))
      else Err(LayerOutOfRange(y))
  }

  /** One iteration of the line loop. */
  function Step(st: ParseState, line: string): (r: Result<ParseState, FormatError>)
    ensures st.Valid() && r.Ok? ==> r.value.Valid()
    // lines that are no header, variable or row change nothing
    ensures !StartsWith(line, '.') && !StartsWith(line, '$') && !StartsWith(line, '|') ==> r == Ok(st)
    // a row outside a `.layer` section is ignored
    ensures StartsWith(line, '|') && st.section != "layer" ==> r == Ok(st)
    // a row inside a `.layer` section before all sizes are known is an error
    ensures StartsWith(line, '|') && st.section == "layer" && !SizesKnown(st) ==> r == Err(SizeUndefined)
    // once the sizes are known, a row is accepted exactly when the section
    // names a layer index in range and every piece of the row resolves
    ensures StartsWith(line, '|') && st.section == "layer" && SizesKnown(st) ==>
            (r.Ok? <==> |st.args| > 0 && ParseInt(st.args[0]).Some? && 0 <= ParseInt(st.args[0]).value < |st.layers|
                        && ParseRow(Split(line, '|'), st.synonyms).Ok?)
    // and the failures are, in order: no index, an index that is no
    // numeral, and (for a row that resolves) an index outside the layers
    ensures StartsWith(line, '|') && st.section == "layer" && SizesKnown(st) && |st.args| == 0
            ==> r == Err(MissingLayerIndex)
    ensures StartsWith(line, '|') && st.section == "layer" && SizesKnown(st) && |st.args| > 0 && !Numeral(st.args[0])
            ==> r == Err(BadNumber(st.args[0]))
    ensures StartsWith(line, '|') && st.section == "layer" && SizesKnown(st) && |st.args| > 0 && Numeral(st.args[0])
            && ParseRow(Split(line, '|'), st.synonyms).Ok? && !(0 <= ParseInt(st.args[0]).value < |st.layers|)
            ==> r == Err(LayerOutOfRange(ParseInt(st.args[0]).value))
    // a row with an undeclared character is an error
    ensures (StartsWith(line, '|') && st.section == "layer" &&
             exists i :: 0 <= i < |Split(line, '|')| && Undeclared(Split(line, '|')[i], st.synonyms))
            ==> r.Err?
    // an accepted row is appended to its layer, and nothing else changes
    ensures (StartsWith(line, '|') && st.section == "layer" && r.Ok?) ==>
            (|st.args| > 0 && ParseInt(st.args[0]).Some? && 0 <= ParseInt(st.args[0]).value < |st.layers| &&
             ParseRow(Split(line, '|'), st.synonyms).Ok? &&
             r.value == st.(layers := st.layers[ParseInt(st.args[0]).value :=
                                                 st.layers[ParseInt(st.args[0]).value] + [ParseRow(Split(line, '|'), st.synonyms).value]]))
    // a header switches the section and nothing else: the first word after
    // the dot names the section, and the other words are its arguments
    ensures StartsWith(line, '.') ==>
            (r.Ok? && r.value.layers == st.layers && r.value.synonyms == st.synonyms &&
             r.value.sizeX == st.sizeX && r.value.sizeY == st.sizeY && r.value.sizeZ == st.sizeZ)
    ensures StartsWith(line, '.') ==>
            r.Ok? && [r.value.section] + r.value.args == Split(line[1..], ' ')
    // a variable line without `=` throws; otherwise its name and value are assigned
    ensures StartsWith(line, '$') && '=' !in line[1..] ==> r == Err(MissingValue)
    ensures StartsWith(line, '$') && '=' in line[1..] ==>
            r == Assign(st, Split(line[1..], '=')[0], Split(line[1..], '=')[1])
  {
    if StartsWith(line, '.') then
      var parts := Split(line[1..], ' ');
      Ok(st.(section := parts[0], args := parts[1..]))
    else if StartsWith(line, '$') then
      var decl := Split(line[1..], '=');
      if |decl| < 2 then Err(MissingValue)
      else Assign(st, decl[0], decl[1])
    else if StartsWith(line, '|') then
      if st.section == "layer" then AddRow(st, line) else Ok(st)
    else Ok(st)
  }

  /** The line loop: `Step` over every line, in order, stopping at the first error. */
  function ParseLines(st: ParseState, lines: seq<string>): (r: Result<ParseState, FormatError>)
    ensures st.Valid() && r.Ok? ==> r.value.Valid()
    decreases |lines|
  {
    if |lines| == 0 then Ok(st)
    else
      var next :- Step(st, lines[0]);
      ParseLines(next, lines[1..])
  }

  /** Parsing a concatenation parses the first part, then the second from there. */
  lemma {:induction false} ParseLinesAppend(st: ParseState, a: seq<string>, b: seq<string>)
    ensures ParseLines(st, a).Err? ==> ParseLines(st, a + b) == ParseLines(st, a)
    ensures ParseLines(st, a).Ok? ==> ParseLines(st, a + b) == ParseLines(ParseLines(st, a).value, b)
    decreases |a|
  {
    if |a| == 0 {
      assert a + b == b;
    } else {
      assert (a + b)[0] == a[0];
      assert (a + b)[1..] == a[1..] + b;
      match Step(st, a[0])
      case Ok(next) => ParseLinesAppend(next, a[1..], b);
      case Err(_) =>
    }
  }

  /** Every cell the transposition reads is there: sizeY layers, sizeZ rows
      in each, sizeX cells in each row. The loop runs x outermost, so with
      no column to copy (sizeX <= 0) no row is read at all. */
  predicate CellsPresent(st: ParseState)
  {
    && (st.sizeY <= 0 || st.sizeY <= |st.layers|)
    && (st.sizeX <= 0
        || ((forall y :: 0 <= y < st.sizeY ==> st.sizeZ <= |st.layers[y]|)
            && (forall y, z :: 0 <= y < st.sizeY && 0 <= z < st.sizeZ ==> st.sizeX <= |st.layers[y][z]|)))
  }

  /** The digits of a flat index below sizeX·sizeY·sizeZ name a cell of the box. */
  lemma DigitsInBox(i: int, sizeX: int, sizeY: int, sizeZ: int)
    requires sizeX > 0 && sizeY > 0 && sizeZ > 0 && 0 <= i < sizeX * sizeY * sizeZ
    ensures 0 <= Radix.Hi(i, sizeX, sizeZ) < sizeY
    ensures 0 <= Radix.Mid(i, sizeX, sizeZ) < sizeX
    ensures 0 <= Radix.Lo(i, sizeZ) < sizeZ
  {
    assert sizeY * sizeX * sizeZ == sizeX * sizeY * sizeZ;
    Radix.Flat3Encode(i, sizeY, sizeX, sizeZ);
  }

  /** The cell that the transposition stores at flat index i: cell x of row z of layer y. */
  function TransposedCell(st: ParseState, i: int): Block
    requires st.sizeX > 0 && st.sizeY > 0 && st.sizeZ > 0 && CellsPresent(st)
    requires 0 <= i < st.sizeX * st.sizeY * st.sizeZ
  {
    DigitsInBox(i, st.sizeX, st.sizeY, st.sizeZ);
    var x, y, z := Radix.Mid(i, st.sizeX, st.sizeZ), Radix.Hi(i, st.sizeX, st.sizeZ), Radix.Lo(i, st.sizeZ);
    assert 0 <= y < st.sizeY && 0 <= z < st.sizeZ && 0 <= x < st.sizeX;
    st.layers[y][z][x]
  }

  /** Cell (x, y, z) of the structure is cell x of row z collected under layer y. */
  ghost predicate TransposedFrom(s: Structure, st: ParseState)
    requires s.Valid()
  {
    forall x, y, z :: s.InBox(x, y, z) ==>
      y < |st.layers| && z < |st.layers[y]| && x < |st.layers[y][z]| && Get(s, x, y, z) == st.layers[y][z][x]
  }

  lemma TransposedCellAt(st: ParseState, s: Structure, x: int, y: int, z: int)
    requires st.sizeX > 0 && st.sizeY > 0 && st.sizeZ > 0 && CellsPresent(st)
    requires s.sizeX == st.sizeX && s.sizeY == st.sizeY && s.sizeZ == st.sizeZ && s.InBox(x, y, z)
    ensures 0 <= s.Index(x, y, z) < st.sizeX * st.sizeY * st.sizeZ
    ensures y < |st.layers| && z < |st.layers[y]| && x < |st.layers[y][z]|
    ensures TransposedCell(st, s.Index(x, y, z)) == st.layers[y][z][x]
  {
    var i := s.Index(x, y, z);
    IndexBijective(s, x, y, z, x, y, z);
    assert 0 <= i < st.sizeX * st.sizeY * st.sizeZ;
    IndexIsFlat3(s, x, y, z);
    assert i == Radix.Flat3(y, x, z, s.sizeX, s.sizeZ);
    Radix.Flat3Decode(y, x, z, s.sizeY, s.sizeX, s.sizeZ);
    DecodedCell(st, i, x, y, z);
  }

  lemma DecodedCell(st: ParseState, i: int, x: int, y: int, z: int)
    requires st.sizeX > 0 && st.sizeY > 0 && st.sizeZ > 0 && CellsPresent(st)
    requires 0 <= i < st.sizeX * st.sizeY * st.sizeZ
    requires Radix.Hi(i, st.sizeX, st.sizeZ) == y && Radix.Mid(i, st.sizeX, st.sizeZ) == x && Radix.Lo(i, st.sizeZ) == z
    ensures 0 <= y < st.sizeY && 0 <= z < st.sizeZ && 0 <= x < st.sizeX
    ensures TransposedCell(st, i) == st.layers[y][z][x]
  {
    DigitsInBox(i, st.sizeX, st.sizeY, st.sizeZ);
  }

  lemma TransposedCellsAgree(st: ParseState, s: Structure)
    requires st.sizeX > 0 && st.sizeY > 0 && st.sizeZ > 0 && CellsPresent(st)
    requires s.sizeX == st.sizeX && s.sizeY == st.sizeY && s.sizeZ == st.sizeZ && s.Valid()
    requires forall i :: 0 <= i < |s.blocks| ==> s.blocks[i] == TransposedCell(st, i)
    ensures TransposedFrom(s, st)
  {
    forall x, y, z | s.InBox(x, y, z)
      ensures y < |st.layers| && z < |st.layers[y]| && x < |st.layers[y][z]|
      ensures Get(s, x, y, z) == st.layers[y][z][x]
    {
      TransposedCellAt(st, s, x, y, z);
    }
  }

  /** The transposition after the loop: allocate sizeX·sizeY·sizeZ air blocks
      (a negative count throws), then copy cell x of row z of layer y to
      `Index(x, y, z)` for every cell of the box (a missing row or cell throws). */
  function Build(st: ParseState): (r: Result<Structure, FormatError>)
    requires st.Valid()
    ensures r.Ok? <==> st.sizeX * st.sizeY * st.sizeZ >= 0 && CellsPresent(st)
    ensures r.Ok? ==> r.value.Valid() && r.value.sizeX == st.sizeX && r.value.sizeY == st.sizeY && r.value.sizeZ == st.sizeZ
    ensures r.Ok? ==> TransposedFrom(r.value, st)
  {
    var n := st.sizeX * st.sizeY * st.sizeZ;
    if n < 0 then Err(NegativeArraySize)
    else if !CellsPresent(st) then Err(MissingCell)
    else if st.sizeX > 0 && st.sizeY > 0 && st.sizeZ > 0 then
      var s := Structure(st.sizeX, st.sizeY, st.sizeZ, seq(n, i requires 0 <= i < n => TransposedCell(st, i)));
      TransposedCellsAgree(st, s);
      Ok(s)
    else
      // some size is zero or negative: the loops run no iteration and the array stays air
      Ok(Structure(st.sizeX, st.sizeY, st.sizeZ, seq(n, _ => Air)))
  }

  /** With no columns, no row is read: layers without rows still build. */
  lemma NoColumnsNeedNoRows()
    ensures Build(ParseState(0, 1, 1, [[]], map[], "", [])) == Ok(Structure(0, 1, 1, []))
  {
  }

  /** `Structure.ofResource`, given the resource's lines. */
  function Parse(lines: seq<string>): (r: Result<Structure, FormatError>)
    ensures r.Ok? ==> r.value.Valid()
    ensures r.Ok? ==> ParseLines(Start, lines).Ok? && TransposedFrom(r.value, ParseLines(Start, lines).value)
    ensures r.Ok? ==> var st := ParseLines(Start, lines).value;
                      r.value.sizeX == st.sizeX && r.value.sizeY == st.sizeY && r.value.sizeZ == st.sizeZ
  {
    var st :- ParseLines(Start, lines);
    Build(st)
  }
}

=== FILE: structure_writer.dfy ===
/** Writing a structure in the line format that `Structure.ofResource` reads
    (world/structure/Structure.kt), and the round trip: reading back what was
    written gives the same structure. The writer is the partner of the parser;
    the repository itself only reads this format. */
module StructureWriter {
  import opened Wrappers
  import opened Blocks
  import opened Text
  import opened Structures
  import opened StructureFormat
  import KotlinMath

  /** The `.blocks` section: one character declared for each block. */
  type Legend = seq<(char, Block)>

  /** Every declaration survives the format: its character is not a space
      (which always reads as air), '=' or '|'; no character is declared twice;
      and the block is the registered block of that name, a name without '='. */
  predicate LegendValid(legend: Legend)
  {
    && (forall i :: 0 <= i < |legend| ==>
          legend[i].0 !in " =|" && '=' !in legend[i].1.name && ByName(legend[i].1.name) == Some(legend[i].1))
    && (forall i, j :: 0 <= i < j < |legend| ==> legend[i].0 != legend[j].0)
  }

  /** A valid legend's first declaration survives the format, its character
      is not declared again, and the rest of the legend is valid. */
  lemma LegendTail(legend: Legend)
    requires LegendValid(legend) && |legend| > 0
    ensures legend[0].0 !in " =|" && '=' !in legend[0].1.name && ByName(legend[0].1.name) == Some(legend[0].1)
    ensures forall i :: 0 <= i < |legend[1..]| ==> legend[1..][i].0 != legend[0].0
    ensures LegendValid(legend[1..])
  {
    forall i | 0 <= i < |legend[1..]|
      ensures legend[1..][i] == legend[i + 1]
    {
    }
  }

  /** The character the legend declares first for block b. */
  function Lookup(legend: Legend, b: Block): (r: Option<char>)
    ensures r.Some? <==> exists i :: 0 <= i < |legend| && legend[i].1 == b
  {
    if |legend| == 0 then None
    else if legend[0].1 == b then Some(legend[0].0)
    else
      assert forall i :: 1 <= i < |legend| ==> legend[i] == legend[1..][i - 1];
      Lookup(legend[1..], b)
  }

  /** The synonym table after the declarations are read in order: a later
      declaration of a character replaces an earlier one, as `HashMap.set` does. */
  function Declared(m: map<char, Block>, legend: Legend): map<char, Block>
    decreases |legend|
  {
    if |legend| == 0 then m else Declared(m[legend[0].0 := legend[0].1], legend[1..])
  }

  /** A character the legend never declares keeps its old meaning. */
  lemma {:induction false} DeclaredKeeps(m: map<char, Block>, legend: Legend, c: char)
    requires c in m
    requires forall i :: 0 <= i < |legend| ==> legend[i].0 != c
    ensures c in Declared(m, legend) && Declared(m, legend)[c] == m[c]
    decreases |legend|
  {
    if |legend| > 0 {
      assert forall i :: 1 <= i < |legend| ==> legend[i] == legend[1..][i - 1];
      DeclaredKeeps(m[legend[0].0 := legend[0].1], legend[1..], c);
    }
  }

  /** The legend's character for b reads back as b, whatever the table held before. */
  lemma {:induction false} DeclaredLookup(m: map<char, Block>, legend: Legend, b: Block)
    requires LegendValid(legend) && Lookup(legend, b).Some?
    ensures Lookup(legend, b).value !in " =|"
    ensures Lookup(legend, b).value in Declared(m, legend)
    ensures Declared(m, legend)[Lookup(legend, b).value] == b
    decreases |legend|
  {
    LegendTail(legend);
    if legend[0].1 == b {
      DeclaredKeeps(m[legend[0].0 := b], legend[1..], legend[0].0);
    } else {
      assert Lookup(legend, b) == Lookup(legend[1..], b);
      DeclaredLookup(m[legend[0].0 := legend[0].1], legend[1..], b);
    }
  }

  /** Every block of the row is air or has a character in the legend. */
  predicate Covers(legend: Legend, bs: seq<Block>)
  {
    forall k :: 0 <= k < |bs| ==> bs[k] == Air || Lookup(legend, bs[k]).Some?
  }

  /** One cell of a row: a space for air, the legend's character otherwise. */
  function Glyph(legend: Legend, b: Block): string
    requires b == Air || Lookup(legend, b).Some?
  {
    if b == Air then " " else [Lookup(legend, b).value]
  }

  function Glyphs(legend: Legend, bs: seq<Block>): seq<string>
    requires Covers(legend, bs)
  {
    if |bs| == 0 then []
    else
      assert forall k :: 1 <= k < |bs| ==> bs[k] == bs[1..][k - 1];
      [Glyph(legend, bs[0])] + Glyphs(legend, bs[1..])
  }

  /** A row line `|c|c|...|`: the glyphs between bars, with a bar at each end. */
  function RowLine(legend: Legend, bs: seq<Block>): string
    requires Covers(legend, bs)
  {
    Join([""] + Glyphs(legend, bs) + [""], '|')
  }

  /** The cells of row z of layer y, in x order. */
  function RowOf(s: Structure, y: int, z: int): (r: seq<Block>)
    requires s.Valid() && s.sizeX >= 0 && 0 <= y < s.sizeY && 0 <= z < s.sizeZ
    ensures |r| == s.sizeX
    ensures forall x :: 0 <= x < s.sizeX ==> r[x] == Get(s, x, y, z)
  {
    seq(s.sizeX, x requires 0 <= x < s.sizeX => Get(s, x, y, z))
  }

  /** Rows z, z+1, ... of layer y. */
  function RowsOf(s: Structure, y: int, z: int): (r: seq<seq<Block>>)
    requires s.Valid() && s.sizeX >= 0 && 0 <= y < s.sizeY && 0 <= z <= s.sizeZ
    ensures |r| == s.sizeZ - z
    ensures forall k :: 0 <= k < |r| ==> r[k] == RowOf(s, y, z + k)
    decreases s.sizeZ - z
  {
    if z == s.sizeZ then [] else [RowOf(s, y, z)] + RowsOf(s, y, z + 1)
  }

  /** A structure the format can hold with this legend: sizes that `toInt`
      reads back, and a character for every non-air block. */
  predicate Writable(s: Structure, legend: Legend)
  {
    && s.Valid()
    && 0 <= s.sizeX <= KotlinMath.INT_MAX && 0 <= s.sizeY <= KotlinMath.INT_MAX && 0 <= s.sizeZ <= KotlinMath.INT_MAX
    && LegendValid(legend)
    && forall x, y, z :: 0 <= x < s.sizeX && 0 <= y < s.sizeY && 0 <= z < s.sizeZ ==>
         Get(s, x, y, z) == Air || Lookup(legend, Get(s, x, y, z)).Some?
  }

  lemma RowCovered(s: Structure, legend: Legend, y: int, z: int)
    requires Writable(s, legend) && 0 <= y < s.sizeY && 0 <= z < s.sizeZ
    ensures Covers(legend, RowOf(s, y, z))
  {
    var r := RowOf(s, y, z);
    forall k | 0 <= k < |r|
      ensures r[k] == Air || Lookup(legend, r[k]).Some?
    {
      assert s.InBox(k, y, z);
    }
  }

  function VariableLine(name: string, value: string): string
  {
    "$" + Join([name, value], '=')
  }

  function Header(s: Structure): seq<string>
  {
    [".info",
     VariableLine("sizeX", ShowInt(s.sizeX)),
     VariableLine("sizeY", ShowInt(s.sizeY)),
     VariableLine("sizeZ", ShowInt(s.sizeZ)),
     ".blocks"]
  }

  function Declarations(legend: Legend): seq<string>
  {
    if |legend| == 0 then []
    else [VariableLine([legend[0].0], legend[0].1.name)] + Declarations(legend[1..])
  }

  function Rows(s: Structure, legend: Legend, y: int, z: int): seq<string>
    requires Writable(s, legend) && 0 <= y < s.sizeY && 0 <= z <= s.sizeZ
    decreases s.sizeZ - z
  {
    if z == s.sizeZ then []
    else
      RowCovered(s, legend, y, z);
      [RowLine(legend, RowOf(s, y, z))] + Rows(s, legend, y, z + 1)
  }

  function LayerHeader(y: int): string
  {
    "." + Join(["layer", ShowInt(y)], ' ')
  }

  /** Layers y, y+1, ...: a `.layer` header, then the layer's rows. */
  function Layers(s: Structure, legend: Legend, y: int): seq<string>
    requires Writable(s, legend) && 0 <= y <= s.sizeY
    decreases s.sizeY - y
  {
    if y == s.sizeY then []
    else [LayerHeader(y)] + Rows(s, legend, y, 0) + Layers(s, legend, y + 1)
  }

  /** The whole resource: sizes, the legend, then every layer bottom-up. */
  function Render(s: Structure, legend: Legend): seq<string>
    requires Writable(s, legend)
  {
    Header(s) + Declarations(legend) + Layers(s, legend, 0)
  }

  // ---- reading the lines back ----

  /** A loop over `[line] + rest` takes one step, then loops over the rest. */
  lemma ParseLinesCons(st: ParseState, line: string, rest: seq<string>)
    ensures Step(st, line).Ok? ==> ParseLines(st, [line] + rest) == ParseLines(Step(st, line).value, rest)
    ensures Step(st, line).Err? ==> ParseLines(st, [line] + rest) == Err(Step(st, line).error)
  {
    assert ([line] + rest)[0] == line;
    assert ([line] + rest)[1..] == rest;
  }

  /** A header line `.name arg ...` switches the section. */
  lemma HeaderStep(st: ParseState, parts: seq<string>)
    requires |parts| >= 1 && forall i :: 0 <= i < |parts| ==> ' ' !in parts[i]
    ensures Step(st, "." + Join(parts, ' ')) == Ok(st.(section := parts[0], args := parts[1..]))
  {
    var line := "." + Join(parts, ' ');
    assert line[1..] == Join(parts, ' ');
    SplitJoin(parts, ' ');
  }

  /** A variable line `$name=value` assigns value to name. */
  lemma VariableStep(st: ParseState, name: string, value: string)
    requires '=' !in name && '=' !in value
    ensures Step(st, VariableLine(name, value)) == Assign(st, name, value)
  {
    var line := VariableLine(name, value);
    assert line[1..] == Join([name, value], '=');
    SplitJoin([name, value], '=');
  }

  lemma SizeStep(st: ParseState, name: string, n: int)
    requires '=' !in name
    requires KotlinMath.INT_MIN <= n <= KotlinMath.INT_MAX
    ensures Step(st, VariableLine(name, ShowInt(n))) == Assign(st, name, ShowInt(n))
    ensures ToInt(ShowInt(n)) == Ok(n)
  {
    ShowIntHasNoDelimiters(n);
    VariableStep(st, name, ShowInt(n));
    ParseShowInt(n);
  }

  /** The state after the header: all three sizes, sizeY empty layers, no synonyms, in `.blocks`. */
  function AfterHeader(s: Structure): ParseState
    requires s.sizeY >= 0
  {
    ParseState(s.sizeX, s.sizeY, s.sizeZ, seq(s.sizeY, _ => []), map[], "blocks", [])
  }

  /** A header line without arguments. */
  lemma SectionStep(st: ParseState, name: string)
    requires ' ' !in name
    ensures Step(st, "." + name) == Ok(st.(section := name, args := []))
  {
    assert name == Join([name], ' ');
    assert [name][0] == name && [name][1..] == [];
    HeaderStep(st, [name]);
  }

  lemma SizeXStep(st: ParseState, n: int)
    requires st.section == "info" && KotlinMath.INT_MIN <= n <= KotlinMath.INT_MAX
    ensures Step(st, VariableLine("sizeX", ShowInt(n))) == Ok(st.(sizeX := n))
  {
    SizeStep(st, "sizeX", n);
  }

  lemma SizeYStep(st: ParseState, n: int)
    requires st.section == "info" && 0 <= n <= KotlinMath.INT_MAX
    ensures Step(st, VariableLine("sizeY", ShowInt(n))) == Ok(st.(sizeY := n, layers := seq(n, _ => [])))
  {
    SizeStep(st, "sizeY", n);
  }

  lemma SizeZStep(st: ParseState, n: int)
    requires st.section == "info" && KotlinMath.INT_MIN <= n <= KotlinMath.INT_MAX
    ensures Step(st, VariableLine("sizeZ", ShowInt(n))) == Ok(st.(sizeZ := n))
  {
    SizeStep(st, "sizeZ", n);
  }

  /** One more line in front: a step to `mid`, then the rest from there. */
  lemma StepThen(st: ParseState, line: string, rest: seq<string>, mid: ParseState, r: Result<ParseState, FormatError>)
    requires Step(st, line) == Ok(mid) && ParseLines(mid, rest) == r
    ensures ParseLines(st, [line] + rest) == r
  {
    ParseLinesCons(st, line, rest);
  }

  /** The three size variables under `.info`, then the `.blocks` header. */
  lemma SizesParse(s: Structure, st1: ParseState)
    requires KotlinMath.INT_MIN <= s.sizeX <= KotlinMath.INT_MAX
    requires 0 <= s.sizeY <= KotlinMath.INT_MAX
    requires KotlinMath.INT_MIN <= s.sizeZ <= KotlinMath.INT_MAX
    requires st1 == Start.(section := "info", args := [])
    ensures ParseLines(st1, Header(s)[1..]) == Ok(AfterHeader(s))
  {
    var st2 := st1.(sizeX := s.sizeX);
    var st3 := st2.(sizeY := s.sizeY, layers := seq(s.sizeY, _ => []));
    var st4 := st3.(sizeZ := s.sizeZ);
    var l1, l2, l3 := VariableLine("sizeX", ShowInt(s.sizeX)), VariableLine("sizeY", ShowInt(s.sizeY)),
                      VariableLine("sizeZ", ShowInt(s.sizeZ));
    var r := Ok(AfterHeader(s));
    SectionStep(st4, "blocks");
    StepThen(st4, ".blocks", [], AfterHeader(s), r);
    SizeZStep(st3, s.sizeZ);
    StepThen(st3, l3, [".blocks"], st4, r);
    SizeYStep(st2, s.sizeY);
    StepThen(st2, l2, [l3] + [".blocks"], st3, r);
    SizeXStep(st1, s.sizeX);
    StepThen(st1, l1, [l2] + ([l3] + [".blocks"]), st2, r);
    FiveLines(".info", l1, l2, l3, ".blocks");
  }

  /** Reading the header sets the three sizes and allocates the layers. */
  lemma HeaderParses(s: Structure)
    requires KotlinMath.INT_MIN <= s.sizeX <= KotlinMath.INT_MAX
    requires 0 <= s.sizeY <= KotlinMath.INT_MAX
    requires KotlinMath.INT_MIN <= s.sizeZ <= KotlinMath.INT_MAX
    ensures ParseLines(Start, Header(s)) == Ok(AfterHeader(s))
  {
    var st1 := Start.(section := "info", args := []);
    assert ParseLines(st1, Header(s)[1..]) == Ok(AfterHeader(s)) by {
      SizesParse(s, st1);
    }
    HeaderSplit(s);
    InfoThen(Header(s)[1..], Ok(AfterHeader(s)));
  }

  /** The `.info` header, then the rest of the lines from the `.info` section. */
  lemma InfoThen(rest: seq<string>, r: Result<ParseState, FormatError>)
    requires ParseLines(Start.(section := "info", args := []), rest) == r
    ensures ParseLines(Start, [".info"] + rest) == r
  {
    SectionStep(Start, "info");
    StepThen(Start, ".info", rest, Start.(section := "info", args := []), r);
  }

  lemma HeaderSplit(s: Structure)
    ensures Header(s) == [".info"] + Header(s)[1..]
  {
  }

  lemma FiveLines(a: string, b: string, c: string, d: string, e: string)
    ensures [a, b, c, d, e][1..] == [b] + ([c] + ([d] + [e]))
  {
  }

  /** One declaration `$c=name` under `.blocks` binds c to the named block. */
  lemma DeclarationStep(st: ParseState, c: char, b: Block)
    requires st.section == "blocks" && '=' != c && '=' !in b.name && ByName(b.name) == Some(b)
    ensures Step(st, VariableLine([c], b.name)) == Ok(st.(synonyms := st.synonyms[c := b]))
  {
    VariableStep(st, [c], b.name);
  }

  /** Reading the declarations under `.blocks` fills the synonym table in order. */
  lemma {:induction false} DeclarationsParse(st: ParseState, legend: Legend)
    requires st.section == "blocks" && LegendValid(legend)
    ensures ParseLines(st, Declarations(legend)) == Ok(st.(synonyms := Declared(st.synonyms, legend)))
    decreases |legend|
  {
    if |legend| > 0 {
      var c, b := legend[0].0, legend[0].1;
      var after := st.(synonyms := st.synonyms[c := b]);
      LegendTail(legend);
      DeclarationStep(st, c, b);
      assert Declarations(legend) == [VariableLine([c], b.name)] + Declarations(legend[1..]);
      ParseLinesCons(st, VariableLine([c], b.name), Declarations(legend[1..]));
      DeclarationsParse(after, legend[1..]);
    }
  }

  /** The synonym table reads every legend character as its block. */
  ghost predicate Resolves(m: map<char, Block>, legend: Legend)
  {
    forall b :: Lookup(legend, b).Some? ==> Lookup(legend, b).value in m && m[Lookup(legend, b).value] == b
  }

  lemma DeclaredResolves(legend: Legend)
    requires LegendValid(legend)
    ensures Resolves(Declared(map[], legend), legend)
  {
    forall b | Lookup(legend, b).Some?
      ensures Lookup(legend, b).value in Declared(map[], legend)
      ensures Declared(map[], legend)[Lookup(legend, b).value] == b
    {
      DeclaredLookup(map[], legend, b);
    }
  }

  /** The glyphs of a covered row, followed by the empty piece after the last
      bar, parse back to the row. */
  lemma {:induction false} GlyphsParse(legend: Legend, bs: seq<Block>, m: map<char, Block>)
    requires LegendValid(legend) && Covers(legend, bs) && Resolves(m, legend)
    ensures ParseRow(Glyphs(legend, bs) + [""], m) == Ok(bs)
  {
    var pieces := Glyphs(legend, bs) + [""];
    if |bs| == 0 {
      assert pieces == [""];
      assert pieces[1..] == [];
    } else {
      assert forall k :: 1 <= k < |bs| ==> bs[k] == bs[1..][k - 1];
      var g := Glyph(legend, bs[0]);
      var rest := Glyphs(legend, bs[1..]) + [""];
      assert pieces == [g] + rest;
      if bs[0] != Air {
        DeclaredLookup(map[], legend, bs[0]);
      }
      GlyphsParse(legend, bs[1..], m);
      ParseRowCons(g, rest, m, bs[0]);
      assert [bs[0]] + bs[1..] == bs;
    }
  }

  /** A piece naming block b, ahead of a row that parses, adds b in front. */
  lemma ParseRowCons(p: string, rest: seq<string>, m: map<char, Block>, b: Block)
    requires p != "" && (if p[0] == ' ' then b == Air else p[0] in m && m[p[0]] == b)
    requires ParseRow(rest, m).Ok?
    ensures ParseRow([p] + rest, m) == Ok([b] + ParseRow(rest, m).value)
  {
    assert ([p] + rest)[1..] == rest;
  }

  /** A row line splits into its glyphs and parses back to the row. */
  lemma RowLineParses(legend: Legend, bs: seq<Block>, m: map<char, Block>)
    requires LegendValid(legend) && Covers(legend, bs) && Resolves(m, legend)
    ensures StartsWith(RowLine(legend, bs), '|')
    ensures ParseRow(Split(RowLine(legend, bs), '|'), m) == Ok(bs)
  {
    RowLineSplits(legend, bs);
    RowPiecesParse(legend, bs, m);
  }

  /** The pieces of a row line, the empty ones at both ends included, parse back to the row. */
  lemma RowPiecesParse(legend: Legend, bs: seq<Block>, m: map<char, Block>)
    requires LegendValid(legend) && Covers(legend, bs) && Resolves(m, legend)
    ensures ParseRow([""] + Glyphs(legend, bs) + [""], m) == Ok(bs)
  {
    var gs := Glyphs(legend, bs);
    LeadingEmptySkipped([""] + gs + [""], m);
    assert ([""] + gs + [""])[1..] == gs + [""];
    GlyphsParse(legend, bs, m);
  }

  /** A row line splits at its bars back into an empty piece, the glyphs and
      another empty piece. */
  lemma RowLineSplits(legend: Legend, bs: seq<Block>)
    requires LegendValid(legend) && Covers(legend, bs)
    ensures StartsWith(RowLine(legend, bs), '|')
    ensures Split(RowLine(legend, bs), '|') == [""] + Glyphs(legend, bs) + [""]
  {
    var parts := [""] + Glyphs(legend, bs) + [""];
    assert |parts| >= 2 && parts[0] == "";
    assert RowLine(legend, bs) == [ '|' ] + Join(parts[1..], '|');
    GlyphsHaveNoBar(legend, bs);
    SplitJoin(parts, '|');
  }

  /** An empty piece, such as the one before a row's first bar, adds no cell. */
  lemma LeadingEmptySkipped(pieces: seq<string>, m: map<char, Block>)
    requires |pieces| > 0 && pieces[0] == ""
    ensures ParseRow(pieces, m) == ParseRow(pieces[1..], m)
  {
  }

  lemma {:induction false} GlyphsHaveNoBar(legend: Legend, bs: seq<Block>)
    requires LegendValid(legend) && Covers(legend, bs)
    ensures forall i :: 0 <= i < |Glyphs(legend, bs)| ==> '|' !in Glyphs(legend, bs)[i]
  {
    if |bs| > 0 {
      assert forall k :: 1 <= k < |bs| ==> bs[k] == bs[1..][k - 1];
      if bs[0] != Air {
        DeclaredLookup(map[], legend, bs[0]);
      }
      GlyphsHaveNoBar(legend, bs[1..]);
    }
  }

  /** The parser state while layer y is being read. */
  ghost predicate ReadingLayer(st: ParseState, s: Structure, legend: Legend, y: int)
  {
    && st.sizeX == s.sizeX && st.sizeY == s.sizeY && st.sizeZ == s.sizeZ
    && 0 <= y < |st.layers| == s.sizeY
    && st.section == "layer" && st.args == [ShowInt(y)]
    && Resolves(st.synonyms, legend)
  }

  /** One row line under `.layer y` appends the row to layer y. */
  lemma RowStep(s: Structure, legend: Legend, y: int, z: int, st: ParseState)
    requires Writable(s, legend) && 0 <= y < s.sizeY && 0 <= z < s.sizeZ
    requires ReadingLayer(st, s, legend, y)
    ensures Covers(legend, RowOf(s, y, z))
    ensures Step(st, RowLine(legend, RowOf(s, y, z))) == Ok(st.(layers := st.layers[y := st.layers[y] + [RowOf(s, y, z)]]))
  {
    RowCovered(s, legend, y, z);
    RowLineParses(legend, RowOf(s, y, z), st.synonyms);
    ParseShowInt(y);
  }

  /** Appending a row to the layer being read keeps the parser reading it. */
  lemma ReadingLayerKept(st: ParseState, s: Structure, legend: Legend, y: int, row: seq<Block>)
    requires ReadingLayer(st, s, legend, y)
    ensures ReadingLayer(st.(layers := st.layers[y := st.layers[y] + [row]]), s, legend, y)
  {
  }

  /** Appending one row to layer y and then the rest is appending both at once. */
  lemma AppendRowGlue(layers: seq<seq<seq<Block>>>, y: int, row: seq<Block>, rest: seq<seq<Block>>)
    requires 0 <= y < |layers|
    ensures var after := layers[y := layers[y] + [row]];
            after[y := after[y] + rest] == layers[y := layers[y] + ([row] + rest)]
  {
    assert layers[y] + [row] + rest == layers[y] + ([row] + rest);
  }

  /** Row z in front of rows z+1, ...: one step appends it, then the rest follow. */
  lemma RowsParseStep(s: Structure, legend: Legend, y: int, z: int, st: ParseState, after: ParseState)
    requires Writable(s, legend) && 0 <= y < s.sizeY && 0 <= z < s.sizeZ
    requires ReadingLayer(st, s, legend, y)
    requires after == st.(layers := st.layers[y := st.layers[y] + [RowOf(s, y, z)]])
    requires ParseLines(after, Rows(s, legend, y, z + 1))
             == Ok(after.(layers := after.layers[y := after.layers[y] + RowsOf(s, y, z + 1)]))
    ensures ParseLines(st, Rows(s, legend, y, z)) == Ok(st.(layers := st.layers[y := st.layers[y] + RowsOf(s, y, z)]))
  {
    var row := RowOf(s, y, z);
    RowStep(s, legend, y, z, st);
    assert RowsOf(s, y, z) == [row] + RowsOf(s, y, z + 1);
    assert Rows(s, legend, y, z) == [RowLine(legend, row)] + Rows(s, legend, y, z + 1);
    AppendRowGlue(st.layers, y, row, RowsOf(s, y, z + 1));
    StepThen(st, RowLine(legend, row), Rows(s, legend, y, z + 1), after,
             Ok(st.(layers := st.layers[y := st.layers[y] + RowsOf(s, y, z)])));
  }

  /** Reading rows z, z+1, ... of layer y appends them to that layer. */
  lemma {:induction false} RowsParse(s: Structure, legend: Legend, y: int, z: int, st: ParseState)
    requires Writable(s, legend) && 0 <= y < s.sizeY && 0 <= z <= s.sizeZ
    requires ReadingLayer(st, s, legend, y)
    ensures ParseLines(st, Rows(s, legend, y, z)) == Ok(st.(layers := st.layers[y := st.layers[y] + RowsOf(s, y, z)]))
    decreases s.sizeZ - z
  {
    if z == s.sizeZ {
      assert st.layers[y] + [] == st.layers[y];
      assert st.layers[y := st.layers[y]] == st.layers;
    } else {
      var row := RowOf(s, y, z);
      var after := st.(layers := st.layers[y := st.layers[y] + [row]]);
      ReadingLayerKept(st, s, legend, y, row);
      RowsParse(s, legend, y, z + 1, after);
      RowsParseStep(s, legend, y, z, st, after);
    }
  }

  /** The parser state before layer y is read: the sizes, a resolving synonym
      table, and layers below y complete, the others still empty. */
  ghost predicate BeforeLayer(st: ParseState, s: Structure, legend: Legend, y: int)
    requires Writable(s, legend) && 0 <= y <= s.sizeY
  {
    && st.sizeX == s.sizeX && st.sizeY == s.sizeY && st.sizeZ == s.sizeZ
    && |st.layers| == s.sizeY
    && Resolves(st.synonyms, legend)
    && (forall k :: 0 <= k < y ==> st.layers[k] == RowsOf(s, k, 0))
    && (forall k :: y <= k < s.sizeY ==> st.layers[k] == [])
  }

  /** Reading one whole layer: its header, then its rows. */
  lemma LayerParses(s: Structure, legend: Legend, y: int, st: ParseState)
    requires Writable(s, legend) && 0 <= y < s.sizeY
    requires BeforeLayer(st, s, legend, y)
    ensures ParseLines(st, [LayerHeader(y)] + Rows(s, legend, y, 0)).Ok?
    ensures BeforeLayer(ParseLines(st, [LayerHeader(y)] + Rows(s, legend, y, 0)).value, s, legend, y + 1)
  {
    ShowIntHasNoDelimiters(y);
    HeaderStep(st, ["layer", ShowInt(y)]);
    var reading := st.(section := "layer", args := [ShowInt(y)]);
    RowsParse(s, legend, y, 0, reading);
    var after := reading.(layers := reading.layers[y := reading.layers[y] + RowsOf(s, y, 0)]);
    StepThen(st, LayerHeader(y), Rows(s, legend, y, 0), reading, Ok(after));
    assert reading.layers[y] + RowsOf(s, y, 0) == RowsOf(s, y, 0);
  }

  lemma {:induction false} LayersParse(s: Structure, legend: Legend, y: int, st: ParseState)
    requires Writable(s, legend) && 0 <= y <= s.sizeY
    requires BeforeLayer(st, s, legend, y)
    ensures ParseLines(st, Layers(s, legend, y)).Ok?
    ensures BeforeLayer(ParseLines(st, Layers(s, legend, y)).value, s, legend, s.sizeY)
    decreases s.sizeY - y
  {
    if y < s.sizeY {
      var layer := [LayerHeader(y)] + Rows(s, legend, y, 0);
      var rest := Layers(s, legend, y + 1);
      assert Layers(s, legend, y) == layer + rest;
      LayerParses(s, legend, y, st);
      var mid := ParseLines(st, layer).value;
      ParseLinesAppend(st, layer, rest);
      assert ParseLines(st, Layers(s, legend, y)) == ParseLines(mid, rest);
      LayersParse(s, legend, y + 1, mid);
    }
  }

  /** After the header and the declarations: the sizes, empty layers, and
      the legend's synonyms. */
  lemma PreambleParses(s: Structure, legend: Legend)
    requires Writable(s, legend)
    ensures ParseLines(Start, Header(s) + Declarations(legend)) ==
            Ok(AfterHeader(s).(synonyms := Declared(map[], legend)))
  {
    HeaderParses(s);
    ParseLinesAppend(Start, Header(s), Declarations(legend));
    DeclarationsParse(AfterHeader(s), legend);
  }

  /** Once every layer is read, the transposition rebuilds the structure. */
  lemma BuildsBack(s: Structure, legend: Legend, f: ParseState)
    requires Writable(s, legend) && BeforeLayer(f, s, legend, s.sizeY)
    ensures f.Valid() && Build(f) == Ok(s)
  {
    assert CellsPresent(f);
    assert s.sizeX * s.sizeY * s.sizeZ >= 0;
    var r := Build(f);
    forall x, y, z | s.InBox(x, y, z)
      ensures Get(s, x, y, z) == Get(r.value, x, y, z)
    {
      assert r.value.InBox(x, y, z);
      assert f.layers[y] == RowsOf(s, y, 0);
      assert f.layers[y][z] == RowOf(s, y, z);
    }
    SameCellsSameStructure(s, r.value);
  }

  /** Reading a written structure gives the structure back. */
  lemma ParseRender(s: Structure, legend: Legend)
    requires Writable(s, legend)
    ensures Parse(Render(s, legend)) == Ok(s)
  {
    var preamble, layers := Header(s) + Declarations(legend), Layers(s, legend, 0);
    var d := AfterHeader(s).(synonyms := Declared(map[], legend));
    assert ParseLines(Start, preamble) == Ok(d) by {
      PreambleParses(s, legend);
    }
    assert BeforeLayer(d, s, legend, 0) by {
      DeclaredResolves(legend);
    }
    assert ParseLines(Start, Render(s, legend)) == ParseLines(d, layers) by {
      ParseLinesAppend(Start, preamble, layers);
    }
    LayersParse(s, legend, 0, d);
    BuildsBack(s, legend, ParseLines(d, layers).value);
  }
}

=== FILE: text.dfy ===
/** The Kotlin string operations the structure parser relies on: `split` by a
    one-character delimiter, and `String.toInt`. */
module Text {
  import opened Wrappers
  import Lists
  import KotlinMath

  predicate StartsWith(s: string, c: char)
  {
    |s| > 0 && s[0] == c
  }

  /** Joins the parts with the delimiter between neighbours. */
  function Join(parts: seq<string>, d: char): string
  {
    if |parts| == 0 then ""
    else if |parts| == 1 then parts[0]
    else parts[0] + [d] + Join(parts[1..], d)
  }

  /** `s.split(d)`: every piece between delimiters, empty pieces included; at
      least one piece. */
  function Split(s: string, d: char): (r: seq<string>)
    ensures |r| >= 1
    ensures Join(r, d) == s
    ensures forall i :: 0 <= i < |r| ==> d !in r[i]
    decreases |s|
  {
    var k := Lists.IndexOf(s, d);
    if k == -1 then [s]
    else
      var rest := Split(s[k + 1..], d);
      assert s == s[..k] + [d] + s[k + 1..];
      [s[..k]] + rest
  }

  /** Splitting undoes joining, provided no part contains the delimiter. */
  lemma {:induction false} SplitJoin(parts: seq<string>, d: char)
    requires |parts| >= 1
    requires forall i :: 0 <= i < |parts| ==> d !in parts[i]
    ensures Split(Join(parts, d), d) == parts
  {
    if |parts| == 1 {
      assert Lists.IndexOf(parts[0], d) == -1;
    } else {
      var s := Join(parts, d);
      var p0 := parts[0];
      assert s == p0 + [d] + Join(parts[1..], d);
      assert s[..|p0|] == p0;
      assert s[|p0|] == d;
      assert Lists.IndexOf(s, d) == |p0|;
      assert s[|p0| + 1..] == Join(parts[1..], d);
      SplitJoin(parts[1..], d);
    }
  }

  predicate IsDigit(c: char) { '0' <= c <= '9' }

  function DigitValue(c: char): int
    requires IsDigit(c)
  {
    c as int - '0' as int
  }

  /** The value of a string of decimal digits. */
  function DigitsValue(ds: string): (v: nat)
    requires forall i :: 0 <= i < |ds| ==> IsDigit(ds[i])
  {
    if |ds| == 0 then 0 else DigitsValue(ds[..|ds| - 1]) * 10 + DigitValue(ds[|ds| - 1])
  }

  predicate AllDigits(ds: string)
  {
    |ds| > 0 && forall i :: 0 <= i < |ds| ==> IsDigit(ds[i])
  }

  /** A decimal numeral `toInt` accepts: digits alone, or `+` or `-` followed
      by digits, whose value fits in a 32-bit `Int`. Leading zeros are allowed. */
  predicate Numeral(s: string)
  {
    || (AllDigits(s) && DigitsValue(s) <= KotlinMath.INT_MAX)
    || (StartsWith(s, '+') && AllDigits(s[1..]) && DigitsValue(s[1..]) <= KotlinMath.INT_MAX)
    || (StartsWith(s, '-') && AllDigits(s[1..]) && DigitsValue(s[1..]) <= -KotlinMath.INT_MIN)
  }

  /** `String.toInt` over ASCII digits: an optional `+` or `-`, one or more
      digits, and a value that fits in a 32-bit `Int`; anything else throws. */
  function ParseInt(s: string): (r: Option<int>)
    ensures r.Some? <==> Numeral(s)
    ensures r.Some? && AllDigits(s) ==> r.value == DigitsValue(s)
    ensures r.Some? && StartsWith(s, '+') ==> r.value == DigitsValue(s[1..])
    ensures r.Some? && StartsWith(s, '-') ==> r.value == -(DigitsValue(s[1..]) as int)
    ensures r.Some? ==> KotlinMath.INT_MIN <= r.value <= KotlinMath.INT_MAX
  {
    if |s| == 0 then None
    else
      var negative := s[0] == '-';
      var digits := if s[0] == '-' || s[0] == '+' then s[1..] else s;
      if !AllDigits(digits) then None
      else
        var v: int := if negative then -(DigitsValue(digits) as int) else DigitsValue(digits);
        if KotlinMath.INT_MIN <= v <= KotlinMath.INT_MAX then Some(v) else None
  }

  function DigitChar(d: int): (c: char)
    requires 0 <= d < 10
    ensures IsDigit(c) && DigitValue(c) == d
  {
    ('0' as int + d) as char
  }

  /** The decimal digits of a natural number, most significant first. */
  function ShowNat(n: nat): (s: string)
    ensures AllDigits(s)
    ensures DigitsValue(s) == n
  {
    if n < 10 then [DigitChar(n)]
    else
      var s := ShowNat(n / 10) + [DigitChar(n % 10)];
      assert s[..|s| - 1] == ShowNat(n / 10);
      s
  }

  /** Decimal rendering of an integer, as Kotlin's `toString`. */
  function ShowInt(n: int): string
  {
    if n < 0 then "-" + ShowNat(-n) else ShowNat(n)
  }

  /** `toInt` reads back every 32-bit integer's decimal rendering. */
  lemma ParseShowInt(n: int)
    requires KotlinMath.INT_MIN <= n <= KotlinMath.INT_MAX
    ensures ParseInt(ShowInt(n)) == Some(n)
  {
    if n < 0 {
      assert ShowInt(n)[1..] == ShowNat(-n);
    }
  }

  /** `toInt` takes a leading `+`, leading zeros and a negative zero, and
      rejects a bare sign, an empty text and a stray character. */
  lemma NumeralSamples()
    ensures ParseInt("+7") == Some(7)
    ensures ParseInt("007") == Some(7)
    ensures ParseInt("-0") == Some(0)
    ensures ParseInt("-") == None && ParseInt("") == None && ParseInt("1x") == None
  {
    assert "+7"[1..] == "7";
    assert "007"[..2] == "00" && "00"[..1] == "0";
    assert "-0"[1..] == "0";
    assert "1x"[1] == 'x';
  }

  /** A decimal rendering holds no delimiter the structure format splits on. */
  lemma ShowIntHasNoDelimiters(n: int)
    ensures ' ' !in ShowInt(n) && '=' !in ShowInt(n) && '|' !in ShowInt(n)
  {
    var s := ShowNat(if n < 0 then -n else n);
    assert forall i :: 0 <= i < |s| ==> IsDigit(s[i]);
  }
}

=== FILE: world.dfy ===
/** The sparse chunk store (`World` in world/World.kt). */
module Worlds {
  import opened Wrappers
  import opened Positioning
  import opened Blocks
  import opened ChunkPositions
  import opened Chunks

  /** `World.worldScale`: one block is one unit of scene space. */
  const WorldScale: int := 1

  /** The map from chunk positions to chunks. */
  datatype World = World(chunks: map<ChunkPosition, Chunk>)
  {
    /** Every stored chunk is well-formed and stored under its own position. */
    ghost predicate Valid()
    {
      forall p :: p in chunks ==> chunks[p].Valid() && chunks[p].pos == p
    }
  }

  const EmptyWorld: World := World(map[])

  /** `hasChunkAt`. */
  predicate HasChunkAt(w: World, p: ChunkPosition)
  {
    p in w.chunks
  }

  /** `getChunkAt`: the chunk at p, if any. It is not defined in World.kt; a plain map lookup. */
  function GetChunkAt(w: World, p: ChunkPosition): (r: Option<Chunk>)
    ensures r.Some? <==> HasChunkAt(w, p)
    ensures r.Some? ==> r.value == w.chunks[p]
  {
    if p in w.chunks then Some(w.chunks[p]) else None
  }

  /** `addChunk`: stores the chunk under its position, replacing any previous one. */
  function AddChunk(w: World, c: Chunk): (r: World)
    requires w.Valid() && c.Valid()
    ensures r.Valid()
    ensures HasChunkAt(r, c.pos) && r.chunks[c.pos] == c
    ensures forall q :: q != c.pos ==> (HasChunkAt(r, q) <==> HasChunkAt(w, q))
    ensures forall q :: q != c.pos && q in w.chunks ==> q in r.chunks && r.chunks[q] == w.chunks[q]
    ensures c.pos !in w.chunks ==> |r.chunks| == |w.chunks| + 1
  {
    World(w.chunks[c.pos := c])
  }

  /** `World.getBlock(x, y, z)` as written: it fabricates an empty chunk when
      the block's chunk is missing, then hands the WORLD coordinates to the
      chunk's LOCAL `getBlock`. */
  function GetBlock(w: World, x: int, y: int, z: int): (r: (World, Option<BlockState>))
    requires w.Valid()
    ensures r.0.Valid()
    ensures HasChunkAt(r.0, Of(BlockPos(x, y, z)))
    ensures HasChunkAt(w, Of(BlockPos(x, y, z))) ==> r.0 == w
    ensures !HasChunkAt(w, Of(BlockPos(x, y, z))) ==>
              r.0.chunks == w.chunks[Of(BlockPos(x, y, z)) := NewChunk(Of(BlockPos(x, y, z)))]
    ensures r.1 == Chunks.GetBlock(r.0.chunks[Of(BlockPos(x, y, z))], x, y, z)
    ensures r.1.Some? <==> InBounds(x, y, z)
  {
    var b := BlockPos(x, y, z);
    var p := Of(b);
    var w' := if p in w.chunks then w else World(w.chunks[p := NewChunk(Of(b))]);
    (w', Chunks.GetBlock(w'.chunks[p], x, y, z))
  }

  /** The block at world coordinates, read without side effects: absent when
      its chunk is missing, otherwise the chunk's cell at the block's offset
      from the chunk origin. */
  function BlockAt(w: World, x: int, y: int, z: int): (r: Option<BlockState>)
    requires w.Valid()
    ensures r.None? <==> !HasChunkAt(w, Of(BlockPos(x, y, z)))
    ensures r.Some? ==> var p := Of(BlockPos(x, y, z));
                        r.value == w.chunks[p].blocks[GetIndex(x - p.XPosition(), y - p.YPosition(), z - p.ZPosition())]
  {
    var p := Of(BlockPos(x, y, z));
    if p !in w.chunks then None
    else Chunks.GetBlock(w.chunks[p], x - p.XPosition(), y - p.YPosition(), z - p.ZPosition())
  }

  /** As written, `getBlock` agrees with the block actually stored at (x, y, z)
      exactly when (x, y, z) lies in chunk (0, 0, 0). */
  lemma GetBlockAgreesOnlyInOriginChunk(w: World, x: int, y: int, z: int)
    requires w.Valid()
    ensures GetBlock(w, x, y, z).1 == BlockAt(GetBlock(w, x, y, z).0, x, y, z) <==> InBounds(x, y, z)
  {
    var w' := GetBlock(w, x, y, z).0;
    assert BlockAt(w', x, y, z).Some?;
    if InBounds(x, y, z) {
      OfIsUnique(BlockPos(x, y, z), ChunkPosition(0, 0, 0));
    }
  }

  /** The smallest witness: with a stone-filled chunk at (1, 0, 0), block
      (17, 0, 0) is stone, yet `getBlock` answers nothing. */
  lemma GetBlockMissesOtherChunks()
    ensures var c := Chunk(ChunkPosition(1, 0, 0), seq(Volume, _ => BlockState(Stone)));
            var w := AddChunk(EmptyWorld, c);
            GetBlock(w, 17, 0, 0).1 == None && BlockAt(w, 17, 0, 0) == Some(BlockState(Stone))
  {
    var c := Chunk(ChunkPosition(1, 0, 0), seq(Volume, _ => BlockState(Stone)));
    var w := AddChunk(EmptyWorld, c);
    assert Of(BlockPos(17, 0, 0)) == ChunkPosition(1, 0, 0);
    assert GetIndex(1, 0, 0) == 256;
  }

  /** The face-exposure rule: the face of (x, y, z) towards `f` shows when the
      neighbouring cell's chunk exists and that cell holds an invisible block.
      A missing neighbour chunk counts as solid. */
  predicate IsBlockExposedOnSide(w: World, x: int, y: int, z: int, f: Facing)
    requires w.Valid()
  {
    var d := f.Direction();
    match BlockAt(w, x + d.x, y + d.y, z + d.z)
    case None => false
    case Some(s) => s.block.invisible
  }

  /** Inside a stored chunk, the chunk-local `canSee` agrees with world
      exposure at the matching world coordinates; across the chunk border
      `canSee` always answers false. */
  lemma CanSeeMatchesExposure(w: World, p: ChunkPosition, x: int, y: int, z: int, side: int)
    requires w.Valid() && p in w.chunks && InBounds(x, y, z) && 0 <= side < 6
    ensures var (nx, ny, nz) := Neighbour(x, y, z, Facings[side]);
            InBounds(nx, ny, nz) ==>
              CanSee(w.chunks[p], x, y, z, side)
              == Ok(IsBlockExposedOnSide(w, p.XPosition() + x, p.YPosition() + y, p.ZPosition() + z, Facings[side]))
    ensures var (nx, ny, nz) := Neighbour(x, y, z, Facings[side]);
            !InBounds(nx, ny, nz) ==> CanSee(w.chunks[p], x, y, z, side) == Ok(false)
  {
    var (nx, ny, nz) := Neighbour(x, y, z, Facings[side]);
    if InBounds(nx, ny, nz) {
      CanSeeInside(w, p, x, y, z, side, nx, ny, nz);
    } else {
      CanSeeAcross(w.chunks[p], x, y, z, side, nx, ny, nz);
    }
  }

  /** CanSeeMatchesExposure for a neighbour inside the chunk. */
  lemma CanSeeInside(w: World, p: ChunkPosition, x: int, y: int, z: int, side: int, nx: int, ny: int, nz: int)
    requires w.Valid() && p in w.chunks && InBounds(x, y, z) && 0 <= side < 6
    requires Neighbour(x, y, z, Facings[side]) == (nx, ny, nz) && InBounds(nx, ny, nz)
    ensures CanSee(w.chunks[p], x, y, z, side)
            == Ok(IsBlockExposedOnSide(w, p.XPosition() + x, p.YPosition() + y, p.ZPosition() + z, Facings[side]))
  {
    var f := Facings[side];
    NeighbourAt(x, y, z, f);
    ExposureOfLocal(w, p, x, y, z, f, nx, ny, nz);
    CanSeeCell(w.chunks[p], x, y, z, side, nx, ny, nz);
  }

  /** Seen from a stored chunk, a face is exposed exactly when the chunk's
      neighbouring cell holds an invisible block. */
  lemma ExposureOfLocal(w: World, p: ChunkPosition, x: int, y: int, z: int, f: Facing, nx: int, ny: int, nz: int)
    requires w.Valid() && p in w.chunks && InBounds(nx, ny, nz)
    requires nx == x + f.Direction().x && ny == y + f.Direction().y && nz == z + f.Direction().z
    ensures IsBlockExposedOnSide(w, p.XPosition() + x, p.YPosition() + y, p.ZPosition() + z, f)
            == w.chunks[p].blocks[GetIndex(nx, ny, nz)].block.invisible
  {
    var wx, wy, wz := p.XPosition() + x, p.YPosition() + y, p.ZPosition() + z;
    var vx, vy, vz := p.XPosition() + nx, p.YPosition() + ny, p.ZPosition() + nz;
    BlockAtLocal(w, p, nx, ny, nz);
    ExposedBy(w, wx, wy, wz, f, vx, vy, vz, w.chunks[p].blocks[GetIndex(nx, ny, nz)]);
  }

  /** Inside the chunk, `canSee` reports the neighbouring cell's invisible flag. */
  lemma CanSeeCell(c: Chunk, x: int, y: int, z: int, side: int, nx: int, ny: int, nz: int)
    requires c.Valid() && 0 <= side < 6
    requires Neighbour(x, y, z, Facings[side]) == (nx, ny, nz) && InBounds(nx, ny, nz)
    ensures CanSee(c, x, y, z, side) == Ok(c.blocks[GetIndex(nx, ny, nz)].block.invisible)
  {
  }

  /** CanSeeMatchesExposure for a neighbour outside the chunk. */
  lemma CanSeeAcross(c: Chunk, x: int, y: int, z: int, side: int, nx: int, ny: int, nz: int)
    requires c.Valid() && 0 <= side < 6
    requires Neighbour(x, y, z, Facings[side]) == (nx, ny, nz) && !InBounds(nx, ny, nz)
    ensures CanSee(c, x, y, z, side) == Ok(false)
  {
  }

  /** A face is exposed exactly when the block beyond it, once found, is invisible. */
  lemma ExposedBy(w: World, x: int, y: int, z: int, f: Facing, nx: int, ny: int, nz: int, s: BlockState)
    requires w.Valid()
    requires nx == x + f.Direction().x && ny == y + f.Direction().y && nz == z + f.Direction().z
    requires BlockAt(w, nx, ny, nz) == Some(s)
    ensures IsBlockExposedOnSide(w, x, y, z, f) == s.block.invisible
  {
  }

  /** A stored chunk's cell at local coordinates is the world's block at the
      matching world coordinates. */
  lemma BlockAtLocal(w: World, p: ChunkPosition, x: int, y: int, z: int)
    requires w.Valid() && p in w.chunks && InBounds(x, y, z)
    ensures BlockAt(w, p.XPosition() + x, p.YPosition() + y, p.ZPosition() + z) == Some(w.chunks[p].blocks[GetIndex(x, y, z)])
  {
    OriginInChunk(p, x, y, z);
  }
}

=== FILE: wrappers.dfy ===
/** Failure-compatible wrappers: `Option` stands for a Kotlin nullable value,
    `Result` for a computation that either returns or throws. */
module Wrappers {

  datatype Option<+T> = None | Some(value: T) {
    predicate IsFailure() { None? }

    function PropagateFailure<U>(): Option<U>
      requires None?
    {
      None
    }

    function Extract(): T
      requires Some?
    {
      value
    }
  }

  datatype Result<+T, +E> = Ok(value: T) | Err(error: E) {
    predicate IsFailure() { Err? }

    function PropagateFailure<U>(): Result<U, E>
      requires Err?
    {
      Err(error)
    }

    function Extract(): T
      requires Ok?
    {
      value
    }
  }
}
